=== FILE: README.md ===
# A Dafny model of the online gallery's core logic

This project models, in Dafny, the small pieces of exact logic inside a
department photo gallery. The gallery has a NestJS backend and a Next.js frontend. The rest of it is
database access, an image host and React views, which are outside the model.

The model covers four groups.

- **Backend write path.**
  - The per-IP comment rate limiter and its hourly sweep (`SpamGuard`).
  - The client-IP derivation from `X-Forwarded-For` (`ClientIp`).
  - The comment service's existence and limiter ordering (`CommentsService`).
  - The photo service over an abstract photo table (`PhotosService`). This covers like and editor's-pick toggles, the view counter, update and delete guards, pagination, the department list, the upload-date choice and the Cloudinary public-id matcher.
- **Validators and parsers.**
  - The upload file pipe (`FileValidation`).
  - The comment and photo request DTOs as validity predicates (`Dto`). The UUID form is that of section 3 of RFC 4122.
  - EXIF tag post-processing and the `"YYYY:MM:DD HH:MM:SS"` date splitting of the TIFF 6.0 DateTime tag (`Exif`).
- **Frontend utilities.**
  - The liked-photo list kept in local storage (`LikeManager`).
  - Relative-time labels (`TimeFormatter`).
  - The 32-bit nickname hash with its base-36 avatar seed, and random nicknames (`Nickname`).
- **Frontend component state.**
  - Gallery filters, URL sync, paging, search and sort (`GalleryPage`).
  - The top-three carousel (`TopThree`).
  - The filter bar (`FilterBar`).
  - The comment form (`CommentForm`).
  - The optimistic like button (`LikeButton`).
  - The upload form (`UploadForm`).

Shared pieces:
- `Common`: `Option`, `Result`, HTTP errors, splitting and joining, decimal numerals.
- `JsText`: JavaScript strings as UTF-16 code units, `trim`, `parseInt`.
- `Ordering`: a stable descending sort, and distinct ascending strings.

Modelling conventions:
- Services are pure state-transition functions over maps. Each returns the new state and a reply or an HTTP error.
- Time is explicit integer milliseconds.
- Timers become explicit events: the limiter sweep, the upload progress tick and the end of the like animation.
- A frontend fetch is split into issuing the request and its completion with the server's reply.
- Library primitives are function parameters and are not interpreted: `toLowerCase`, URL escaping and `Date` parsing.
- JavaScript's 32-bit `<<` and `&` are written out as ECMAScript ToInt32 (section 7.1.6 of ECMA-262) over unbounded integers.
- Lengths the browser measures are UTF-16 code-unit counts.

Three behaviours of the code that are easy to misread:
- A client's rate-limit window resets only when strictly more than 60 000 ms have passed since it opened (`comments.service.ts:44`).
- Likes are not recorded per client. A like or an unlike moves the counter by one every time, and nothing stops it going below zero (`photos.service.ts:196-203`).
- `create` runs the spam check before it looks the photo up. A comment on a missing photo therefore still uses up a slot (`comments.service.ts:64-75`).

## Model

| member | source | states |
|---|---|---|
| SpamGuard.CheckSpam | backend/src/comments/comments.service.ts:32-59 | Here "in the window" means at most 60 000 ms have elapsed. A new IP gets `{1, now}`. An entry older than the window resets to `{1, now}`. Inside the window, a count of 3 is refused with the rate-limit error and a lower count goes up by exactly one. No other IP's entry changes. |
| SpamGuard.CheckSpamPreservesWellFormed | backend/src/comments/comments.service.ts:32-59 | Every stored count stays in 1..3. |
| SpamGuard.Sweep | backend/src/comments/comments.service.ts:19-26 | Removes exactly the entries whose window started before `sweepTime − 3 600 000` and keeps the rest unchanged. |
| SpamGuard.SweepPreservesWellFormed | backend/src/comments/comments.service.ts:19-26 | The sweep keeps every count in 1..3. |
| SpamGuard.SweepIdempotent | backend/src/comments/comments.service.ts:19-26 | Sweeping twice at the same time equals sweeping once. |
| SpamGuard.SweepNeverChangesVerdict | backend/src/comments/comments.service.ts:19-59 | A sweep made no later than a request never changes whether that request is allowed. |
| SpamGuard.AtMostQuotaInWindow | backend/src/comments/comments.service.ts:42-58 | While a window has not expired, at most `3 − count` further requests are allowed. |
| SpamGuard.AtMostThreePerWindow | backend/src/comments/comments.service.ts:30-59 | Of any burst of attempts within 60 s of the first, at most three are allowed. |
| SpamGuard.ThreeAllowedThenRejected | backend/src/comments/comments.service.ts:32-59 | Three requests within a minute pass and a fourth is refused. One more than 60 s after the first opens a fresh window. |
| SpamGuard.SweepThenFreshWindow | backend/src/comments/comments.service.ts:19-48 | A full entry older than an hour is swept, and that IP then starts a fresh window. |
| ClientIp.FirstSegment | backend/src/comments/comments.controller.ts:35 | `split(',')[0]` is the prefix before the first comma. |
| ClientIp.DeriveIp | backend/src/comments/comments.controller.ts:34-37 | The result is never empty. A non-empty first header segment is used verbatim. Otherwise a non-empty remote address is used, and failing that `"unknown"`. |
| ClientIp.HeaderWins | backend/src/comments/comments.controller.ts:35 | A header not starting with a comma yields its text up to the first comma. |
| ClientIp.EmptyFirstHopFallsBack | backend/src/comments/comments.controller.ts:35-36 | A header starting with a comma falls back to the socket address. |
| ClientIp.ProxyChainExample | backend/src/comments/comments.controller.ts:35 | A proxy chain yields its first hop, leading space kept. |
| ClientIp.FallbackExamples | backend/src/comments/comments.controller.ts:35-37 | `""` and `",1.2.3.4"` fall back to the remote address. With no address the result is `"unknown"`. |
| CommentsService.Create | backend/src/comments/comments.service.ts:64-81 | The new row takes an id no row has yet. A rate-limited call raises the limiter's error and changes nothing. Otherwise the limiter slot is used. A missing photo then raises not-found without touching comments. Success stores the request's fields under the new id and leaves every existing comment as it was. |
| CommentsService.FindOne | backend/src/comments/comments.service.ts:96-106 | Not-found exactly for an unknown id, else the stored comment. |
| CommentsService.Update | backend/src/comments/comments.service.ts:111-119 | Not-found for an unknown id with nothing changed. Otherwise only the supplied fields of that comment change, and the reply is the new row. |
| CommentsService.Remove | backend/src/comments/comments.service.ts:124-131 | Not-found for an unknown id with nothing changed. Otherwise the row is deleted and returned. |
| CommentsService.CreateThenFind | backend/src/comments/comments.service.ts:64-106 | A created comment is found again under its id. |
| CommentsService.MissingPhotoStillCounts | backend/src/comments/comments.service.ts:64-81 | Three comments on a missing photo use up the window, so a valid comment right after is refused. |
| CommentsService.RemovedIsGone | backend/src/comments/comments.service.ts:96-131 | After removal, finding, updating and removing the id all raise not-found. |
| CommentsService.UpdateIdempotent | backend/src/comments/comments.service.ts:111-119 | Repeating an update changes nothing more. |
| PhotosService.ToggleLike | backend/src/photos/photos.service.ts:188-212 | Not-found on an unknown id. Otherwise `likeCount` moves by exactly +1 or −1 and nothing else changes. The reply is the new count with the requested flag echoed. |
| PhotosService.LikeThenUnlikeRestores | backend/src/photos/photos.service.ts:196-203 | A like followed by an unlike restores the table. |
| PhotosService.UnlikeHasNoFloor | backend/src/photos/photos.service.ts:196-203 | Unliking a photo with zero likes gives −1. |
| PhotosService.RepeatedLikesAccumulate | backend/src/photos/photos.service.ts:188-212 | `k` likes in a row add `k`, because nothing deduplicates them. |
| PhotosService.ToggleTopPick | backend/src/photos/photos.service.ts:217-234 | Not-found on an unknown id. Otherwise it negates `isTopPick` only and replies with the new flag. |
| PhotosService.ToggleTopPickTwice | backend/src/photos/photos.service.ts:224-227 | Two toggles restore the table. |
| PhotosService.FindOne | backend/src/photos/photos.service.ts:113-137 | Not-found on an unknown id. Otherwise `viewCount` goes up by exactly one and the reply is the record as read before the increment. |
| PhotosService.ViewReplyLags | backend/src/photos/photos.service.ts:113-137 | Consecutive views are all counted, and each reply lags the stored count by one. |
| PhotosService.Apply | backend/src/photos/photos.service.ts:149-152 | Each supplied field (department, title, description, upload date) is written and each absent one is kept. The id, the image, the counters and the pick flag never change. The patch is assumed to hold only these four fields (see Left out). |
| PhotosService.Update | backend/src/photos/photos.service.ts:142-159 | Not-found on an unknown id. Otherwise only that record takes the supplied fields, and the reply is the new record. |
| PhotosService.UpdateIdempotent | backend/src/photos/photos.service.ts:142-159 | A repeated update changes nothing more, and counters survive updates. |
| PhotosService.EmptyPatchNoChange | backend/src/photos/photos.service.ts:149-152 | An empty patch leaves the table unchanged. |
| PhotosService.Remove | backend/src/photos/photos.service.ts:164-183 | Not-found on an unknown id. Otherwise exactly that id is deleted and the others are kept. |
| PhotosService.RemovedIsGone | backend/src/photos/photos.service.ts:113-234 | After removal every id-based operation on that id raises not-found. |
| PhotosService.OperationsPreserveWellFormed | backend/src/photos/photos.service.ts:113-234 | Every operation keeps each record stored under its own id. |
| PhotosService.CeilDiv | backend/src/photos/photos.service.ts:105 | `totalPages` is the least `q` with `q·limit ≥ total`. |
| PhotosService.Matching | backend/src/photos/photos.service.ts:78 | The rows in the given department, or all rows when none is given. |
| PhotosService.Window | backend/src/photos/photos.service.ts:92-93 | `skip` then `take` is the slice starting at the offset, of the right length. |
| PhotosService.FindAll | backend/src/photos/photos.service.ts:75-108 | Exactly `min(limit, total − skip)` rows when the page starts inside the matches, and none otherwise. All of them are from the department, newest first. `total` is the matching count and `totalPages` is ⌈total/limit⌉. |
| PhotosService.FindAllWithDefaults | backend/src/photos/photos.service.ts:75 | An absent page reads as 1 and an absent limit as 20. Then at most 20 rows come back, and `total` is still the matching count. |
| PhotosService.BareRequestIsFirstPageOfTwenty | backend/src/photos/photos.controller.ts:55-61 | A request with no `page` and no `limit` is page 1 of 20, the same as asking for those values explicitly. It returns `min(20, total)` rows. |
| PhotosService.NewestMembers | backend/src/photos/photos.service.ts:81-94 | The date-ordered list holds exactly the matching rows. |
| PhotosService.PageCoversPosition | backend/src/photos/photos.service.ts:76-93 | Under one fixed order of the matches, the match at position `i` is row `i mod limit` of page `i div limit + 1`. The order of photos with the same upload date is an assumption; see "## Left out". |
| PhotosService.PagePosition | backend/src/photos/photos.service.ts:76 | Position `i` is `i mod limit` past the offset of page `i div limit + 1`. |
| PhotosService.OffsetWithinTotal | backend/src/photos/photos.service.ts:76-105 | A page starts inside the matches exactly when its number is at most `totalPages`. |
| PhotosService.PageNonEmptyIff | backend/src/photos/photos.service.ts:75-108 | A page is non-empty exactly when its number is at most `totalPages`. |
| PhotosService.GetDepartments | backend/src/photos/photos.service.ts:55-70 | Strictly ascending, and it holds exactly the department names that occur. |
| PhotosService.ChooseUploadDate | backend/src/photos/photos.service.ts:33-37 | Use the EXIF `dateTaken` when present. Otherwise use a non-empty supplied date, and otherwise now. |
| PhotosService.NoDateMeansNow | backend/src/photos/photos.service.ts:33-37 | With no EXIF date, an absent or empty supplied date means now. |
| PhotosService.ExifDateWins | backend/src/photos/photos.service.ts:33-37 | A parsed camera timestamp overrides any supplied date. |
| PhotosService.MatchAt | backend/src/photos/photos.service.ts:241 | The greedy match of `/\/v\d+\/(.+)\./` at a position, or none. |
| PhotosService.FirstMatch | backend/src/photos/photos.service.ts:241 | The leftmost match, with the greedy group. |
| PhotosService.ExtractPublicId | backend/src/photos/photos.service.ts:239-246 | `null` exactly when the pattern matches nowhere. Otherwise the group is non-empty and contains no line break. |
| PhotosService.ExtractPublicIdLeftmostGreedy | backend/src/photos/photos.service.ts:241-242 | The result is the text between the leftmost `/v<digits>/` and the last `.` on that line. |
| PhotosService.PublicIdOfVersionedPath | backend/src/photos/photos.service.ts:239-246 | `/v<n>/<path>.<ext>` yields `<path>`, folders included. |
| PhotosService.ExtractPublicIdExample | backend/src/photos/photos.service.ts:239-246 | `/v12/gallery/cat.jpg` yields `gallery/cat`. |
| FileValidation.DefaultPipe | backend/src/common/pipes/file-validation.pipe.ts:13-25 | 10 485 760 bytes and exactly the five image types. |
| FileValidation.Transform | backend/src/common/pipes/file-validation.pipe.ts:27-47 | Checks run in order: missing, then too large, then type not allowed. The file is accepted exactly when present, within the size and of a listed type, and is returned unchanged. |
| FileValidation.Message | backend/src/common/pipes/file-validation.pipe.ts:28-44 | The type message lists the allowed types joined by `", "`. |
| FileValidation.SizeBoundInclusive | backend/src/common/pipes/file-validation.pipe.ts:33-37 | Exactly the limit passes, one byte more fails. |
| FileValidation.SizeReportedBeforeType | backend/src/common/pipes/file-validation.pipe.ts:27-44 | An oversized file of a wrong type reports the size. |
| FileValidation.DefaultPipeExamples | backend/src/common/pipes/file-validation.pipe.ts:14-44 | Types are compared exactly: `image/png` passes and `IMAGE/PNG` fails. |
| FileValidation.TransformIdempotent | backend/src/common/pipes/file-validation.pipe.ts:27-47 | An accepted file is accepted again. |
| Dto.UuidFromGroups | backend/src/comments/dto/create-comment.dto.ts:4-6 | Five hex groups of 8-4-4-4-12 joined by hyphens are a UUID. |
| Dto.UuidToGroups | backend/src/comments/dto/create-comment.dto.ts:4-6 | Every UUID splits back into those five groups. |
| Dto.CommentBodyValid | backend/src/comments/dto/create-comment.dto.ts:3-17 | The field decorators, read as one rule: a non-empty UUID photo id, a non-empty string nickname of at most 50 characters, and non-empty string content of at most 200. Spelled out on strings by Dto.CommentBodyValidIff. |
| Dto.CommentBodyValidIff | backend/src/comments/dto/create-comment.dto.ts:3-17 | A UUID `photoId`, a nickname of 1..50 characters and content of 1..200 characters, all strings. |
| Dto.ContentBoundary | backend/src/comments/dto/create-comment.dto.ts:13-16 | 200 characters of content pass and 201 fail. |
| Dto.BlankContentAccepted | backend/src/comments/dto/create-comment.dto.ts:13-16 | Emptiness is judged on the raw text, so blanks pass. |
| Dto.PhotoBodyValidIff | backend/src/photos/dto/create-photo.dto.ts:3-20 | Three non-empty strings, the description at most 100 characters. `uploadDate` is absent, null or a string. |
| Dto.TitleUncapped | backend/src/photos/dto/create-photo.dto.ts:8-10 | The title has no length cap. |
| Dto.PhotoBodyValid | backend/src/photos/dto/create-photo.dto.ts:3-20 | The field decorators, read as one rule: non-empty string department and title, a non-empty string description of at most 100 characters, and an optional string upload date. Spelled out by Dto.PhotoBodyValidIff. |
| Exif.Description | backend/src/common/utils/exif-extractor.ts:29-63 | A tag's description when present and non-empty. |
| Exif.NumericValue | backend/src/common/utils/exif-extractor.ts:66-71 | A tag's value when present and non-zero. |
| Exif.ParseExifDate | backend/src/common/utils/exif-extractor.ts:85-104 | `undefined` exactly when the text has no space. |
| Exif.ParseFormattedDate | backend/src/common/utils/exif-extractor.ts:88-99 | A `YYYY:MM:DD HH:MM:SS` stamp yields its six numbers, the month minus one. |
| Exif.ParseDateTime | backend/src/common/utils/exif-extractor.ts:88-99 | Date and time parts split at the space parse field by field. |
| Exif.FieldsParse | backend/src/common/utils/exif-extractor.ts:89-98 | Zero-padded colon-separated numbers read back as those numbers. |
| Exif.SplitDateTime | backend/src/common/utils/exif-extractor.ts:88 | A numeric date part and a numeric time part joined by a space split back into the two parts. |
| Exif.SplitFields | backend/src/common/utils/exif-extractor.ts:89-90 | Three digit strings joined by colons split back into the three. |
| Exif.NumeralField | backend/src/common/utils/exif-extractor.ts:93-98 | `parseInt` of a zero-padded numeral is its value. |
| Exif.DateWithoutTime | backend/src/common/utils/exif-extractor.ts:88-103 | `"2024:01:15"` gives `undefined`. |
| Exif.MonthShift | backend/src/common/utils/exif-extractor.ts:94 | The month field becomes the zero-based JavaScript month. |
| Exif.Collect | backend/src/common/utils/exif-extractor.ts:26-71 | Field by field: the date from DateTimeOriginal or DateTime, and the camera only from Make and Model together. Aperture is `f/` + FNumber. ISO is `parseInt`. Lens, focal length and exposure are copied from the descriptions. Width and height are set exactly when the tag's value is non-zero, and equal that value. |
| Exif.ExtractExifData | backend/src/common/utils/exif-extractor.ts:20-78 | `null` exactly when the reader fails or no field was set. |
| Exif.DateTakenPrecedence | backend/src/common/utils/exif-extractor.ts:29-33 | DateTimeOriginal wins over DateTime. |
| Exif.DateTakenFallback | backend/src/common/utils/exif-extractor.ts:29-33 | DateTime is used only without DateTimeOriginal. |
| Exif.DateTagOnly | backend/src/common/utils/exif-extractor.ts:29-73 | One date tag yields a record holding only its parsed date. |
| Exif.TakenAtExample | backend/src/common/utils/exif-extractor.ts:20-99 | A lone well-formed DateTimeOriginal yields exactly its date. |
| Exif.UnparseableDateStillReported | backend/src/common/utils/exif-extractor.ts:29-73 | An unparseable date still makes the record non-null. |
| Exif.OnlyDateTags | backend/src/common/utils/exif-extractor.ts:26-71 | Date tags fill in the date and nothing else. |
| Exif.MakeAloneNoCamera | backend/src/common/utils/exif-extractor.ts:36-38 | Make without Model records no camera. |
| LikeManager.GetLikedPhotos | frontend/src/lib/like-manager.ts:58-67 | The stored list, or empty without a window or with missing or unreadable data. |
| LikeManager.IsPhotoLiked | frontend/src/lib/like-manager.ts:11-16 | False without a window. Otherwise the id is in the stored list. Toggling flips it and leaves other ids alone (LikeManager.ToggleLike). |
| LikeManager.AddLike | frontend/src/lib/like-manager.ts:21-29 | A no-op without a window or when present. Otherwise it appends the id at the end. |
| LikeManager.Without | frontend/src/lib/like-manager.ts:38 | Drops every occurrence of the id and keeps exactly the others. |
| LikeManager.RemoveLike | frontend/src/lib/like-manager.ts:34-40 | Writes back the list without the id. |
| LikeManager.ToggleLike | frontend/src/lib/like-manager.ts:45-53 | Returns the new membership, and in a browser the id's membership flips. |
| LikeManager.AddLikeKeepsDistinct | frontend/src/lib/like-manager.ts:24-28 | Adding never creates a duplicate. |
| LikeManager.WithoutKeepsOthers | frontend/src/lib/like-manager.ts:37-39 | Every other id keeps its number of occurrences. |
| LikeManager.WithoutAppend | frontend/src/lib/like-manager.ts:38 | Removal works piece by piece, so the order is kept. |
| LikeManager.ToggleTwiceRestoresMembership | frontend/src/lib/like-manager.ts:45-53 | Two toggles restore the id's membership. |
| LikeManager.ToggleLeavesOthers | frontend/src/lib/like-manager.ts:45-53 | Toggling one id leaves every other id's membership alone. |
| LikeManager.SyncResult | frontend/src/lib/like-manager.ts:99-111 | The server count only on success with a non-zero count, else `null`. |
| LikeManager.NonZeroCountRoundTrip | frontend/src/lib/like-manager.ts:99-111 | A non-zero server count is adopted unchanged, and a count of 0 is never adopted. |
| LikeManager.ZeroCountLooksLikeFailure | frontend/src/lib/like-manager.ts:102 | A count of 0 is indistinguishable from a failure. |
| TimeFormatter.BucketOf | frontend/src/lib/time-formatter.ts:6-53 | Each range picks exactly one unit: under 60 s, negative included, is "just now". Minutes apply from 60 s to under an hour, hours up to a day, days under 7, weeks from 7 to 29 days, months from 30 to 364 days, and years from 365 days. Each count is the floor of the elapsed time in that unit (weeks ⌊days/7⌋, months ⌊days/30⌋, years ⌊days/365⌋). |
| TimeFormatter.BucketMonotone | frontend/src/lib/time-formatter.ts:6-53 | A longer elapsed time never gets an earlier-sounding label. |
| TimeFormatter.Render | frontend/src/lib/time-formatter.ts:11-52 | The count in decimal followed by the unit's suffix. |
| TimeFormatter.GetRelativeTime | frontend/src/lib/time-formatter.ts:6-53 | The label for each range: "방금 전" under a minute, then the count followed by "분 전", "시간 전", "일 전", "주 전", "개월 전" or "년 전", using the same ranges and counts as the buckets. |
| TimeFormatter.RenderInjective | frontend/src/lib/time-formatter.ts:20-52 | Different buckets are labelled differently. |
| TimeFormatter.StartsWithDigit | frontend/src/lib/time-formatter.ts:11-52 | Only labels with a count start with a digit. |
| TimeFormatter.Examples | frontend/src/lib/time-formatter.ts:6-53 | Boundary cases: 59.999 s, 60 s, one hour, 29 days, 364 days, 730 days. |
| Nickname.ToInt32 | frontend/src/lib/nickname-generator.ts:44-45 | The signed 32-bit value congruent to the input modulo 2^32. |
| Nickname.ToInt32InjectiveNear | frontend/src/lib/nickname-generator.ts:45 | Values less than 2^32 apart with the same ToInt32 are equal. |
| Nickname.HashOf | frontend/src/lib/nickname-generator.ts:41-46 | The loop's result lies in the signed 32-bit range. |
| Nickname.HashIsWrappedPoly | frontend/src/lib/nickname-generator.ts:41-46 | The running hash equals ToInt32 of the base-31 polynomial of the code units. |
| Nickname.Base36 | frontend/src/lib/nickname-generator.ts:47 | At least one character, only `0-9a-z`, and no leading zero. |
| Nickname.Base36RoundTrip | frontend/src/lib/nickname-generator.ts:47 | Reading the rendering back gives the number. |
| Nickname.ParseBase36RoundTrip | frontend/src/lib/nickname-generator.ts:47 | Every canonical base-36 string is the rendering of its value. |
| Nickname.Base36LengthBound | frontend/src/lib/nickname-generator.ts:47 | Numbers below 36^k render in at most `k` characters. |
| Nickname.Base36AtMostSix | frontend/src/lib/nickname-generator.ts:47 | Any value up to 2^31 renders in at most six characters. |
| Nickname.GetNicknameHash | frontend/src/lib/nickname-generator.ts:40-48 | The loop computes base 36 of the absolute value of the wrapped polynomial hash. The seed has 1 to 6 characters from `0-9a-z`. |
| Nickname.GetAvatarUrl | frontend/src/lib/nickname-generator.ts:55-60 | The DiceBear prefix followed by the seed. |
| Nickname.EmptyNicknameSeed | frontend/src/lib/nickname-generator.ts:41-47 | The empty nickname's seed is `"0"`. |
| Nickname.LastUnitMatters | frontend/src/lib/nickname-generator.ts:42-46 | Nicknames that differ only in their last code unit hash differently. |
| Nickname.GenerateRandomNickname | frontend/src/lib/nickname-generator.ts:29-33 | Split at the space, the nickname is the drawn adjective and the drawn animal. |
| Nickname.NoSpaces | frontend/src/lib/nickname-generator.ts:2-23 | No word of either list contains a space. |
| Nickname.NicknameInjective | frontend/src/lib/nickname-generator.ts:29-33 | The nickname determines the adjective and the animal. |
| JsText.CharUnits | frontend/src/lib/nickname-generator.ts:42-43 | A character is one UTF-16 unit inside the basic plane and two outside. |
| JsText.CharUnitsRoundTrip | frontend/src/lib/nickname-generator.ts:42-43 | The units decode back to the character. |
| JsText.CodeUnits | frontend/src/lib/nickname-generator.ts:42-43 | Between one and two 16-bit units per character. |
| JsText.CodeUnitsOfBmp | frontend/src/lib/nickname-generator.ts:42-43 | In the basic plane, `charCodeAt(i)` is the `i`-th character and `length` is the character count. |
| JsText.CodeUnitsAppend | frontend/src/lib/nickname-generator.ts:42-43 | Encoding works character by character. |
| JsText.Length | frontend/src/components/gallery/CommentSection.tsx:64 | `length` lies between the character count and twice it. |
| JsText.Trim | frontend/src/components/gallery/CommentSection.tsx:59 | A substring, empty exactly for all-whitespace text, and otherwise starting and ending with a non-space. |
| JsText.TrimIdempotent | frontend/src/components/gallery/CommentSection.tsx:59-81 | Trimming twice equals trimming once. |
| JsText.ParseInt | backend/src/common/utils/exif-extractor.ts:57 | Empty or blank text is `NaN`. |
| JsText.ParseIntOfNumeral | backend/src/common/utils/exif-extractor.ts:93-98 | A digit string reads as its decimal value. |
| JsText.ParseIntStopsAtNonDigit | backend/src/common/utils/exif-extractor.ts:57 | Reading stops at the first non-digit. |
| JsText.ParseIntSignExample | backend/src/common/utils/exif-extractor.ts:57 | Leading blanks and a sign are accepted. |
| JsText.ParseIntNaNExample | backend/src/common/utils/exif-extractor.ts:57 | Text without digits is `NaN`. |
| JsText.ParseIntOfDigitStart | backend/src/common/utils/exif-extractor.ts:57 | Text starting with a digit is read with no sign and no blank skipping. |
| JsText.ParseIntNumeralExample | backend/src/common/utils/exif-extractor.ts:57 | `"400"` reads as 400. |
| JsText.ParseIntTrailingTextExample | backend/src/common/utils/exif-extractor.ts:57 | `"12abc"` reads as 12. |
| Ordering.SortDesc | frontend/src/app/gallery/page.tsx:219-231 | A permutation, ordered by non-increasing key. |
| Ordering.SortDescStable | frontend/src/app/gallery/page.tsx:219-231 | Elements with equal keys keep their order. |
| Ordering.DistinctAscending | backend/src/photos/photos.service.ts:55-70 | Strictly ascending, with exactly the input's strings. |
| GalleryPage.UrlParams | frontend/src/app/gallery/page.tsx:89-98 | `dept` only off "전체", `sort` only off "latest", `q` only when non-empty. No other key appears, and the keys come in the order dept, sort, q, each at most once. No parameter at all exactly for the default filters. |
| GalleryPage.InitialFilters | frontend/src/app/gallery/page.tsx:65-71 | The department is the `dept` value, or "전체" when missing or empty. The sort is the `sort` value, or "latest" when missing or empty. The query is the `q` value, or empty when missing. |
| GalleryPage.UrlRoundTrip | frontend/src/app/gallery/page.tsx:65-101 | Reading the written URL restores the filters exactly when department and sort are non-empty. |
| GalleryPage.GalleryUrl | frontend/src/app/gallery/page.tsx:89-102 | Bare `/gallery` exactly for the default filters, else `/gallery?` and the query string. |
| GalleryPage.FetchParams | frontend/src/app/gallery/page.tsx:152-159 | `page`, `limit=12`, and `departmentName` only off "전체". No other key appears, and the keys come in that order. |
| GalleryPage.FetchNeverSendsSortOrSearch | frontend/src/app/gallery/page.tsx:152-162 | Neither the sort order nor the search text is ever sent to the server. |
| GalleryPage.LoadPhotos | frontend/src/app/gallery/page.tsx:146-160 | A no-op while loading. Otherwise the page is marked loading and the request issued. |
| GalleryPage.Complete | frontend/src/app/gallery/page.tsx:168-185 | A reset replaces the list and sets page 1, otherwise the page is appended. `hasMore` iff at least 12 arrived. A failure only ends loading. |
| GalleryPage.LoadMore | frontend/src/app/gallery/page.tsx:188-192 | The counter always moves to `page + 1`. |
| GalleryPage.FiltersChanged | frontend/src/app/gallery/page.tsx:110-113 | The new filters are recorded and the shown list is kept until a reply arrives. When no load is running, a reset request for page 1 of the new department is issued. While a load runs, the request is dropped. |
| GalleryPage.FilterChangeShowsFirstPage | frontend/src/app/gallery/page.tsx:110-185 | When the reload a filter change issued completes, the list is exactly the first page for the new filters and the page counter is 1. |
| GalleryPage.SingleFlight | frontend/src/app/gallery/page.tsx:146-149 | Taking the loading flag as visible at once, at most one request is in flight and a second one is dropped (see Left out for the source's stale reads). |
| GalleryPage.FilterChangeWhileLoadingIsDropped | frontend/src/app/gallery/page.tsx:110-149 | A filter change during a load issues nothing and keeps the old photos. |
| GalleryPage.ScrollAfterLoad | frontend/src/app/gallery/page.tsx:179-343 | Infinite scroll continues exactly after a full page with no search text. |
| GalleryPage.ScrollEnabled | frontend/src/app/gallery/page.tsx:341-343 | Infinite scroll asks for more only while the last page was full and no search text is entered. |
| GalleryPage.LoadMoreSkipsPage | frontend/src/app/gallery/page.tsx:146-192 | As written, a scroll during a load skips the next page (see Findings). |
| GalleryPage.LoadMoreFixed | frontend/src/app/gallery/page.tsx:188-192 | Corrected `loadMore`: the counter does not move until the page arrives. |
| GalleryPage.CompleteFixed | frontend/src/app/gallery/page.tsx:172-177 | Corrected completion: the counter becomes the page that arrived. |
| GalleryPage.FixedKeepsFirstPages | frontend/src/app/gallery/page.tsx:146-192 | With the correction the list is always exactly pages 1..page: none skipped, none twice. |
| GalleryPage.ResetShowsFirstPage | frontend/src/app/gallery/page.tsx:172-174 | A reload shows exactly the first page. |
| GalleryPage.FilterPhotos | frontend/src/app/gallery/page.tsx:209-216 | An empty query keeps everything. Otherwise the result is exactly the photos whose lower-cased title or description contains the lower-cased query. |
| GalleryPage.FilterAppend | frontend/src/app/gallery/page.tsx:209-216 | Filtering keeps the loaded order: it commutes with appending a page. |
| GalleryPage.FilterIdempotent | frontend/src/app/gallery/page.tsx:209-216 | Filtering twice equals filtering once. |
| GalleryPage.SortedPhotos | frontend/src/app/gallery/page.tsx:219-231 | A permutation of the filtered list, non-increasing in likes for "popular", views for "views", and date otherwise. |
| GalleryPage.SortKey | frontend/src/app/gallery/page.tsx:219-231 | The sort key: likes for "popular", views for "views", and the upload time for "latest" and any other value. |
| GalleryPage.SortedPhotosStable | frontend/src/app/gallery/page.tsx:219-231 | Ties keep the loaded order. |
| GalleryPage.UnknownSortIsLatest | frontend/src/app/gallery/page.tsx:220-229 | Any other sort value orders like "latest". |
| GalleryPage.FindById | frontend/src/app/gallery/page.tsx:201-206 | Nothing exactly when no photo has the id. Otherwise the first photo of the list with that id. |
| TopThree.TopThree | frontend/src/components/gallery/TopThreeBanner.tsx:30 | The first `min(n, 3)` photos, in order. |
| TopThree.BannerVisibility | frontend/src/components/gallery/TopThreeBanner.tsx:21-155 | Rendered exactly for a non-empty list, with arrows and dots exactly from two photos on. Every shown photo `i` gets the medal of rank `i + 1`. |
| TopThree.Next | frontend/src/components/gallery/TopThreeBanner.tsx:32-34 | Stays below `n`: one forward, and the last wraps to 0. |
| TopThree.Prev | frontend/src/components/gallery/TopThreeBanner.tsx:36-38 | Stays below `n`: one back, and 0 wraps to `n − 1`. |
| TopThree.NextPrevInverse | frontend/src/components/gallery/TopThreeBanner.tsx:32-38 | Next and Prev undo each other. |
| TopThree.AdvanceIsAddition | frontend/src/components/gallery/TopThreeBanner.tsx:32-34 | `k` forward presses give `(i + k) mod n`. |
| TopThree.FullCircle | frontend/src/components/gallery/TopThreeBanner.tsx:32-34 | `n` forward presses return to the start. |
| TopThree.ArrowRecoversStaleIndex | frontend/src/components/gallery/TopThreeBanner.tsx:32-38 | After the list shrinks, one arrow press brings the index back in range. |
| FilterBar.DepartmentsWithColors | frontend/src/components/gallery/FilterBar.tsx:43-49 | `n + 1` chips. The first is "전체" in grey. Chip `i + 1` is department `i` in colour `i mod 8`. |
| FilterBar.ChipNames | frontend/src/components/gallery/FilterBar.tsx:43-49 | The chip names are "전체" followed by the departments in order. |
| FilterBar.ColorPeriod | frontend/src/components/gallery/FilterBar.tsx:7-49 | Two departments share a colour exactly when their positions agree modulo 8. |
| FilterBar.PaletteDistinct | frontend/src/components/gallery/FilterBar.tsx:7-10 | The eight palette colours are distinct. |
| FilterBar.AllChipSelection | frontend/src/components/gallery/FilterBar.tsx:80-81 | The "전체" chip is highlighted exactly when no department is selected. |
| FilterBar.SortIndex | frontend/src/components/gallery/FilterBar.tsx:56 | The option's position, or −1 exactly when it is not offered. |
| FilterBar.PopularHasNoButton | frontend/src/components/gallery/FilterBar.tsx:12-15 | Only "latest" and "views" are offered. |
| FilterBar.Apply | frontend/src/components/gallery/FilterBar.tsx:85-246 | Each control changes exactly its own filter. |
| FilterBar.ClearingHidesActiveLine | frontend/src/components/gallery/FilterBar.tsx:215-252 | The line shows iff a department or a query is set. Clearing both hides it, and clearing one keeps the other and the sort. |
| FilterBar.ClearCommutes | frontend/src/components/gallery/FilterBar.tsx:231-246 | The clear buttons commute and are idempotent. |
| FilterBar.AllChipClears | frontend/src/components/gallery/FilterBar.tsx:43-85 | Clicking "전체" equals clearing the department. |
| CommentForm.InitNickname | frontend/src/components/gallery/CommentSection.tsx:36-45 | A non-empty stored nickname is reused. Otherwise a generated one is used and stored. |
| CommentForm.ChangeNickname | frontend/src/components/gallery/CommentSection.tsx:114-118 | A new random nickname, stored at once. |
| CommentForm.NicknamePersists | frontend/src/components/gallery/CommentSection.tsx:36-45 | Remounting keeps the nickname whatever the new draw. |
| CommentForm.GeneratedNicknameFits | frontend/src/lib/nickname-generator.ts:29-33 | Generated nicknames fit the backend's 50-character limit. |
| CommentForm.Submit | frontend/src/components/gallery/CommentSection.tsx:56-83 | Blank text, then over-long text, sets an error and sends nothing. The length is measured untrimmed. Otherwise the form is marked submitting and the trimmed text is sent with the id and nickname. |
| CommentForm.Finish | frontend/src/components/gallery/CommentSection.tsx:85-110 | Success clears the input and passes the comment up. Failure keeps the text and shows the server's message or the fallback. Submitting ends either way. |
| CommentForm.EnabledIffSubmits | frontend/src/components/gallery/CommentSection.tsx:258 | The button is enabled exactly when not submitting and a submission would be sent. |
| CommentForm.Disabled | frontend/src/components/gallery/CommentSection.tsx:258 | Disabled while submitting, for blank text, or for text over 200 UTF-16 units. Enabled exactly when a submission would be sent (CommentForm.EnabledIffSubmits). |
| CommentForm.ClearedFormIsDisabled | frontend/src/components/gallery/CommentSection.tsx:96 | After a success the button is disabled until something is typed. |
| CommentForm.SubmittedBodyIsValid | frontend/src/components/gallery/CommentSection.tsx:64-81 | What the form sends passes the backend's comment validation. |
| CommentForm.RemainingChars | frontend/src/components/gallery/CommentSection.tsx:120 | Negative exactly when the text is too long. |
| CommentForm.Color | frontend/src/components/gallery/CommentSection.tsx:244-250 | Red under 20 remaining, yellow under 50, muted otherwise. It only escalates as text grows (CommentForm.ColorMonotone). |
| CommentForm.ColorMonotone | frontend/src/components/gallery/CommentSection.tsx:244-250 | The counter colour only escalates as text grows, and too-long text is red. |
| LikeButton.Mount | frontend/src/components/ui/LikeButton.tsx:32-34 | The initial heart is the stored membership. |
| LikeButton.Press | frontend/src/components/ui/LikeButton.tsx:37-50 | Ignored while animating. Otherwise the heart flips, the count moves by ±1 with no floor, and the stored membership toggles. |
| LikeButton.Settle | frontend/src/components/ui/LikeButton.tsx:82-90 | A non-null server count replaces the shown count. The parent gets that count or the optimistic one, with the new flag. |
| LikeButton.AnimationEnded | frontend/src/components/ui/LikeButton.tsx:92 | Only the animation flag clears. |
| LikeButton.PressKeepsInSync | frontend/src/components/ui/LikeButton.tsx:43-50 | The heart and the stored list keep agreeing. |
| LikeButton.ParentSeesShownState | frontend/src/components/ui/LikeButton.tsx:82-90 | The parent is told what the button shows. |
| LikeButton.PressTwiceRestores | frontend/src/components/ui/LikeButton.tsx:37-92 | Like then unlike with no server count restores heart, count and storage. |
| LikeButton.ZeroServerCountKeepsOptimistic | frontend/src/components/ui/LikeButton.tsx:82-90 | A server count of 0 is ignored. |
| LikeButton.PressWhileAnimatingIgnored | frontend/src/components/ui/LikeButton.tsx:38 | A press during the animation does nothing. |
| UploadForm.Submit | frontend/src/app/upload/page.tsx:94-110 | An incomplete form sends nothing. Otherwise uploading starts at 0 % and sends the fields, with the file under its name or `image.jpg`. |
| UploadForm.IsFormValid | frontend/src/app/upload/page.tsx:154 | A cropped image and non-empty department, title and description. Exactly these forms are sent (UploadForm.Submit). |
| UploadForm.SubmitDisabled | frontend/src/app/upload/page.tsx:265 | Disabled for an incomplete form or while uploading. |
| UploadForm.SubmittedBodyIsValid | frontend/src/app/upload/page.tsx:106-110 | What is sent passes the backend's photo validation, given the input's 100-character limit. |
| UploadForm.Tick | frontend/src/app/upload/page.tsx:113-121 | +10 below 90, then held. |
| UploadForm.TicksFromZero | frontend/src/app/upload/page.tsx:103-121 | From 0, `k` ticks show `min(10k, 90)`. |
| UploadForm.TicksBounded | frontend/src/app/upload/page.tsx:113-121 | Ticking never moves back and never reaches 100. |
| UploadForm.Answered | frontend/src/app/upload/page.tsx:129-151 | Success shows 100 % and completes. Failure returns to idle at 0 % with the fields kept. |
| UploadForm.FailureAllowsRetry | frontend/src/app/upload/page.tsx:146-151 | After a failure the same upload can be sent again. |
| UploadForm.UploadingDisablesSubmit | frontend/src/app/upload/page.tsx:265 | The button is disabled while uploading and after success. |
| UploadForm.RemoveImage | frontend/src/app/upload/page.tsx:59-63 | Drops the image, name and preview and keeps the text fields. |
| UploadForm.RemovedImageBlocksSubmit | frontend/src/app/upload/page.tsx:59-63 | Without an image nothing can be submitted. |

## Left out

- Database, image host and EXIF reader: Prisma queries, the Cloudinary upload and `ExifReader.load` are foreign calls. The photo and comment tables are abstract maps, and the tag reader's output is an input map (or `None` when it throws).
- Concurrency: overlapping requests racing on the counters and the shared limiter map. Every operation is atomic and sequential.
- Timers and animation: `setInterval`, `setTimeout`, `requestAnimationFrame`, particles and confetti. The sweep, the progress tick and the animation end are explicit events, and the particles and confetti are not modelled.
- `Date`: parsing, construction and the current time. Timestamps are integers, `uploadDate` parsing in the sort is a parameter, and an invalid `Date` (NaN) is not represented.
- `toLowerCase` and `URLSearchParams` escaping: uninterpreted function parameters.
- `findByPhotoId` and `countByPhotoId`: plain Prisma queries with no logic of their own.
- `update-comment.dto.ts`: its effective rules depend on how `PartialType` merges validation metadata inside a library that is not part of this model.
- FileValidation.Message: the size message prints `maxSize / 1048576` as a JavaScript number, possibly fractional. The model returns no text for it and keeps only the limit in the rejection.
- Dto: `@MaxLength` counts characters as validator.js does. The model counts Dafny characters (code points) and ignores validator.js's special treatment of variation selectors.
- PhotosService.FindAll: requires `page ≥ 1` and `limit ≥ 1`, so `?limit=0` is not modelled. The route's optional `ParseIntPipe` (`photos.controller.ts:56-57`) passes 0 through. The service then asks for zero rows and reports `totalPages = Math.ceil(total / 0)` (`photos.service.ts:76-105`). That is `Infinity`, or `NaN` when `total` is 0, and JSON sends either as `null`. The model's page count is a `nat`, which has no non-finite value.
- PhotosService.FindAll: a `page` below 1 or a negative `limit` is not modelled either. It gives a negative `skip` or `take`, and what Prisma does then is library behaviour outside the model.
- PhotosService.GetDepartments: orders by code point. The database orders by its collation.
- PhotosService.FindAll: the five most recent comments included with each photo are not modelled.
- PhotosService.PageCoversPosition: photos with the same upload date keep their table order in the model. The query orders only by `uploadDate` (`photos.service.ts:89-91`), so the database may order tied photos differently from one page request to the next. EXIF dates have whole seconds, so ties can happen. Then a tied photo can appear on two pages or on none. The lemma holds only when the order of the matches is fixed across requests, for example when their upload dates are distinct.
- JsText.ParseInt: returns the exact integer value of the digits. JavaScript's `parseInt` returns a double, so a numeral above 2^53 comes back rounded. `JsText.ParseIntOfNumeral` and `Exif.NumeralField` are exact only up to 2^53 in the source. In the `YYYY:MM:DD HH:mm:ss` format the date fields read at `exif-extractor.ts:93-98` have at most four digits, but the code does not check the format. Nothing in the code bounds the ISO text read at `exif-extractor.ts:57` either.
- PhotosService.FindOne: the reply is the photo record alone. The comments the query includes, newest first (`photos.service.ts:114-121`), are not modelled.
- PhotosService.Apply: the patch is assumed to hold only department, title, description and upload date. The service forwards the request body whole as the update's `data` (`photos.service.ts:151`), and the route's `ValidationPipe` has no whitelist (`photos.controller.ts:77`). Which fields the body can carry depends on `update-photo.dto.ts`, which is not part of this model. So the promise that counters, image and pick flag survive an update holds only for such patches.
- GalleryPage.SingleFlight: React state is treated as visible as soon as it is set. In the page, `isLoading` is read through each render's closure. At mount, the filter effect (`page.tsx:111-113`) and `loadInitialData` (`page.tsx:128-144`) can both call `loadPhotos(1, true)` through closures where `isLoading` is still false. Two page-1 requests can then be in flight, and the first `finally` clears the flag while the second runs. The model has one pending request at a time and does not represent this.
- UploadForm.Answered: when `fetch` throws, the `clearInterval` at `upload/page.tsx:129` is skipped. The interval then keeps adding 10 to the reset progress until it reaches 90 and clears itself (`upload/page.tsx:116`), and a retry in that time runs two intervals. Ticks are explicit events in the model, so this leftover interval is not represented.
- LikeManager.GetLikedPhotos: stored text that parses to something other than an array (`null`, an object, a string) is not represented. `getLikedPhotos` returns the parsed value unchecked (`like-manager.ts:63`). `isPhotoLiked` and `addLike` then throw at `.includes` or `.push` (`like-manager.ts:15`, `25-26`). For a string, `includes` is a substring test. The stored item in the model is missing, unparseable, or a list of ids.
- LikeManager.Save: a `setItem` that throws, for example when storage is full or blocked, is caught and logged (`like-manager.ts:75-79`), and the stored list stays as it was. The model's write always succeeds.
- CommentForm.Finish: a NestJS validation error whose `message` is an array becomes an `Error` whose text is the array joined by commas. The model takes the message as a string.
- TopThree: clicking indicator dot `k` is the plain assignment `index := k`, so it has no member of its own.
- Visual effects: the sort slider position, chip styling, the search box focus and the textarea auto-height.
- The hash is computed over unbounded integers reduced by ToInt32 at each step rather than over `bv32`. `Nickname.HashIsWrappedPoly` shows this matches the wrapped arithmetic.

## Findings

| source | as written | input that shows it | evidently intended | confidence | as-written member | corrected member |
|---|---|---|---|---|---|---|
| frontend/src/app/gallery/page.tsx:146-192 | `loadMore` advances `page` before calling `loadPhotos`, which returns early while a load is running. Nothing rolls the counter back, so that page is never requested. | The list shows pages 1..p−1 and page p is loading. The infinite-scroll component calls `next` again only after the rendered list length (`dataLength`, `page.tsx:341`) changes. It does change when search text is typed and cleared during the load, since the list shown is the filtered one, and the reload that search triggers is dropped while the load runs. A scroll to the bottom then calls `loadMore`: `page` becomes p+1 and the request is dropped. Page p arrives. The next scroll requests p+2, so page p+1 is never shown. | The counter moves only when a page arrives, so the list is always pages 1..page | medium, not executed; reachable only when the list length changes during a load | GalleryPage.LoadMoreSkipsPage | GalleryPage.FixedKeepsFirstPages |

=== FILE: client_ip.dfy ===
/**
 Client identity for the comment limiter, as the comments controller derives
 it: the first comma-separated segment of the `X-Forwarded-For` header, else
 the socket's remote address, else the literal `"unknown"` (so every
 unidentifiable client shares one limiter bucket).
 */
module ClientIp {
  import opened Common

  const Unknown: string := "unknown"

  /** `header.split(',')[0]`: everything before the first comma. */
  function FirstSegment(header: string): (seg: string)
    ensures seg <= header
    ensures ',' !in seg
    ensures seg == header || header[|seg|] == ','
  {
    Split(header, ',')[0]
  }

  /** The header is absent or its first hop is empty. */
  predicate NoHeaderIp(forwardedFor: Option<string>) {
    forwardedFor.None? || FirstSegment(forwardedFor.value) == []
  }

  /**
   The IP handed to the comments service. Each alternative is taken only when
   it is a non-empty string, because the `||` chain skips `undefined` and `""`
   alike; the segment is used verbatim, without trimming.
   */
  function DeriveIp(forwardedFor: Option<string>, remoteAddress: Option<string>): (ip: string)
    ensures ip != []
    ensures forwardedFor.Some? && FirstSegment(forwardedFor.value) != [] ==>
      ip == FirstSegment(forwardedFor.value)
    ensures NoHeaderIp(forwardedFor) && remoteAddress.Some? && remoteAddress.value != [] ==>
              ip == remoteAddress.value
    ensures NoHeaderIp(forwardedFor) && (remoteAddress.None? || remoteAddress.value == []) ==>
              ip == Unknown
  {
    var fromHeader := if forwardedFor.Some? then FirstSegment(forwardedFor.value) else [];
    if fromHeader != [] then fromHeader
    else if remoteAddress.Some? && remoteAddress.value != [] then remoteAddress.value
    else Unknown
  }

  /** The header's first hop wins whenever the header does not start with a comma. */
  lemma {:induction false} HeaderWins(header: string, remote: Option<string>)
    requires header != [] && header[0] != ','
    ensures DeriveIp(Some(header), remote) == header[..IndexOf(header, ',')]
    ensures DeriveIp(Some(header), remote) != []
  {
    assert FirstSegment(header) == header[..IndexOf(header, ',')];
    assert IndexOf(header, ',') > 0;
  }

  /** A header that starts with a comma (an empty first hop) is ignored. */
  lemma EmptyFirstHopFallsBack(header: string, remote: string)
    requires header != [] && header[0] == ',' && remote != []
    ensures DeriveIp(Some(header), Some(remote)) == remote
  {
  }

  /** A proxy chain keeps its first hop, untrimmed. */
  lemma ProxyChainExample()
    ensures DeriveIp(Some(" 10.0.0.1, 10.0.0.2"), Some("::1")) == " 10.0.0.1"
  {
    var first, rest := " 10.0.0.1", " 10.0.0.2";
    assert ',' !in first;
    assert first + [','] + rest == " 10.0.0.1, 10.0.0.2";
    SplitFirst(first, rest, ',');
  }

  /** `""` and `",1.2.3.4"` fall back to the socket address; with no usable
      address either, the client is `"unknown"`. */
  lemma FallbackExamples()
    ensures DeriveIp(Some(""), Some("::1")) == "::1"
    ensures DeriveIp(Some(",1.2.3.4"), Some("::1")) == "::1"
    ensures DeriveIp(None, Some("")) == Unknown
  {
  }
}

=== FILE: comment_form.dfy ===
/**
 The comment form of the photo detail view (`CommentSection.tsx`): the
 commenter's nickname kept in local storage, the character counter, the
 submit button's enabled state, and what a submission sends and shows.

 Lengths are JavaScript lengths (UTF-16 code units, `JsText.Length`). The
 random draws behind a new nickname are parameters.
 */
module CommentForm {
  import opened Common
  import JsText
  import Dto
  import Nickname

  const ContentMax: int := 200

  const EmptyMessage: string := "댓글 내용을 입력해주세요."
  const TooLongMessage: string := "댓글은 200자 이내로 작성해주세요."
  const FailedMessage: string := "댓글 작성에 실패했습니다."

  // ---------------------------------------------------------------------------
  // Nickname

  /** The two random indices behind one `generateRandomNickname()` call. */
  datatype Draw = Draw(adjective: int, animal: int)

  predicate ValidDraw(d: Draw) {
    0 <= d.adjective < |Nickname.Adjectives| && 0 <= d.animal < |Nickname.Animals|
  }

  /** The nickname and the stored `userNickname` item. */
  datatype Identity = Identity(nickname: string, stored: Option<string>)

  /** The mount effect: a non-empty stored nickname is reused, otherwise a new
      one is generated and stored. */
  function InitNickname(stored: Option<string>, d: Draw): (r: Identity)
    requires ValidDraw(d)
    ensures r.stored == Some(r.nickname) && r.nickname != ""
    ensures stored.Some? && stored.value != "" ==> r.nickname == stored.value
    ensures stored.None? || stored.value == "" ==> r.nickname == Nickname.GenerateRandomNickname(d.adjective, d.animal)
  {
    if stored.Some? && stored.value != "" then Identity(stored.value, stored)
    else
      var generated := Nickname.GenerateRandomNickname(d.adjective, d.animal);
      Identity(generated, Some(generated))
  }

  /** `handleChangeNickname`: a new random nickname, stored at once. */
  function ChangeNickname(d: Draw): (r: Identity)
    requires ValidDraw(d)
    ensures r.stored == Some(r.nickname)
    ensures Split(r.nickname, ' ') == [Nickname.Adjectives[d.adjective], Nickname.Animals[d.animal]]
  {
    var generated := Nickname.GenerateRandomNickname(d.adjective, d.animal);
    Identity(generated, Some(generated))
  }

  /** The nickname survives remounting: initialising again from what was
      stored gives the same nickname, whatever the new draw. */
  lemma NicknamePersists(stored: Option<string>, d: Draw, d': Draw)
    requires ValidDraw(d) && ValidDraw(d')
    ensures InitNickname(InitNickname(stored, d).stored, d') == InitNickname(stored, d)
  {
  }

  /** Generated nicknames stay within the backend's 50-character limit. */
  lemma GeneratedNicknameFits(d: Draw)
    requires ValidDraw(d)
    ensures 1 <= |Nickname.GenerateRandomNickname(d.adjective, d.animal)| <= Dto.NicknameMax
  {
    AdjectiveShort(d.adjective);
    AnimalShort(d.animal);
  }

  lemma AdjectiveShort(i: int)
    requires 0 <= i < |Nickname.Adjectives|
    ensures |Nickname.Adjectives[i]| <= 5
  {
  }

  lemma AnimalShort(j: int)
    requires 0 <= j < |Nickname.Animals|
    ensures |Nickname.Animals[j]| <= 4
  {
  }

  // ---------------------------------------------------------------------------
  // The form

  datatype Form = Form(newComment: string, nickname: string, isSubmitting: bool, error: string)

  /** The JSON body of the POST. */
  datatype Payload = Payload(photoId: string, nickname: string, content: string)

  /** `handleSubmit` up to the request: a blank or over-long comment sets an
      error and sends nothing; otherwise the form is marked submitting and the
      trimmed comment is sent. */
  function Submit(f: Form, photoId: string): (r: (Form, Option<Payload>))
    ensures JsText.AllWhitespace(f.newComment) ==> r == (f.(error := EmptyMessage), None)
    ensures !JsText.AllWhitespace(f.newComment) && JsText.Length(f.newComment) > ContentMax ==>
      r == (f.(error := TooLongMessage), None)
    ensures r.1.Some? <==> !JsText.AllWhitespace(f.newComment) && JsText.Length(f.newComment) <= ContentMax
    ensures r.1.Some? ==> (r.0 == f.(isSubmitting := true, error := "") &&
      r.1.value == Payload(photoId, f.nickname, JsText.Trim(f.newComment)))
  {
    if JsText.Trim(f.newComment) == [] then (f.(error := EmptyMessage), None)
    else if JsText.Length(f.newComment) > ContentMax then (f.(error := TooLongMessage), None)
    else (f.(isSubmitting := true, error := ""), Some(Payload(photoId, f.nickname, JsText.Trim(f.newComment))))
  }

  /** How the POST ended: created, refused with the body's `message` (empty
      when there was none), or thrown with the error's message. */
  datatype Reply = Created | Refused(message: string) | Thrown(message: string)

  /** `message || fallback`. */
  function MessageOr(m: string, fallback: string): string {
    if m != "" then m else fallback
  }

  /** The rest of `handleSubmit`: on success the input is cleared and the new
      comment handed to the parent (the boolean); on failure the message is
      shown and the text kept. Either way submitting ends. */
  function Finish(f: Form, reply: Reply): (r: (Form, bool))
    ensures !r.0.isSubmitting && r.0.nickname == f.nickname
    ensures r.1 <==> reply.Created?
    ensures reply.Created? ==> r.0.newComment == "" && r.0.error == f.error
    ensures !reply.Created? ==> r.0.newComment == f.newComment && r.0.error != ""
    ensures !reply.Created? && reply.message != "" ==> r.0.error == reply.message
  {
    match reply
    case Created => (f.(newComment := "", isSubmitting := false), true)
    case Refused(m) => (f.(error := MessageOr(m, FailedMessage), isSubmitting := false), false)
    case Thrown(m) => (f.(error := MessageOr(m, FailedMessage), isSubmitting := false), false)
  }

  /** The send button's `disabled`. */
  predicate Disabled(f: Form) {
    f.isSubmitting || JsText.Trim(f.newComment) == [] || JsText.Length(f.newComment) > ContentMax
  }

  /** The button is enabled exactly when nothing is being submitted and a
      submission would be sent. */
  lemma EnabledIffSubmits(f: Form, photoId: string)
    ensures !Disabled(f) <==> !f.isSubmitting && Submit(f, photoId).1.Some?
  {
  }

  /** After a successful post the button is disabled until something is typed. */
  lemma ClearedFormIsDisabled(f: Form)
    ensures Disabled(Finish(f, Created).0)
  {
  }

  /** What the form sends passes the backend's comment validation, given a
      UUID photo id and a nickname of at most 50 characters: the trimmed text
      is non-empty and no longer than the 200 code units the form allows. */
  lemma SubmittedBodyIsValid(f: Form, photoId: string)
    requires Dto.IsUuidText(photoId) && 1 <= |f.nickname| <= Dto.NicknameMax
    requires Submit(f, photoId).1.Some?
    ensures var p := Submit(f, photoId).1.value;
      Dto.CommentBodyValid(Dto.CommentBody(Dto.Str(p.photoId), Dto.Str(p.nickname), Dto.Str(p.content)))
  {
    var t := JsText.Trim(f.newComment);
    assert |t| <= |f.newComment| <= JsText.Length(f.newComment) <= ContentMax;
    Dto.CommentBodyValidIff(Dto.CommentBody(Dto.Str(photoId), Dto.Str(f.nickname), Dto.Str(t)));
  }

  // ---------------------------------------------------------------------------
  // Character counter

  /** `remainingChars`, negative once the text is too long. */
  function RemainingChars(f: Form): (n: int)
    ensures n < 0 <==> JsText.Length(f.newComment) > ContentMax
  {
    ContentMax - JsText.Length(f.newComment)
  }

  datatype CounterColor = Red | Yellow | Muted

  function Color(remaining: int): CounterColor {
    if remaining < 20 then Red else if remaining < 50 then Yellow else Muted
  }

  /** Severity of a counter colour. */
  function Severity(c: CounterColor): nat {
    match c
    case Muted => 0
    case Yellow => 1
    case Red => 2
  }

  /** The counter never calms down as the text grows, and any text the form
      refuses as too long shows red. */
  lemma ColorMonotone(a: Form, b: Form)
    requires JsText.Length(a.newComment) <= JsText.Length(b.newComment)
    ensures Severity(Color(RemainingChars(a))) <= Severity(Color(RemainingChars(b)))
    ensures JsText.Length(b.newComment) > ContentMax ==> Color(RemainingChars(b)) == Red
  {
  }
}

=== FILE: comments_service.dfy ===
/**
 The comment service (`CommentsService` in `comments.service.ts`) as state
 transitions over the limiter state and an abstract comment table.

 `create` consults the limiter first and only then checks that the photo
 exists, so a comment on a missing photo still uses up one of the caller's
 slots. The other operations raise not-found on an unknown id and change
 nothing.
 */
module CommentsService {
  import opened Common
  import SpamGuard

  const PhotoNotFound: string := "사진을 찾을 수 없습니다."
  const CommentNotFound: string := "댓글을 찾을 수 없습니다."

  datatype Comment = Comment(id: string, photoId: string, nickname: string, content: string, createdAt: int)

  type Comments = map<string, Comment>

  /** The service's state: the limiter's trackers, the comment table and the ids
      of the photos that exist. */
  datatype Service = Service(trackers: SpamGuard.Trackers, comments: Comments, photos: set<string>)

  /** The fields a new comment is created from (a validated `CreateCommentDto`). */
  datatype NewComment = NewComment(photoId: string, nickname: string, content: string)

  /** The state after a call and what the call replied or raised. Unlike
      `Result`, a failed call can still have changed the state. */
  datatype Step<T> = Step(state: Service, reply: Result<T, HttpError>)

  /**
   `create(dto, ip)` at time `now`. The database assigns `newId`, an id no row
   has yet, to the new row and stamps it with `now`.
   */
  function Create(s: Service, dto: NewComment, ip: string, now: int, newId: string): (r: Step<Comment>)
    requires newId !in s.comments
    // a rate-limited call raises the limiter's error and touches nothing
    ensures SpamGuard.CheckSpam(s.trackers, ip, now).Err? ==>
      r == Step(s, Err(SpamGuard.CheckSpam(s.trackers, ip, now).error))
    // otherwise the slot is used up whatever happens next
    ensures SpamGuard.CheckSpam(s.trackers, ip, now).Ok? ==>
      r.state.trackers == SpamGuard.CheckSpam(s.trackers, ip, now).value
    // a missing photo raises not-found and leaves the comment table alone
    ensures SpamGuard.CheckSpam(s.trackers, ip, now).Ok? && dto.photoId !in s.photos ==>
      r.reply == Err(NotFound(PhotoNotFound)) && r.state.comments == s.comments
    ensures r.reply.Ok? <==>
      SpamGuard.CheckSpam(s.trackers, ip, now).Ok? && dto.photoId in s.photos
    // a created comment carries the request's fields and is stored under its id
    ensures r.reply.Ok? ==>
      r.reply.value == Comment(newId, dto.photoId, dto.nickname, dto.content, now) &&
      r.state.comments == s.comments[newId := r.reply.value]
    // no existing comment is touched
    ensures forall id :: id in s.comments ==> id in r.state.comments && r.state.comments[id] == s.comments[id]
    ensures r.state.photos == s.photos
  {
    match SpamGuard.CheckSpam(s.trackers, ip, now)
    case Err(e) => Step(s, Err(e))
    case Ok(trackers) =>
      var checked := s.(trackers := trackers);
      if dto.photoId !in s.photos then Step(checked, Err(NotFound(PhotoNotFound)))
      else
        var c := Comment(newId, dto.photoId, dto.nickname, dto.content, now);
        Step(checked.(comments := s.comments[newId := c]), Ok(c))
  }

  /** `findOne(id)`. */
  function FindOne(s: Service, id: string): (r: Result<Comment, HttpError>)
    ensures r.Err? <==> id !in s.comments
    ensures r.Err? ==> r.error == NotFound(CommentNotFound)
    ensures r.Ok? ==> r.value == s.comments[id]
  {
    if id in s.comments then Ok(s.comments[id]) else Err(NotFound(CommentNotFound))
  }

  /** The fields an update may carry; a missing field keeps its value. */
  datatype CommentPatch = CommentPatch(photoId: Option<string>, nickname: Option<string>, content: Option<string>)

  function Patched(c: Comment, p: CommentPatch): Comment {
    c.(photoId := p.photoId.GetOr(c.photoId),
       nickname := p.nickname.GetOr(c.nickname),
       content := p.content.GetOr(c.content))
  }

  /** `update(id, dto)`: existence is checked through `findOne` first. */
  function Update(s: Service, id: string, p: CommentPatch): (r: Step<Comment>)
    ensures r.reply.Err? <==> id !in s.comments
    ensures r.reply.Err? ==> r.state == s && r.reply.error == NotFound(CommentNotFound)
    ensures r.reply.Ok? ==>
      r.state == s.(comments := s.comments[id := r.reply.value])
    // the given fields are replaced and nothing else about the comment changes
    ensures r.reply.Ok? ==>
      r.reply.value.id == id &&
      r.reply.value.createdAt == s.comments[id].createdAt &&
      (p.content.Some? ==> r.reply.value.content == p.content.value) &&
      (p.content.None? ==> r.reply.value.content == s.comments[id].content) &&
      (p.nickname.Some? ==> r.reply.value.nickname == p.nickname.value) &&
      (p.nickname.None? ==> r.reply.value.nickname == s.comments[id].nickname) &&
      (p.photoId.Some? ==> r.reply.value.photoId == p.photoId.value) &&
      (p.photoId.None? ==> r.reply.value.photoId == s.comments[id].photoId)
    ensures r.state.comments.Keys == s.comments.Keys
  {
    match FindOne(s, id)
    case Err(e) => Step(s, Err(e))
    case Ok(c) =>
      var updated := Patched(c, p).(id := id);
      Step(s.(comments := s.comments[id := updated]), Ok(updated))
  }

  /** `remove(id)`: replies with the deleted row. */
  function Remove(s: Service, id: string): (r: Step<Comment>)
    ensures r.reply.Err? <==> id !in s.comments
    ensures r.reply.Err? ==> r.state == s && r.reply.error == NotFound(CommentNotFound)
    ensures r.reply.Ok? ==> r.reply.value == s.comments[id]
    ensures r.reply.Ok? ==> r.state == s.(comments := s.comments - {id})
  {
    match FindOne(s, id)
    case Err(e) => Step(s, Err(e))
    case Ok(c) => Step(s.(comments := s.comments - {id}), Ok(c))
  }

  // ---------------------------------------------------------------------------
  // How the operations fit together

  /** A created comment is found again under its id. */
  lemma CreateThenFind(s: Service, dto: NewComment, ip: string, now: int, newId: string)
    requires newId !in s.comments
    requires Create(s, dto, ip, now, newId).reply.Ok?
    ensures FindOne(Create(s, dto, ip, now, newId).state, newId) ==
      Ok(Comment(newId, dto.photoId, dto.nickname, dto.content, now))
  {
  }

  /** A comment on a missing photo is refused, yet it counts against the
      caller: after three such attempts within a minute from a fresh IP, even a
      comment on an existing photo is rate-limited. */
  lemma MissingPhotoStillCounts(s: Service, dto: NewComment, good: NewComment, ip: string, now: int, newId: string)
    requires ip !in s.trackers
    requires dto.photoId !in s.photos && good.photoId in s.photos
    requires newId !in s.comments
    ensures var s1 := Create(s, dto, ip, now, newId);
      var s2 := Create(s1.state, dto, ip, now, newId);
      var s3 := Create(s2.state, dto, ip, now, newId);
      s1.reply == Err(NotFound(PhotoNotFound)) &&
      s2.reply == Err(NotFound(PhotoNotFound)) &&
      s3.reply == Err(NotFound(PhotoNotFound)) &&
      Create(s3.state, good, ip, now, newId) ==
        Step(s3.state, Err(BadRequest(SpamGuard.TooManyComments)))
  {
  }

  /** Once removed, a comment is gone: finding, updating or removing it again
      raises not-found. */
  lemma RemovedIsGone(s: Service, id: string, p: CommentPatch)
    requires id in s.comments
    ensures var s' := Remove(s, id).state;
      FindOne(s', id).Err? && Update(s', id, p).reply.Err? && Remove(s', id).reply.Err?
  {
  }

  /** Updating twice with the same patch is the same as updating once. */
  lemma UpdateIdempotent(s: Service, id: string, p: CommentPatch)
    ensures Update(Update(s, id, p).state, id, p) == Update(s, id, p)
  {
    if id in s.comments {
      var once := Update(s, id, p);
      assert once.state.comments[id] == once.reply.value;
      assert once.state.comments[id := once.reply.value] == once.state.comments;
    }
  }
}

=== FILE: common.dfy ===
/**
 Shared vocabulary of the gallery model: optional values, results with an
 error channel, and the few string primitives (decimal rendering, character
 search, substring containment) that several components rely on.
 */
module Common {

  /** A value that may be missing (`undefined`/`null` in the original). */
  datatype Option<+T> = None | Some(value: T) {
    function GetOr(default: T): T {
      match this
      case Some(v) => v
      case None => default
    }
  }

  /** An operation that either succeeds with a value or raises an error. */
  datatype Result<+T, +E> = Ok(value: T) | Err(error: E)

  /** The HTTP-level errors the backend services raise. */
  datatype HttpError = NotFound(message: string) | BadRequest(message: string)

  // ---------------------------------------------------------------------------
  // Characters and search

  predicate IsDigit(c: char) {
    '0' <= c <= '9'
  }

  /** Index of the first occurrence of `c` in `s`, or `|s|` when there is none. */
  function IndexOf(s: string, c: char): (i: nat)
    ensures i <= |s|
    ensures forall k :: 0 <= k < i ==> s[k] != c
    ensures i < |s| ==> s[i] == c
  {
    if |s| == 0 then 0
    else if s[0] == c then 0
    else 1 + IndexOf(s[1..], c)
  }

  /** `needle` occurs in `hay` starting at position `i`. */
  predicate OccursAt(hay: string, needle: string, i: int) {
    0 <= i && i + |needle| <= |hay| && hay[i..i + |needle|] == needle
  }

  /** `String.prototype.includes`: `needle` occurs somewhere in `hay`. */
  predicate Contains(hay: string, needle: string) {
    exists i :: 0 <= i <= |hay| - |needle| && OccursAt(hay, needle, i)
  }

  /** The pieces of `s` between occurrences of `sep`, as `String.prototype.split`
      with a one-character separator returns them (always at least one piece). */
  function Split(s: string, sep: char): (parts: seq<string>)
    ensures |parts| >= 1
    ensures forall k :: 0 <= k < |parts| ==> sep !in parts[k]
    ensures parts[0] == s[..IndexOf(s, sep)]
    decreases |s|
  {
    var i := IndexOf(s, sep);
    if i == |s| then [s] else [s[..i]] + Split(s[i + 1..], sep)
  }

  /** Joining the pieces of a split with the separator gives back the string. */
  function Join(parts: seq<string>, sep: char): string
    requires |parts| >= 1
  {
    if |parts| == 1 then parts[0] else parts[0] + [sep] + Join(parts[1..], sep)
  }

  lemma {:induction false} SplitJoin(s: string, sep: char)
    ensures Join(Split(s, sep), sep) == s
    decreases |s|
  {
    var i := IndexOf(s, sep);
    if i < |s| {
      var rest := Split(s[i + 1..], sep);
      var parts := [s[..i]] + rest;
      assert Split(s, sep) == parts;
      assert parts[1..] == rest;
      assert Join(parts, sep) == s[..i] + [sep] + Join(rest, sep);
      SplitJoin(s[i + 1..], sep);
      assert s == s[..i] + [sep] + s[i + 1..];
    } else {
      assert s[..i] == s;
    }
  }

  /** A split yields a single piece exactly when the separator does not occur. */
  lemma SplitSinglePiece(s: string, sep: char)
    ensures |Split(s, sep)| == 1 <==> sep !in s
  {
    var i := IndexOf(s, sep);
    if i == |s| {
      assert forall k :: 0 <= k < |s| ==> s[k] != sep;
    } else {
      assert s[i] == sep;
    }
  }

  /** Splitting a string without the separator gives the string itself. */
  lemma SplitWithoutSeparator(s: string, sep: char)
    requires sep !in s
    ensures Split(s, sep) == [s]
  {
    assert s[..|s|] == s;
  }

  /** Splitting peels off the text before the first separator. */
  lemma SplitFirst(a: string, b: string, sep: char)
    requires sep !in a
    ensures Split(a + [sep] + b, sep) == [a] + Split(b, sep)
  {
    var s := a + [sep] + b;
    assert s[|a|] == sep;
    assert IndexOf(s, sep) == |a| by {
      assert forall k :: 0 <= k < |a| ==> s[k] == a[k];
    }
    assert s[..|a|] == a;
    assert s[|a| + 1..] == b;
  }

  // ---------------------------------------------------------------------------
  // Decimal numerals (`${n}` on a non-negative integer)

  function DigitChar(d: nat): (c: char)
    requires d < 10
    ensures IsDigit(c)
  {
    "0123456789"[d]
  }

  function DigitValue(c: char): (d: nat)
    requires IsDigit(c)
    ensures d < 10
    ensures DigitChar(d) == c
  {
    (c as int) - ('0' as int)
  }

  /** The shortest decimal numeral of `n`. */
  function Decimal(n: nat): (s: string)
    ensures |s| >= 1
    ensures forall k :: 0 <= k < |s| ==> IsDigit(s[k])
    ensures |s| > 1 ==> s[0] != '0'
  {
    if n < 10 then [DigitChar(n)] else Decimal(n / 10) + [DigitChar(n % 10)]
  }

  /** Reads a non-empty string of digits back as a number. */
  function ParseDecimal(s: string): nat
    requires forall k :: 0 <= k < |s| ==> IsDigit(s[k])
  {
    if |s| == 0 then 0 else 10 * ParseDecimal(s[..|s| - 1]) + DigitValue(s[|s| - 1])
  }

  lemma {:induction false} DecimalRoundTrip(n: nat)
    ensures ParseDecimal(Decimal(n)) == n
  {
    var s := Decimal(n);
    if n < 10 {
      assert DigitValue(DigitChar(n)) == n;
    } else {
      DecimalRoundTrip(n / 10);
      assert s[..|s| - 1] == Decimal(n / 10);
      assert DigitValue(DigitChar(n % 10)) == n % 10;
    }
  }

  function Pow10(w: nat): (p: nat)
    ensures p >= 1
  {
    if w == 0 then 1 else 10 * Pow10(w - 1)
  }

  /** `n` written with exactly `w` digits, zero-padded on the left. */
  function Padded(n: nat, w: nat): (s: string)
    requires n < Pow10(w)
    ensures |s| == w
    ensures forall k :: 0 <= k < |s| ==> IsDigit(s[k])
  {
    if w == 0 then [] else Padded(n / 10, w - 1) + [DigitChar(n % 10)]
  }

  lemma {:induction false} PaddedRoundTrip(n: nat, w: nat)
    requires n < Pow10(w)
    ensures ParseDecimal(Padded(n, w)) == n
  {
    if w > 0 {
      var q, d := n / 10, n % 10;
      assert n == 10 * q + d;
      assert q < Pow10(w - 1);
      var s := Padded(n, w);
      var prefix := Padded(q, w - 1);
      assert s == prefix + [DigitChar(d)];
      assert s[..|s| - 1] == prefix;
      PaddedRoundTrip(q, w - 1);
      assert DigitValue(DigitChar(d)) == d;
    }
  }

  /** Distinct numbers render to distinct numerals. */
  lemma DecimalInjective(m: nat, n: nat)
    requires Decimal(m) == Decimal(n)
    ensures m == n
  {
    DecimalRoundTrip(m);
    DecimalRoundTrip(n);
  }
}

=== FILE: dto.dfy ===
/**
 The request bodies the backend validates before a service runs:
 `CreateCommentDto` (`create-comment.dto.ts`) and `CreatePhotoDto`
 (`create-photo.dto.ts`). Each decorator becomes a predicate on the decoded
 field value; a body is valid when every field passes every check.
 */
module Dto {

  /** A decoded body field: missing, `null`, a string, or any other JSON value. */
  datatype Value = Absent | Null | Str(s: string) | NonString

  /** `@IsString()`. */
  predicate IsString(v: Value) {
    v.Str?
  }

  /** `@IsNotEmpty()`: anything except `''`, `null` and `undefined`. Whitespace
      counts as content: nothing is trimmed. */
  predicate IsNotEmpty(v: Value) {
    v != Absent && v != Null && v != Str([])
  }

  /** `@MaxLength(n)`: a string of at most `n` characters. */
  predicate MaxLength(v: Value, n: nat) {
    v.Str? && |v.s| <= n
  }

  /** `@IsOptional()`: a missing or `null` field skips the field's other checks. */
  predicate Skipped(v: Value) {
    v == Absent || v == Null
  }

  // ---------------------------------------------------------------------------
  // UUIDs in the string form of section 3 of RFC 4122

  predicate IsHex(c: char) {
    ('0' <= c <= '9') || ('a' <= c <= 'f') || ('A' <= c <= 'F')
  }

  /** Positions of the four hyphens in the 36-character form. */
  predicate HyphenAt(k: int) {
    k == 8 || k == 13 || k == 18 || k == 23
  }

  /** Thirty-two hexadecimal digits in groups of 8, 4, 4, 4 and 12, joined by
      hyphens; letters in either case. */
  predicate IsUuidText(s: string) {
    |s| == 36 &&
    forall k :: 0 <= k < 36 ==> if HyphenAt(k) then s[k] == '-' else IsHex(s[k])
  }

  predicate AllHex(s: string) {
    forall k :: 0 <= k < |s| ==> IsHex(s[k])
  }

  /** The five groups of a UUID, as written. */
  function UuidOfGroups(a: string, b: string, c: string, d: string, e: string): string {
    a + "-" + b + "-" + c + "-" + d + "-" + e
  }

  predicate GroupsWellFormed(a: string, b: string, c: string, d: string, e: string) {
    |a| == 8 && |b| == 4 && |c| == 4 && |d| == 4 && |e| == 12 &&
    AllHex(a) && AllHex(b) && AllHex(c) && AllHex(d) && AllHex(e)
  }

  /** Any five well-formed groups joined by hyphens form a UUID. */
  lemma UuidFromGroups(a: string, b: string, c: string, d: string, e: string)
    requires GroupsWellFormed(a, b, c, d, e)
    ensures IsUuidText(UuidOfGroups(a, b, c, d, e))
  {
    var s := UuidOfGroups(a, b, c, d, e);
    forall k | 0 <= k < 36 ensures if HyphenAt(k) then s[k] == '-' else IsHex(s[k]) {
      if k < 8 { assert s[k] == a[k]; }
      else if 8 < k < 13 { assert s[k] == b[k - 9]; }
      else if 13 < k < 18 { assert s[k] == c[k - 14]; }
      else if 18 < k < 23 { assert s[k] == d[k - 19]; }
      else if 23 < k { assert s[k] == e[k - 24]; }
    }
  }

  /** Every UUID splits back into its five groups. */
  lemma UuidToGroups(s: string)
    requires IsUuidText(s)
    ensures GroupsWellFormed(s[..8], s[9..13], s[14..18], s[19..23], s[24..])
    ensures s == UuidOfGroups(s[..8], s[9..13], s[14..18], s[19..23], s[24..])
  {
    var a, b, c, d, e := s[..8], s[9..13], s[14..18], s[19..23], s[24..];
    assert AllHex(a) by { forall k | 0 <= k < 8 ensures IsHex(a[k]) { assert !HyphenAt(k); } }
    assert AllHex(b) by { forall k | 0 <= k < 4 ensures IsHex(b[k]) { assert !HyphenAt(k + 9); } }
    assert AllHex(c) by { forall k | 0 <= k < 4 ensures IsHex(c[k]) { assert !HyphenAt(k + 14); } }
    assert AllHex(d) by { forall k | 0 <= k < 4 ensures IsHex(d[k]) { assert !HyphenAt(k + 19); } }
    assert AllHex(e) by { forall k | 0 <= k < 12 ensures IsHex(e[k]) { assert !HyphenAt(k + 24); } }
    assert HyphenAt(8) && HyphenAt(13) && HyphenAt(18) && HyphenAt(23);
    var t := UuidOfGroups(a, b, c, d, e);
    assert |t| == 36;
    forall k | 0 <= k < 36 ensures t[k] == s[k] {
      if k < 8 { assert t[k] == a[k]; }
      else if k == 8 { assert t[k] == '-'; }
      else if k < 13 { assert t[k] == b[k - 9]; }
      else if k == 13 { assert t[k] == '-'; }
      else if k < 18 { assert t[k] == c[k - 14]; }
      else if k == 18 { assert t[k] == '-'; }
      else if k < 23 { assert t[k] == d[k - 19]; }
      else if k == 23 { assert t[k] == '-'; }
      else { assert t[k] == e[k - 24]; }
    }
  }

  /** `@IsUUID()`: a string in UUID form. */
  predicate IsUuid(v: Value) {
    v.Str? && IsUuidText(v.s)
  }

  // ---------------------------------------------------------------------------
  // CreateCommentDto

  datatype CommentBody = CommentBody(photoId: Value, nickname: Value, content: Value)

  const NicknameMax: nat := 50
  const ContentMax: nat := 200

  predicate CommentBodyValid(b: CommentBody) {
    (IsUuid(b.photoId) && IsNotEmpty(b.photoId)) &&
    (IsString(b.nickname) && IsNotEmpty(b.nickname) && MaxLength(b.nickname, NicknameMax)) &&
    (IsString(b.content) && IsNotEmpty(b.content) && MaxLength(b.content, ContentMax))
  }

  /** Validity spelled out on the strings: a UUID and two non-empty strings of
      at most 50 and 200 characters. */
  lemma CommentBodyValidIff(b: CommentBody)
    ensures CommentBodyValid(b) <==>
      b.photoId.Str? && IsUuidText(b.photoId.s) &&
      b.nickname.Str? && 1 <= |b.nickname.s| <= 50 &&
      b.content.Str? && 1 <= |b.content.s| <= 200
  {
  }

  /** The content limit is inclusive: 200 characters pass, 201 do not. */
  lemma ContentBoundary(id: string, nick: string, text: string)
    requires IsUuidText(id) && 1 <= |nick| <= 50
    ensures |text| == 200 ==> CommentBodyValid(CommentBody(Str(id), Str(nick), Str(text)))
    ensures |text| == 201 ==> !CommentBodyValid(CommentBody(Str(id), Str(nick), Str(text)))
  {
  }

  /** Blank content is accepted: emptiness is judged on the untrimmed text. */
  lemma BlankContentAccepted(id: string, nick: string)
    requires IsUuidText(id) && 1 <= |nick| <= 50
    ensures CommentBodyValid(CommentBody(Str(id), Str(nick), Str("   ")))
  {
  }

  // ---------------------------------------------------------------------------
  // CreatePhotoDto

  datatype PhotoBody = PhotoBody(departmentName: Value, title: Value, description: Value, uploadDate: Value)

  const DescriptionMax: nat := 100

  predicate PhotoBodyValid(b: PhotoBody) {
    (IsString(b.departmentName) && IsNotEmpty(b.departmentName)) &&
    (IsString(b.title) && IsNotEmpty(b.title)) &&
    (IsString(b.description) && IsNotEmpty(b.description) && MaxLength(b.description, DescriptionMax)) &&
    (Skipped(b.uploadDate) || IsString(b.uploadDate))
  }

  /** Validity spelled out: three non-empty strings, the description at most 100
      characters, and an upload date that is missing, null or a string. */
  lemma PhotoBodyValidIff(b: PhotoBody)
    ensures PhotoBodyValid(b) <==>
      b.departmentName.Str? && |b.departmentName.s| >= 1 &&
      b.title.Str? && |b.title.s| >= 1 &&
      b.description.Str? && 1 <= |b.description.s| <= 100 &&
      !b.uploadDate.NonString?
  {
  }

  /** The title has no length cap. */
  lemma TitleUncapped(dept: string, title: string, desc: string)
    requires |dept| >= 1 && |title| >= 1 && 1 <= |desc| <= 100
    ensures PhotoBodyValid(PhotoBody(Str(dept), Str(title), Str(desc), Absent))
  {
  }
}

=== FILE: exif.dfy ===
/**
 Post-processing of EXIF tags into the `ExifData` record attached to an
 uploaded photo (`extractExifData` and `parseExifDate`).

 The tag reader itself is outside the model: its output is a map from tag name
 to a tag with an optional description string and an optional numeric value,
 or `None` when the reader throws. A JavaScript property that is assigned
 `undefined` still exists, so each field of the record is an `Option` whose
 `Some` means "the key was set", even when the value set was `undefined`.
 */
module Exif {
  import opened Common
  import opened JsText

  datatype Tag = Tag(description: Option<string>, value: Option<int>)

  type Tags = map<string, Tag>

  /** Calendar fields as `parseInt` read them; `None` stands for `NaN`. The
      month is already shifted to the 0-based index `new Date` expects. */
  datatype DateParts = DateParts(
    year: Option<int>, monthIndex: Option<int>, day: Option<int>,
    hour: Option<int>, minute: Option<int>, second: Option<int>)

  datatype ExifData = ExifData(
    dateTaken: Option<Option<DateParts>>,
    camera: Option<string>,
    lens: Option<string>,
    focalLength: Option<string>,
    aperture: Option<string>,
    iso: Option<Option<int>>,
    exposureTime: Option<string>,
    width: Option<int>,
    height: Option<int>)

  const NoFields: ExifData := ExifData(None, None, None, None, None, None, None, None, None)

  /** `tags[name]?.description` when it is truthy (present and non-empty). */
  function Description(tags: Tags, name: string): (d: Option<string>)
    ensures d.Some? <==> name in tags && tags[name].description.Some? && tags[name].description.value != []
    ensures d.Some? ==> d.value == tags[name].description.value
  {
    if name in tags && tags[name].description.Some? && tags[name].description.value != []
    then tags[name].description
    else None
  }

  /** `tags[name]?.value` when it is truthy (present and non-zero). */
  function NumericValue(tags: Tags, name: string): (v: Option<int>)
    ensures v.Some? <==> name in tags && tags[name].value.Some? && tags[name].value.value != 0
    ensures v.Some? ==> v.value == tags[name].value.value
  {
    if name in tags && tags[name].value.Some? && tags[name].value.value != 0
    then tags[name].value
    else None
  }

  /** `parseInt(part)` where `part` may be `undefined`, which reads as `NaN`. */
  function ParseIntPart(parts: seq<string>, k: nat): Option<int> {
    if k < |parts| then ParseInt(parts[k]) else None
  }

  function MinusOne(v: Option<int>): Option<int> {
    match v
    case Some(n) => Some(n - 1)
    case None => None
  }

  /**
   `parseExifDate`: splits at spaces and keeps the first two pieces as date and
   time, then splits each at colons. Without a space the time piece is
   `undefined`, splitting it throws, and the catch returns `undefined` (`None`).
   Missing or non-numeric fields become `NaN` without throwing.
   */
  function ParseExifDate(exifDate: string): (r: Option<DateParts>)
    ensures r.None? <==> ' ' !in exifDate
  {
    var pieces := Split(exifDate, ' ');
    SplitSinglePiece(exifDate, ' ');
    if |pieces| < 2 then
      None
    else
      var date := Split(pieces[0], ':');
      var time := Split(pieces[1], ':');
      Some(DateParts(
        ParseIntPart(date, 0), MinusOne(ParseIntPart(date, 1)), ParseIntPart(date, 2),
        ParseIntPart(time, 0), ParseIntPart(time, 1), ParseIntPart(time, 2)))
  }

  // TIFF 6.0 section 8: DateTime is "YYYY:MM:DD HH:MM:SS".

  predicate ValidStamp(year: nat, month: nat, day: nat, hour: nat, minute: nat, second: nat) {
    year < 10000 && month < 100 && day < 100 && hour < 100 && minute < 100 && second < 100
  }

  function FormatExifDate(year: nat, month: nat, day: nat, hour: nat, minute: nat, second: nat): (s: string)
    requires ValidStamp(year, month, day, hour, minute, second)
    ensures |s| == 19
  {
    Fields(Padded(year, 4), Padded(month, 2), Padded(day, 2)) + " " +
    Fields(Padded(hour, 2), Padded(minute, 2), Padded(second, 2))
  }

  /** Three fields joined by colons. */
  function Fields(a: string, b: string, c: string): string {
    a + ":" + b + ":" + c
  }

  /** Every date in the TIFF DateTime form splits into exactly its six numeric
      fields, with the month shifted down by one. */
  lemma ParseFormattedDate(year: nat, month: nat, day: nat, hour: nat, minute: nat, second: nat)
    requires ValidStamp(year, month, day, hour, minute, second)
    ensures ParseExifDate(FormatExifDate(year, month, day, hour, minute, second)) ==
      Some(DateParts(Some(year), Some(month - 1), Some(day), Some(hour), Some(minute), Some(second)))
  {
    assert Pow10(2) == 100 && Pow10(4) == 10000;
    var datePart := FieldsParse(year, 4, month, 2, day, 2);
    var timePart := FieldsParse(hour, 2, minute, 2, second, 2);
    FormatSplits(year, month, day, hour, minute, second);
    ParseDateTime(datePart, timePart);
    MonthShift(month);
  }

  lemma FormatSplits(year: nat, month: nat, day: nat, hour: nat, minute: nat, second: nat)
    requires ValidStamp(year, month, day, hour, minute, second)
    ensures FormatExifDate(year, month, day, hour, minute, second) ==
      Fields(Padded(year, 4), Padded(month, 2), Padded(day, 2)) + " " +
      Fields(Padded(hour, 2), Padded(minute, 2), Padded(second, 2))
  {
  }

  lemma MonthShift(month: int)
    ensures MinusOne(Some(month)) == Some(month - 1)
  {
  }

  /** The pieces of a date or time part, read as numbers. */
  function PartValues(part: string): (seq<Option<int>>) {
    var fields := Split(part, ':');
    [ParseIntPart(fields, 0), ParseIntPart(fields, 1), ParseIntPart(fields, 2)]
  }

  /** A date part and a time part joined by one space parse field by field. */
  lemma ParseDateTime(datePart: string, timePart: string)
    requires Numeric(datePart) && Numeric(timePart)
    ensures var d, t := PartValues(datePart), PartValues(timePart);
      ParseExifDate(datePart + " " + timePart) == Some(DateParts(d[0], MinusOne(d[1]), d[2], t[0], t[1], t[2]))
  {
    SplitDateTime(datePart, timePart);
  }

  /** Three zero-padded numbers joined by colons read back as those numbers. */
  lemma FieldsParse(a: nat, wa: nat, b: nat, wb: nat, c: nat, wc: nat) returns (part: string)
    requires 1 <= wa && a < Pow10(wa)
    requires 1 <= wb && b < Pow10(wb)
    requires 1 <= wc && c < Pow10(wc)
    ensures part == Fields(Padded(a, wa), Padded(b, wb), Padded(c, wc))
    ensures Numeric(part)
    ensures PartValues(part) == [Some(a), Some(b), Some(c)]
  {
    part := Fields(Padded(a, wa), Padded(b, wb), Padded(c, wc));
    SplitFields(Padded(a, wa), Padded(b, wb), Padded(c, wc));
    NumeralField(a, wa);
    NumeralField(b, wb);
    NumeralField(c, wc);
  }

  /** A string of digits and colons contains no space. */
  predicate Numeric(s: string) {
    forall k :: 0 <= k < |s| ==> IsDigit(s[k]) || s[k] == ':'
  }

  lemma SplitDateTime(datePart: string, timePart: string)
    requires Numeric(datePart) && Numeric(timePart)
    ensures Split(datePart + " " + timePart, ' ') == [datePart, timePart]
  {
    assert ' ' !in datePart && ' ' !in timePart;
    SplitFirst(datePart, timePart, ' ');
    SplitWithoutSeparator(timePart, ' ');
  }

  lemma SplitFields(a: string, b: string, c: string)
    requires forall k :: 0 <= k < |a| ==> IsDigit(a[k])
    requires forall k :: 0 <= k < |b| ==> IsDigit(b[k])
    requires forall k :: 0 <= k < |c| ==> IsDigit(c[k])
    ensures Split(Fields(a, b, c), ':') == [a, b, c]
    ensures Numeric(Fields(a, b, c))
  {
    assert ':' !in a && ':' !in b && ':' !in c by {
      assert !IsDigit(':');
    }
    assert a + ":" + b + ":" + c == a + [':'] + (b + [':'] + c);
    SplitFirst(a, b + [':'] + c, ':');
    SplitFirst(b, c, ':');
    SplitWithoutSeparator(c, ':');
  }

  lemma NumeralField(n: nat, w: nat)
    requires 1 <= w && n < Pow10(w)
    ensures ParseInt(Padded(n, w)) == Some(n)
  {
    ParseIntOfNumeral(Padded(n, w));
    PaddedRoundTrip(n, w);
  }

  /** A date string with no space has no time part and yields `undefined`. */
  lemma DateWithoutTime()
    ensures ParseExifDate("2024:01:15") == None
  {
    var s := "2024:01:15";
    assert forall k :: 0 <= k < |s| ==> s[k] != ' ';
    assert ' ' !in s;
  }

  // ---------------------------------------------------------------------------
  // extractExifData

  /** Whether the field was assigned at all (`Object.keys` counts it even when
      the value assigned was `undefined` or `NaN`). */
  predicate HasAnyField(e: ExifData) {
    e.dateTaken.Some? || e.camera.Some? || e.lens.Some? || e.focalLength.Some? ||
    e.aperture.Some? || e.iso.Some? || e.exposureTime.Some? || e.width.Some? || e.height.Some?
  }

  /** A tag with a non-empty description. */
  predicate Described(tags: Tags, name: string) {
    name in tags && tags[name].description.Some? && tags[name].description.value != []
  }

  /** A tag with a non-zero numeric value. */
  predicate Valued(tags: Tags, name: string) {
    name in tags && tags[name].value.Some? && tags[name].value.value != 0
  }

  /** Some tag the extractor looks at is truthy. */
  predicate AnyRelevantTag(tags: Tags) {
    Described(tags, "DateTimeOriginal") || Described(tags, "DateTime") ||
    (Described(tags, "Make") && Described(tags, "Model")) ||
    Described(tags, "LensModel") || Described(tags, "FocalLength") || Described(tags, "FNumber") ||
    Described(tags, "ISOSpeedRatings") || Described(tags, "ExposureTime") ||
    Valued(tags, "Image Width") || Valued(tags, "Image Height")
  }

  /** The record the extractor fills in from the tags, one field per tag. */
  function Collect(tags: Tags): (e: ExifData)
    ensures e.dateTaken.Some? <==> Described(tags, "DateTimeOriginal") || Described(tags, "DateTime")
    ensures e.camera.Some? <==> Described(tags, "Make") && Described(tags, "Model")
    ensures e.camera.Some? ==>
      e.camera.value == tags["Make"].description.value + " " + tags["Model"].description.value
    ensures e.aperture.Some? <==> Described(tags, "FNumber")
    ensures e.aperture.Some? ==> e.aperture.value == "f/" + tags["FNumber"].description.value
    ensures e.iso.Some? <==> Described(tags, "ISOSpeedRatings")
    ensures e.iso.Some? ==> e.iso.value == ParseInt(tags["ISOSpeedRatings"].description.value)
    ensures e.lens == Description(tags, "LensModel")
    ensures e.focalLength == Description(tags, "FocalLength")
    ensures e.exposureTime == Description(tags, "ExposureTime")
    ensures e.width.Some? <==> Valued(tags, "Image Width")
    ensures e.width.Some? ==> e.width.value == tags["Image Width"].value.value
    ensures e.height.Some? <==> Valued(tags, "Image Height")
    ensures e.height.Some? ==> e.height.value == tags["Image Height"].value.value
  {
    var original := Description(tags, "DateTimeOriginal");
    var plain := Description(tags, "DateTime");
    var make := Description(tags, "Make");
    var model := Description(tags, "Model");
    var fNumber := Description(tags, "FNumber");
    var iso := Description(tags, "ISOSpeedRatings");
    ExifData(
      dateTaken :=
        if original.Some? then Some(ParseExifDate(original.value))
        else if plain.Some? then Some(ParseExifDate(plain.value))
        else None,
      camera := if make.Some? && model.Some? then Some(make.value + " " + model.value) else None,
      lens := Description(tags, "LensModel"),
      focalLength := Description(tags, "FocalLength"),
      aperture := if fNumber.Some? then Some("f/" + fNumber.value) else None,
      iso := if iso.Some? then Some(ParseInt(iso.value)) else None,
      exposureTime := Description(tags, "ExposureTime"),
      width := NumericValue(tags, "Image Width"),
      height := NumericValue(tags, "Image Height"))
  }

  /**
   `extractExifData`: `reader` is the tag reader's output, `None` when it
   throws. The result is `null` (`None`) when the reader throws or when no
   field was assigned.
   */
  function ExtractExifData(reader: Option<Tags>): (r: Option<ExifData>)
    ensures r.None? <==> reader.None? || !AnyRelevantTag(reader.value)
    ensures r.Some? ==> HasAnyField(r.value)
  {
    match reader
    case None => None
    case Some(tags) =>
      var e := Collect(tags);
      if HasAnyField(e) then Some(e) else None
  }

  /** `DateTimeOriginal` wins over `DateTime` whenever it has a description. */
  lemma DateTakenPrecedence(tags: Tags)
    requires Described(tags, "DateTimeOriginal")
    ensures var r := ExtractExifData(Some(tags));
      r.Some? && r.value.dateTaken == Some(ParseExifDate(tags["DateTimeOriginal"].description.value))
  {
  }

  /** `DateTime` is used only when `DateTimeOriginal` has no description. */
  lemma DateTakenFallback(tags: Tags)
    requires !Described(tags, "DateTimeOriginal") && Described(tags, "DateTime")
    ensures var r := ExtractExifData(Some(tags));
      r.Some? && r.value.dateTaken == Some(ParseExifDate(tags["DateTime"].description.value))
  {
  }

  /** A single described date tag yields a record holding only its date. */
  lemma DateTagOnly(name: string, text: string)
    requires name == "DateTimeOriginal" || name == "DateTime"
    requires text != []
    ensures ExtractExifData(Some(map[name := Tag(Some(text), None)])) ==
      Some(NoFields.(dateTaken := Some(ParseExifDate(text))))
  {
    var tags := map[name := Tag(Some(text), None)];
    assert Described(tags, name);
    OnlyDateTags(tags);
  }

  /** A photo whose only tag is a well-formed `DateTimeOriginal` yields exactly
      that capture time, month shifted, and nothing else. */
  lemma TakenAtExample(year: nat, month: nat, day: nat, hour: nat, minute: nat, second: nat)
    requires ValidStamp(year, month, day, hour, minute, second)
    ensures ExtractExifData(Some(map["DateTimeOriginal" :=
        Tag(Some(FormatExifDate(year, month, day, hour, minute, second)), None)])) ==
      Some(NoFields.(dateTaken := Some(Some(DateParts(
        Some(year), Some(month - 1), Some(day), Some(hour), Some(minute), Some(second))))))
  {
    ParseFormattedDate(year, month, day, hour, minute, second);
    DateTagOnly("DateTimeOriginal", FormatExifDate(year, month, day, hour, minute, second));
  }

  /** A date tag that does not parse still makes the record non-null: the key
      `dateTaken` is assigned `undefined`, and `Object.keys` counts it. */
  lemma UnparseableDateStillReported()
    ensures ExtractExifData(Some(map["DateTime" := Tag(Some("garbage"), None)])) ==
      Some(NoFields.(dateTaken := Some(None)))
  {
    assert ' ' !in "garbage";
    DateTagOnly("DateTime", "garbage");
  }

  /** Date tags alone fill in the date and nothing else. */
  lemma OnlyDateTags(tags: Tags)
    requires forall n :: n in tags ==> n == "DateTimeOriginal" || n == "DateTime"
    ensures Collect(tags) == NoFields.(dateTaken := Collect(tags).dateTaken)
  {
    var e := Collect(tags);
    assert e.camera.None? && e.aperture.None? && e.iso.None?;
    assert e.lens.None? && e.focalLength.None? && e.exposureTime.None?;
    assert e.width.None? && e.height.None?;
  }

  /** A camera make without a model records no camera. */
  lemma MakeAloneNoCamera(tags: Tags)
    requires Described(tags, "Make") && !Described(tags, "Model")
    ensures var r := ExtractExifData(Some(tags)); r.None? || r.value.camera.None?
  {
  }
}

=== FILE: file_validation.dfy ===
/**
 The upload file check (`FileValidationPipe` in `file-validation.pipe.ts`):
 a file must be present, no larger than the size limit, and of one of the
 allowed MIME types, checked in that order.
 */
module FileValidation {
  import opened Common

  const MiB: int := 1024 * 1024

  /** The default limit: 10 MiB. */
  const DefaultMaxSize: int := 10 * MiB

  /** The default allowed types, in the order the rejection message lists them. */
  const DefaultAllowedTypes: seq<string> := ["image/jpeg", "image/jpg", "image/png", "image/heic", "image/webp"]

  const FileRequired: string := "파일이 필요합니다."
  const TypePrefix: string := "허용되지 않는 파일 형식입니다. 허용 형식: "

  /** An uploaded file as the multipart parser hands it over; the content and
      the other metadata pass through untouched. */
  datatype UploadedFile = UploadedFile(originalName: string, mimetype: string, size: int, content: seq<bv8>)

  /** A configured pipe. */
  datatype Pipe = Pipe(maxSize: int, allowedMimeTypes: seq<string>)

  /** The pipe built with no arguments. */
  function DefaultPipe(): (p: Pipe)
    ensures p.maxSize == 10485760
    ensures |p.allowedMimeTypes| == 5
    ensures forall t :: t in p.allowedMimeTypes <==>
      t == "image/jpeg" || t == "image/jpg" || t == "image/png" || t == "image/heic" || t == "image/webp"
  {
    Pipe(DefaultMaxSize, DefaultAllowedTypes)
  }

  /** Why a file was refused. */
  datatype Rejection = FileMissing | FileTooLarge(maxSize: int) | TypeNotAllowed(allowed: seq<string>)

  /** `transform(value)`: the file itself when accepted. */
  function Transform(p: Pipe, value: Option<UploadedFile>): (r: Result<UploadedFile, Rejection>)
    ensures value.None? ==> r == Err(FileMissing)
    ensures value.Some? && value.value.size > p.maxSize ==> r == Err(FileTooLarge(p.maxSize))
    ensures value.Some? && value.value.size <= p.maxSize && value.value.mimetype !in p.allowedMimeTypes ==>
      r == Err(TypeNotAllowed(p.allowedMimeTypes))
    ensures r.Ok? <==> Accepts(p, value)
    ensures r.Ok? ==> r.value == value.value
  {
    if value.None? then Err(FileMissing)
    else if value.value.size > p.maxSize then Err(FileTooLarge(p.maxSize))
    else if value.value.mimetype !in p.allowedMimeTypes then Err(TypeNotAllowed(p.allowedMimeTypes))
    else Ok(value.value)
  }

  /** The acceptance condition as one statement, independent of check order. */
  predicate Accepts(p: Pipe, value: Option<UploadedFile>) {
    value.Some? && value.value.size <= p.maxSize && value.value.mimetype in p.allowedMimeTypes
  }

  /** The strings of `xs` separated by `sep` (`Array.prototype.join`). */
  function JoinWith(xs: seq<string>, sep: string): (r: string)
    ensures |xs| == 0 ==> r == []
    ensures |xs| == 1 ==> r == xs[0]
  {
    if |xs| == 0 then []
    else if |xs| == 1 then xs[0]
    else xs[0] + sep + JoinWith(xs[1..], sep)
  }

  /** The message of a missing-file or wrong-type rejection; the size message
      renders a floating-point quotient and is not modelled. */
  function Message(r: Rejection): (m: Option<string>)
    ensures r.FileTooLarge? <==> m.None?
    ensures r.TypeNotAllowed? ==> m == Some(TypePrefix + JoinWith(r.allowed, ", "))
  {
    match r
    case FileMissing => Some(FileRequired)
    case FileTooLarge(_) => None
    case TypeNotAllowed(allowed) => Some(TypePrefix + JoinWith(allowed, ", "))
  }

  // ---------------------------------------------------------------------------
  // Properties

  /** The size bound is inclusive: a file of exactly the limit passes the size
      check, one byte more does not. */
  lemma SizeBoundInclusive(p: Pipe, f: UploadedFile)
    requires f.mimetype in p.allowedMimeTypes
    ensures f.size == p.maxSize ==> Transform(p, Some(f)) == Ok(f)
    ensures f.size == p.maxSize + 1 ==> Transform(p, Some(f)) == Err(FileTooLarge(p.maxSize))
  {
  }

  /** The size check runs before the type check: an oversized file of a
      forbidden type is reported as too large. */
  lemma SizeReportedBeforeType(p: Pipe, f: UploadedFile)
    requires f.size > p.maxSize && f.mimetype !in p.allowedMimeTypes
    ensures Transform(p, Some(f)) == Err(FileTooLarge(p.maxSize))
  {
  }

  /** Types are compared exactly: with the default pipe an upper-case type is
      refused. */
  lemma DefaultPipeExamples(f: UploadedFile, g: UploadedFile)
    requires f.size <= 10485760 && f.mimetype == "image/png"
    requires g.size <= 10485760 && g.mimetype == "IMAGE/PNG"
    ensures Transform(DefaultPipe(), Some(f)) == Ok(f)
    ensures Transform(DefaultPipe(), Some(g)) == Err(TypeNotAllowed(DefaultAllowedTypes))
  {
  }

  /** Transforming an accepted file again accepts it again (the pipe can be
      applied twice). */
  lemma TransformIdempotent(p: Pipe, value: Option<UploadedFile>)
    requires Transform(p, value).Ok?
    ensures Transform(p, Some(Transform(p, value).value)) == Transform(p, value)
  {
  }
}

=== FILE: filter_bar.dfy ===
/**
 The gallery's filter bar (`FilterBar.tsx`): department chips with colours,
 the search box, the sort toggle, and the "active filters" line whose buttons
 clear a filter.
 */
module FilterBar {

  /** The department value that means "no department filter". */
  const AllDepartments: string := "전체"
  const AllColor: string := "#6B7280"

  /** The palette the department chips cycle through. */
  const Colors: seq<string> := ["#1E40AF", "#F59E0B", "#10B981", "#EF4444", "#8B5CF6", "#3B82F6", "#EC4899", "#06B6D4"]

  /** The sort toggle's options, in display order. */
  const SortOptions: seq<string> := ["latest", "views"]

  datatype Chip = Chip(name: string, color: string)

  /** `departmentsWithColors`: the "all" chip, then one chip per department
      coloured by its position modulo the palette. */
  function DepartmentsWithColors(departments: seq<string>): (r: seq<Chip>)
    ensures |r| == |departments| + 1
    ensures r[0] == Chip(AllDepartments, AllColor)
    ensures forall i :: 0 <= i < |departments| ==> r[i + 1] == Chip(departments[i], Colors[i % |Colors|])
  {
    [Chip(AllDepartments, AllColor)] + seq(|departments|, i requires 0 <= i < |departments| => Chip(departments[i], Colors[i % |Colors|]))
  }

  /** Chip names read back: the "all" chip followed by the departments in order. */
  lemma ChipNames(departments: seq<string>)
    ensures forall i :: 0 <= i < |departments| ==> DepartmentsWithColors(departments)[i + 1].name == departments[i]
    ensures seq(|departments| + 1, i requires 0 <= i < |departments| + 1 => DepartmentsWithColors(departments)[i].name) ==
            [AllDepartments] + departments
  {
  }

  /** Colours repeat every eight departments, and neighbours within a run of
      eight differ. */
  lemma ColorPeriod(departments: seq<string>, i: nat, j: nat)
    requires i < |departments| && j < |departments|
    ensures DepartmentsWithColors(departments)[i + 1].color == DepartmentsWithColors(departments)[j + 1].color
            <==> i % 8 == j % 8
  {
    var r := DepartmentsWithColors(departments);
    assert r[i + 1].color == Colors[i % 8] && r[j + 1].color == Colors[j % 8];
    PaletteDistinct(i % 8, j % 8);
  }

  lemma PaletteDistinct(a: nat, b: nat)
    requires a < 8 && b < 8
    ensures Colors[a] == Colors[b] <==> a == b
  {
  }

  /** A chip is highlighted when its name is the selected department. */
  predicate ChipSelected(c: Chip, selected: string) {
    c.name == selected
  }

  /** The "all" chip is highlighted exactly when no department is selected;
      a real department named like it would be highlighted alongside it. */
  lemma AllChipSelection(departments: seq<string>, selected: string)
    ensures ChipSelected(DepartmentsWithColors(departments)[0], selected) <==> selected == AllDepartments
    ensures AllDepartments in departments && selected == AllDepartments ==>
      exists i :: 1 <= i < |departments| + 1 && ChipSelected(DepartmentsWithColors(departments)[i], selected)
  {
    if AllDepartments in departments && selected == AllDepartments {
      var k :| 0 <= k < |departments| && departments[k] == AllDepartments;
      assert ChipSelected(DepartmentsWithColors(departments)[k + 1], selected);
    }
  }

  /** `SORT_OPTIONS.findIndex(opt => opt.value === sortBy)`: −1 when absent. */
  function SortIndex(sortBy: string): (r: int)
    ensures -1 <= r < |SortOptions|
    ensures r >= 0 ==> SortOptions[r] == sortBy
    ensures r == -1 <==> sortBy !in SortOptions
  {
    if sortBy == SortOptions[0] then 0 else if sortBy == SortOptions[1] then 1 else -1
  }

  /** The sort slider only moves for the two listed orders: "popular", which
      the gallery can sort by, has no button. */
  lemma PopularHasNoButton()
    ensures SortIndex("popular") == -1
    ensures SortIndex("latest") == 0 && SortIndex("views") == 1
  {
  }

  // ---------------------------------------------------------------------------
  // Active filters and the clear buttons

  /** What the bar shows and edits. */
  datatype Filters = Filters(department: string, query: string, sortBy: string)

  /** The "active filters" line is shown when a department or a query is set. */
  predicate ActiveFilterShown(f: Filters) {
    f.department != AllDepartments || f.query != ""
  }

  /** A user action on the bar. */
  datatype Action =
    | DepartmentClicked(name: string)
    | SearchTyped(text: string)
    | SearchCleared        // the ✕ in the search box or in the active-filter line
    | DepartmentCleared    // the ✕ on the active department
    | SortClicked(value: string)

  /** The filters after one action; the sort buttons only offer the listed orders. */
  function Apply(f: Filters, a: Action): (r: Filters)
    requires a.SortClicked? ==> a.value in SortOptions
    ensures a.DepartmentClicked? ==> r == f.(department := a.name)
    ensures a.SearchTyped? ==> r == f.(query := a.text)
    ensures a.SearchCleared? ==> r == f.(query := "")
    ensures a.DepartmentCleared? ==> r == f.(department := AllDepartments)
    ensures a.SortClicked? ==> r == f.(sortBy := a.value)
  {
    match a
    case DepartmentClicked(name) => f.(department := name)
    case SearchTyped(text) => f.(query := text)
    case SearchCleared => f.(query := "")
    case DepartmentCleared => f.(department := AllDepartments)
    case SortClicked(value) => f.(sortBy := value)
  }

  /** Clearing both filters hides the line; clearing one keeps the other and
      the sort order. */
  lemma ClearingHidesActiveLine(f: Filters)
    ensures !ActiveFilterShown(Apply(Apply(f, DepartmentCleared), SearchCleared))
    ensures Apply(Apply(f, DepartmentCleared), SearchCleared).sortBy == f.sortBy
    ensures ActiveFilterShown(Apply(f, DepartmentCleared)) <==> f.query != ""
    ensures ActiveFilterShown(Apply(f, SearchCleared)) <==> f.department != AllDepartments
  {
  }

  /** The two clear buttons commute and are idempotent. */
  lemma ClearCommutes(f: Filters)
    ensures Apply(Apply(f, DepartmentCleared), SearchCleared) == Apply(Apply(f, SearchCleared), DepartmentCleared)
    ensures Apply(Apply(f, SearchCleared), SearchCleared) == Apply(f, SearchCleared)
    ensures Apply(Apply(f, DepartmentCleared), DepartmentCleared) == Apply(f, DepartmentCleared)
  {
  }

  /** Clicking the "all" chip is the same as clearing the department. */
  lemma AllChipClears(f: Filters)
    ensures Apply(f, DepartmentClicked(DepartmentsWithColors([])[0].name)) == Apply(f, DepartmentCleared)
  {
  }
}

=== FILE: gallery_page.dfy ===
/**
 The gallery page (`gallery/page.tsx`): the filters mirrored in the address
 bar, paged loading of photos with infinite scroll, and the client-side
 search filter and sort applied to what has been loaded.

 A fetch is split in two: issuing it (the state change made before `await`)
 and its completion with the server's reply; the reply of a request that
 failed or threw is `None`. `toLowerCase`, query-string escaping and date
 parsing are parameters.
 */
module GalleryPage {
  import opened Common
  import Ordering

  const AllDepartments: string := "전체"
  const DefaultSort: string := "latest"
  const PageSize: nat := 12

  datatype Photo = Photo(id: string, title: string, description: string, likeCount: int, viewCount: int, uploadDate: string)

  /** The filter state, as the page keeps it. */
  datatype Filters = Filters(department: string, sortBy: string, query: string)

  /** An ordered list of query parameters. */
  type Params = seq<(string, string)>

  /** `params.get(key)`: the first value under `key`. */
  function Lookup(ps: Params, key: string): (r: Option<string>)
    ensures r.Some? <==> exists k :: 0 <= k < |ps| && ps[k].0 == key
    ensures r.Some? ==> (key, r.value) in ps
  {
    if |ps| == 0 then None
    else if ps[0].0 == key then Some(ps[0].1)
    else
      var r := Lookup(ps[1..], key);
      assert forall k :: 1 <= k < |ps| ==> ps[k] == ps[1..][k - 1];
      r
  }

  /** Parameters under other keys do not hide a later one. */
  lemma {:induction false} LookupPast(a: Params, b: Params, key: string)
    requires forall k :: 0 <= k < |a| ==> a[k].0 != key
    ensures Lookup(a + b, key) == Lookup(b, key)
  {
    if |a| > 0 {
      assert (a + b)[1..] == a[1..] + b;
      LookupPast(a[1..], b, key);
    } else {
      assert a + b == b;
    }
  }

  /** The position of `key` in `keys`, or `|keys|` when it is not there. */
  function KeyRank(keys: seq<string>, key: string): (r: nat)
    ensures r <= |keys|
    ensures r < |keys| <==> key in keys
    ensures r < |keys| ==> keys[r] == key && forall k :: 0 <= k < r ==> keys[k] != key
  {
    if |keys| == 0 then 0
    else if keys[0] == key then 0
    else 1 + KeyRank(keys[1..], key)
  }

  /** Every parameter is under one of `keys`, and they appear in the order of
      `keys`, each at most once. */
  predicate KeysInOrder(ps: Params, keys: seq<string>) {
    (forall i :: 0 <= i < |ps| ==> ps[i].0 in keys) &&
    (forall i, j :: 0 <= i < j < |ps| ==> KeyRank(keys, ps[i].0) < KeyRank(keys, ps[j].0))
  }

  // ---------------------------------------------------------------------------
  // Filters and the address bar

  /** The parameters written to the address bar: only filters that differ from
      their defaults. */
  function UrlParams(f: Filters): (ps: Params)
    ensures Lookup(ps, "dept") == if f.department != AllDepartments then Some(f.department) else None
    ensures Lookup(ps, "sort") == if f.sortBy != DefaultSort then Some(f.sortBy) else None
    ensures Lookup(ps, "q") == if f.query != "" then Some(f.query) else None
    ensures ps == [] <==> f == Filters(AllDepartments, DefaultSort, "")
    ensures KeysInOrder(ps, ["dept", "sort", "q"])
  {
    var dept := if f.department != AllDepartments then [("dept", f.department)] else [];
    var sort := if f.sortBy != DefaultSort then [("sort", f.sortBy)] else [];
    var q := if f.query != "" then [("q", f.query)] else [];
    LookupPast(dept, sort + q, "sort");
    LookupPast(sort, q, "q");
    LookupPast(dept, sort + q, "q");
    LookupPast(sort, q, "dept");
    assert Lookup(q, "dept") == None;
    assert dept == [] ==> dept + (sort + q) == sort + q;
    UrlKeysInOrder(dept, sort, q);
    dept + (sort + q)
  }

  lemma UrlKeysInOrder(dept: Params, sort: Params, q: Params)
    requires |dept| <= 1 && |sort| <= 1 && |q| <= 1
    requires forall i :: 0 <= i < |dept| ==> dept[i].0 == "dept"
    requires forall i :: 0 <= i < |sort| ==> sort[i].0 == "sort"
    requires forall i :: 0 <= i < |q| ==> q[i].0 == "q"
    ensures KeysInOrder(dept + (sort + q), ["dept", "sort", "q"])
  {
    var keys := ["dept", "sort", "q"];
    assert KeyRank(keys, "dept") == 0;
    assert KeyRank(keys, "sort") == 1 by { assert keys[1..] == ["sort", "q"]; }
    assert KeyRank(keys, "q") == 2 by { assert keys[1..][1..] == ["q"]; }
  }

  /** `searchParams.get(key) || fallback`: a missing or empty value falls back. */
  function OrDefault(v: Option<string>, fallback: string): string {
    if v.Some? && v.value != "" then v.value else fallback
  }

  /** The filters the page starts with, read from the address bar. */
  function InitialFilters(ps: Params): (f: Filters)
    ensures f.department != "" && f.sortBy != ""
    ensures Lookup(ps, "dept").Some? && Lookup(ps, "dept").value != "" ==> f.department == Lookup(ps, "dept").value
    ensures Lookup(ps, "dept") in {None, Some("")} ==> f.department == AllDepartments
    ensures Lookup(ps, "sort").Some? && Lookup(ps, "sort").value != "" ==> f.sortBy == Lookup(ps, "sort").value
    ensures Lookup(ps, "sort") in {None, Some("")} ==> f.sortBy == DefaultSort
    ensures Lookup(ps, "q").Some? ==> f.query == Lookup(ps, "q").value
    ensures Lookup(ps, "q").None? ==> f.query == ""
  {
    Filters(OrDefault(Lookup(ps, "dept"), AllDepartments), OrDefault(Lookup(ps, "sort"), DefaultSort), OrDefault(Lookup(ps, "q"), ""))
  }

  /** Reloading the page restores the filters, except an empty department or
      sort, which come back as their defaults. */
  lemma UrlRoundTrip(f: Filters)
    ensures InitialFilters(UrlParams(f)) == f <==> f.department != "" && f.sortBy != ""
  {
  }

  /** `key=value` pairs joined by `&`, the values escaped by `escape`. */
  function QueryString(ps: Params, escape: string -> string): (s: string)
    ensures ps != [] ==> |s| > 0
  {
    if |ps| == 0 then []
    else
      var head := ps[0].0 + "=" + escape(ps[0].1);
      if |ps| == 1 then head else head + "&" + QueryString(ps[1..], escape)
  }

  /** The address the page replaces itself with: bare `/gallery` exactly when
      every filter is at its default. */
  function GalleryUrl(f: Filters, escape: string -> string): (url: string)
    ensures url == "/gallery" <==> f == Filters(AllDepartments, DefaultSort, "")
    ensures url != "/gallery" ==> url == "/gallery?" + QueryString(UrlParams(f), escape)
  {
    var qs := QueryString(UrlParams(f), escape);
    if qs != "" then "/gallery?" + qs else "/gallery"
  }

  // ---------------------------------------------------------------------------
  // Paged loading

  /** The parameters of a page request: page number, page size 12, and the
      department unless it is "all". The sort order and the search text are
      not sent. */
  function FetchParams(pageNum: nat, department: string): (ps: Params)
    ensures Lookup(ps, "page") == Some(Decimal(pageNum))
    ensures Lookup(ps, "limit") == Some("12")
    ensures Lookup(ps, "departmentName") == if department != AllDepartments then Some(department) else None
    ensures KeysInOrder(ps, ["page", "limit", "departmentName"])
  {
    var fixed := [("page", Decimal(pageNum)), ("limit", "12")];
    LookupPast(fixed, if department != AllDepartments then [("departmentName", department)] else [], "departmentName");
    fixed + (if department != AllDepartments then [("departmentName", department)] else [])
  }

  /** The sort order and the search text never reach the server: sorting and
      searching happen on the loaded photos only. */
  lemma FetchNeverSendsSortOrSearch(pageNum: nat, department: string)
    ensures Lookup(FetchParams(pageNum, department), "sortBy").None?
    ensures Lookup(FetchParams(pageNum, department), "sort").None?
    ensures Lookup(FetchParams(pageNum, department), "q").None?
  {
    var ps := FetchParams(pageNum, department);
    var keys := ["page", "limit", "departmentName"];
    assert "sortBy" !in keys && "sort" !in keys && "q" !in keys;
    assert forall k :: 0 <= k < |ps| ==> ps[k].0 in keys;
  }

  datatype Gallery = Gallery(photos: seq<Photo>, hasMore: bool, page: nat, isLoading: bool, filters: Filters)

  datatype Request = Request(pageNum: nat, reset: bool, params: Params)

  /** The page state together with the request in flight, if any. */
  datatype Session = Session(g: Gallery, pending: Option<Request>)

  /** `loadPhotos(pageNum, reset)` up to its `await`: nothing while a load is
      running, otherwise the page is marked loading and the request issued. */
  function LoadPhotos(s: Session, pageNum: nat, reset: bool): (r: Session)
    requires s.g.isLoading <==> s.pending.Some?
    ensures r.g.isLoading && r.pending.Some?
    ensures s.g.isLoading ==> r == s
    ensures !s.g.isLoading ==> (r.g.photos == s.g.photos && r.g.page == s.g.page &&
      r.pending.value == Request(pageNum, reset, FetchParams(pageNum, s.g.filters.department)))
  {
    if s.g.isLoading then s
    else Session(s.g.(isLoading := true), Some(Request(pageNum, reset, FetchParams(pageNum, s.g.filters.department))))
  }

  /** The rest of `loadPhotos`, when the request ends: a successful reply
      replaces the list (reset) or extends it, and a short page means the end;
      a failure changes nothing but the loading flag. */
  function Complete(s: Session, reply: Option<seq<Photo>>): (r: Session)
    requires s.pending.Some?
    ensures r.pending.None? && !r.g.isLoading
    ensures reply.None? ==> r.g == s.g.(isLoading := false)
    ensures reply.Some? && s.pending.value.reset ==> r.g.photos == reply.value && r.g.page == 1
    ensures reply.Some? && !s.pending.value.reset ==> r.g.photos == s.g.photos + reply.value && r.g.page == s.g.page
    ensures reply.Some? ==> (r.g.hasMore <==> |reply.value| >= PageSize)
  {
    var g := s.g.(isLoading := false);
    match reply
    case None => Session(g, None)
    case Some(newPhotos) =>
      var g' := if s.pending.value.reset then g.(photos := newPhotos, page := 1) else g.(photos := s.g.photos + newPhotos);
      Session(g'.(hasMore := |newPhotos| >= PageSize), None)
  }

  /** `loadMore`: the page counter moves on first, then the next page is loaded. */
  function LoadMore(s: Session): (r: Session)
    requires s.g.isLoading <==> s.pending.Some?
    ensures r.g.page == s.g.page + 1
  {
    LoadPhotos(s.(g := s.g.(page := s.g.page + 1)), s.g.page + 1, false)
  }

  /** A change of department, sort or search reloads from the first page,
      asking for the new department; while a load runs, the request is dropped. */
  function FiltersChanged(s: Session, f: Filters): (r: Session)
    requires s.g.isLoading <==> s.pending.Some?
    ensures r.g.filters == f
    ensures r.g.photos == s.g.photos && r.g.page == s.g.page
    ensures !s.g.isLoading ==> r.pending == Some(Request(1, true, FetchParams(1, f.department)))
    ensures s.g.isLoading ==> r.pending == s.pending
  {
    LoadPhotos(s.(g := s.g.(filters := f)), 1, true)
  }

  /** Only one request is ever in flight: a load asked for while another runs
      is dropped. */
  lemma SingleFlight(s: Session, pageNum: nat, reset: bool)
    requires s.g.isLoading <==> s.pending.Some?
    ensures LoadPhotos(s, pageNum, reset).g.isLoading <==> LoadPhotos(s, pageNum, reset).pending.Some?
    ensures s.pending.Some? ==> LoadPhotos(s, pageNum, reset).pending == s.pending
  {
  }

  /** Once the reload a filter change issued comes back, the list is exactly the
      first page for the new filters, and the page counter is back at 1. */
  lemma FilterChangeShowsFirstPage(s: Session, f: Filters, firstPage: seq<Photo>)
    requires !s.g.isLoading && s.pending.None?
    ensures var r := Complete(FiltersChanged(s, f), Some(firstPage));
      r.g.photos == firstPage && r.g.page == 1 && r.g.filters == f && r.pending.None?
  {
  }

  /** A filter change made while a load runs issues no request: the list keeps
      the photos of the old filters until something else reloads it. */
  lemma FilterChangeWhileLoadingIsDropped(s: Session, f: Filters)
    requires s.g.isLoading && s.pending.Some?
    ensures FiltersChanged(s, f).pending == s.pending
    ensures FiltersChanged(s, f).g.photos == s.g.photos
  {
  }

  /** The infinite scroll asks for more only while the last page was full and
      no search text is entered. */
  predicate ScrollEnabled(g: Gallery) {
    g.hasMore && g.filters.query == ""
  }

  /** After a successful load the scroll goes on exactly when the page was
      full and no search text is entered; a failed load leaves it as it was. */
  lemma ScrollAfterLoad(s: Session, reply: Option<seq<Photo>>)
    requires s.pending.Some?
    ensures reply.Some? ==> (ScrollEnabled(Complete(s, reply).g) <==> |reply.value| >= PageSize && s.g.filters.query == "")
    ensures reply.None? ==> (ScrollEnabled(Complete(s, reply).g) <==> ScrollEnabled(s.g))
  {
  }

  /** The server's pages for the current filters, page `k` for `k >= 1`. */
  function Pages(server: nat -> seq<Photo>, n: nat): seq<Photo> {
    if n == 0 then [] else Pages(server, n - 1) + server(n)
  }

  /** The list shows exactly pages 1 to `page`, and an infinite-scroll request
      in flight is for the next one. */
  predicate ShowsFirstPages(s: Session, server: nat -> seq<Photo>) {
    (s.g.isLoading <==> s.pending.Some?) &&
    s.g.photos == Pages(server, s.g.page) &&
    (s.pending.Some? ==> !s.pending.value.reset && s.pending.value.pageNum == s.g.page + 1)
  }

  /** Scrolling while a page is loading skips a page: the counter moves on,
      the request is dropped, and the following request asks for the page
      after the skipped one. */
  lemma {:induction false} LoadMoreSkipsPage(s: Session, server: nat -> seq<Photo>)
    requires s.g.page >= 1
    requires s.g.isLoading && s.pending == Some(Request(s.g.page, false, FetchParams(s.g.page, s.g.filters.department)))
    requires server(s.g.page + 1) != []
    requires s.g.photos == Pages(server, s.g.page - 1)
    ensures var after := Complete(LoadMore(s), Some(server(s.g.page)));
      after.g.page == s.g.page + 1 &&
      LoadMore(after).pending.value.pageNum == s.g.page + 2 &&
      after.g.photos != Pages(server, after.g.page)
  {
    var p := s.g.page;
    var after := Complete(LoadMore(s), Some(server(p)));
    assert Pages(server, p) == Pages(server, p - 1) + server(p);
    assert after.g.photos == Pages(server, p);
    PagesGrow(server, p + 1);
    assert |Pages(server, p + 1)| > |after.g.photos|;
  }

  lemma PagesGrow(server: nat -> seq<Photo>, n: nat)
    requires n >= 1 && server(n) != []
    ensures |Pages(server, n)| > |Pages(server, n - 1)|
  {
  }

  /** `loadMore` as evidently intended: while a load runs nothing happens;
      otherwise the next page is requested, and the counter moves on only when
      it arrives. */
  function LoadMoreFixed(s: Session): (r: Session)
    requires s.g.isLoading <==> s.pending.Some?
    ensures r.g.page == s.g.page
  {
    LoadPhotos(s, s.g.page + 1, false)
  }

  /** `Complete`, with the counter set to the page that arrived. */
  function CompleteFixed(s: Session, reply: Option<seq<Photo>>): (r: Session)
    requires s.pending.Some?
    ensures reply.Some? && !s.pending.value.reset ==> r.g.page == s.pending.value.pageNum
  {
    var r := Complete(s, reply);
    if reply.Some? && !s.pending.value.reset then r.(g := r.g.(page := s.pending.value.pageNum)) else r
  }

  /** With the corrected `loadMore`, scrolling and replies, successful or not,
      keep the list equal to the first `page` pages: no page is skipped and
      none is loaded twice. */
  lemma FixedKeepsFirstPages(s: Session, server: nat -> seq<Photo>)
    requires ShowsFirstPages(s, server)
    ensures ShowsFirstPages(LoadMoreFixed(s), server)
    ensures s.pending.Some? ==> ShowsFirstPages(CompleteFixed(s, Some(server(s.pending.value.pageNum))), server)
    ensures s.pending.Some? ==> ShowsFirstPages(CompleteFixed(s, None), server)
  {
  }

  /** A successful reload from the first page shows exactly the first page. */
  lemma ResetShowsFirstPage(s: Session, server: nat -> seq<Photo>)
    requires s.pending.Some? && s.pending.value.reset
    ensures ShowsFirstPages(CompleteFixed(s, Some(server(1))), server)
  {
    assert Pages(server, 1) == [] + server(1);
  }

  // ---------------------------------------------------------------------------
  // Client-side search and sort

  /** The photo's title or description contains the query, all lower-cased. */
  predicate Matches(p: Photo, query: string, lower: string -> string) {
    Contains(lower(p.title), lower(query)) || Contains(lower(p.description), lower(query))
  }

  /** `filteredPhotos`: everything for an empty query, otherwise the matching
      photos in their loaded order. */
  function FilterPhotos(photos: seq<Photo>, query: string, lower: string -> string): (r: seq<Photo>)
    ensures query == "" ==> r == photos
    ensures forall p :: p in r <==> p in photos && (query == "" || Matches(p, query, lower))
    ensures |r| <= |photos|
  {
    if query == "" then photos else Keep(photos, query, lower)
  }

  function Keep(photos: seq<Photo>, query: string, lower: string -> string): (r: seq<Photo>)
    ensures forall p :: p in r <==> p in photos && Matches(p, query, lower)
    ensures |r| <= |photos|
  {
    if |photos| == 0 then []
    else (if Matches(photos[0], query, lower) then [photos[0]] else []) + Keep(photos[1..], query, lower)
  }

  /** Filtering commutes with appending a page: the filtered list grows by the
      filtered new page. */
  lemma {:induction false} FilterAppend(a: seq<Photo>, b: seq<Photo>, query: string, lower: string -> string)
    ensures FilterPhotos(a + b, query, lower) == FilterPhotos(a, query, lower) + FilterPhotos(b, query, lower)
  {
    if query != "" {
      KeepAppend(a, b, query, lower);
    }
  }

  lemma {:induction false} KeepAppend(a: seq<Photo>, b: seq<Photo>, query: string, lower: string -> string)
    ensures Keep(a + b, query, lower) == Keep(a, query, lower) + Keep(b, query, lower)
  {
    if |a| == 0 {
      assert a + b == b;
    } else {
      assert (a + b)[1..] == a[1..] + b;
      KeepAppend(a[1..], b, query, lower);
    }
  }

  /** Filtering twice with the same query changes nothing more. */
  lemma {:induction false} FilterIdempotent(photos: seq<Photo>, query: string, lower: string -> string)
    ensures FilterPhotos(FilterPhotos(photos, query, lower), query, lower) == FilterPhotos(photos, query, lower)
  {
    if query != "" {
      KeepIdempotent(photos, query, lower);
    }
  }

  lemma {:induction false} KeepIdempotent(photos: seq<Photo>, query: string, lower: string -> string)
    ensures Keep(Keep(photos, query, lower), query, lower) == Keep(photos, query, lower)
  {
    if |photos| > 0 {
      var head := if Matches(photos[0], query, lower) then [photos[0]] else [];
      KeepIdempotent(photos[1..], query, lower);
      KeepAppend(head, Keep(photos[1..], query, lower), query, lower);
      if head != [] {
        assert Keep(head, query, lower) == head by {
          assert head[1..] == [];
        }
      }
    }
  }

  /** The sort key of `sortedPhotos`: likes for "popular", views for "views",
      and the upload time for "latest" and anything else. */
  function SortKey(sortBy: string, time: string -> int): Photo -> int {
    if sortBy == "popular" then (p: Photo) => p.likeCount
    else if sortBy == "views" then (p: Photo) => p.viewCount
    else (p: Photo) => time(p.uploadDate)
  }

  /** `sortedPhotos`: the filtered list, stably sorted by the key, largest first. */
  function SortedPhotos(photos: seq<Photo>, f: Filters, lower: string -> string, time: string -> int): (r: seq<Photo>)
    ensures multiset(r) == multiset(FilterPhotos(photos, f.query, lower))
    ensures Ordering.SortedDesc(r, SortKey(f.sortBy, time))
  {
    Ordering.SortDesc(FilterPhotos(photos, f.query, lower), SortKey(f.sortBy, time))
  }

  /** Photos with the same key keep their loaded order. */
  lemma SortedPhotosStable(photos: seq<Photo>, f: Filters, lower: string -> string, time: string -> int, v: int)
    ensures Ordering.WithKey(SortedPhotos(photos, f, lower, time), SortKey(f.sortBy, time), v) ==
            Ordering.WithKey(FilterPhotos(photos, f.query, lower), SortKey(f.sortBy, time), v)
  {
    Ordering.SortDescStable(FilterPhotos(photos, f.query, lower), SortKey(f.sortBy, time), v);
  }

  /** Any unknown sort value sorts like "latest". */
  lemma UnknownSortIsLatest(sortBy: string, time: string -> int, p: Photo)
    requires sortBy != "popular" && sortBy != "views"
    ensures SortKey(sortBy, time)(p) == SortKey(DefaultSort, time)(p)
  {
  }

  /** Position `i` holds the first photo with the id. */
  predicate FirstWithId(photos: seq<Photo>, i: nat, id: string)
    requires i < |photos|
  {
    photos[i].id == id && forall j :: 0 <= j < i ==> photos[j].id != id
  }

  /** `handleNavigatePhoto`: the first photo of the sorted list with the id. */
  function FindById(photos: seq<Photo>, id: string): (r: Option<Photo>)
    ensures r.None? <==> forall k :: 0 <= k < |photos| ==> photos[k].id != id
    ensures r.Some? ==> r.value in photos && r.value.id == id
    ensures r.Some? ==> exists i :: 0 <= i < |photos| && photos[i] == r.value && FirstWithId(photos, i, id)
  {
    if |photos| == 0 then None
    else if photos[0].id == id then Some(photos[0])
    else
      var r := FindById(photos[1..], id);
      assert forall k :: 1 <= k < |photos| ==> photos[k] == photos[1..][k - 1];
      if r.Some? then
        var i :| 0 <= i < |photos[1..]| && photos[1..][i] == r.value && FirstWithId(photos[1..], i, id);
        assert photos[i + 1] == r.value && FirstWithId(photos, i + 1, id);
        r
      else r
  }
}

=== FILE: js_text.dfy ===
/**
 The ECMAScript string primitives the gallery uses whose exact behaviour
 matters to its checks: `String.prototype.trim` (section 22.1.3.32 of
 ECMA-262), the global `parseInt` with no radix (section 19.2.5), and the
 UTF-16 view behind `length` and `charCodeAt`.

 A Dafny `char` is a Unicode scalar value, while an ECMAScript string is a
 sequence of UTF-16 code units. Every character `trim` and `parseInt` look
 for lies in the Basic Multilingual Plane, where the two views agree, so they
 are stated on characters; `CodeUnits` gives the UTF-16 view where lengths
 and code values matter.
 */
module JsText {
  import opened Common

  // ---------------------------------------------------------------------------
  // UTF-16

  /** The UTF-16 encoding of one character: itself below U+10000, otherwise a
      high and a low surrogate. */
  function CharUnits(c: char): (u: seq<int>)
    ensures 1 <= |u| <= 2
    ensures forall k :: 0 <= k < |u| ==> 0 <= u[k] < 0x10000
    ensures |u| == 1 <==> (c as int) < 0x10000
  {
    var v := c as int;
    if v < 0x10000 then [v]
    else [0xD800 + (v - 0x10000) / 0x400, 0xDC00 + (v - 0x10000) % 0x400]
  }

  /** The character a one- or two-unit sequence encodes (a surrogate pair is
      combined, a single unit stands for itself). */
  function DecodeUnits(u: seq<int>): int
    requires 1 <= |u| <= 2
  {
    if |u| == 1 then u[0] else 0x10000 + (u[0] - 0xD800) * 0x400 + (u[1] - 0xDC00)
  }

  /** Decoding undoes the encoding of every character. */
  lemma CharUnitsRoundTrip(c: char)
    ensures DecodeUnits(CharUnits(c)) == c as int
  {
    var v := c as int;
    if v >= 0x10000 {
      var q, r := (v - 0x10000) / 0x400, (v - 0x10000) % 0x400;
      assert v - 0x10000 == q * 0x400 + r;
    }
  }

  /** The code units of a string, as `charCodeAt` reads them. */
  function CodeUnits(s: string): (u: seq<int>)
    ensures |s| <= |u| <= 2 * |s|
    ensures forall k :: 0 <= k < |u| ==> 0 <= u[k] < 0x10000
  {
    if |s| == 0 then [] else CharUnits(s[0]) + CodeUnits(s[1..])
  }

  /** `s.length`. */
  function Length(s: string): (n: nat)
    ensures |s| <= n <= 2 * |s|
  {
    |CodeUnits(s)|
  }

  /** A string of characters below U+10000 has one code unit per character,
      equal to the character's value. */
  lemma {:induction false} CodeUnitsOfBmp(s: string)
    requires forall k :: 0 <= k < |s| ==> (s[k] as int) < 0x10000
    ensures Length(s) == |s|
    ensures forall k :: 0 <= k < |s| ==> CodeUnits(s)[k] == s[k] as int
  {
    if |s| > 0 {
      CodeUnitsOfBmp(s[1..]);
    }
  }

  /** The code units of a concatenation are the concatenated code units. */
  lemma {:induction false} CodeUnitsAppend(s: string, t: string)
    ensures CodeUnits(s + t) == CodeUnits(s) + CodeUnits(t)
  {
    if |s| > 0 {
      assert (s + t)[1..] == s[1..] + t;
      CodeUnitsAppend(s[1..], t);
    } else {
      assert s + t == t;
    }
  }

  /** WhiteSpace and LineTerminator code points (sections 12.2 and 12.3 of
      ECMA-262), the characters `trim` and `parseInt` skip. */
  predicate IsJsWhitespace(c: char) {
    c == '\U{0009}' || c == '\U{000B}' || c == '\U{000C}' || c == ' ' ||
    c == '\U{00A0}' || c == '\U{FEFF}' || c == '\U{1680}' ||
    ('\U{2000}' <= c <= '\U{200A}') || c == '\U{202F}' || c == '\U{205F}' || c == '\U{3000}' ||
    c == '\n' || c == '\r' || c == '\U{2028}' || c == '\U{2029}'
  }

  predicate AllWhitespace(s: string) {
    forall k :: 0 <= k < |s| ==> IsJsWhitespace(s[k])
  }

  /** Number of leading whitespace characters. */
  function LeadingSpace(s: string): (n: nat)
    ensures n <= |s|
    ensures AllWhitespace(s[..n])
    ensures n < |s| ==> !IsJsWhitespace(s[n])
  {
    if |s| == 0 || !IsJsWhitespace(s[0]) then 0 else 1 + LeadingSpace(s[1..])
  }

  /** Number of trailing whitespace characters. */
  function TrailingSpace(s: string): (n: nat)
    ensures n <= |s|
    ensures AllWhitespace(s[|s| - n..])
    ensures n < |s| ==> !IsJsWhitespace(s[|s| - n - 1])
  {
    if |s| == 0 || !IsJsWhitespace(s[|s| - 1]) then 0 else 1 + TrailingSpace(s[..|s| - 1])
  }

  /** `s.trim()`: `s` without its leading and trailing whitespace. */
  function Trim(s: string): (t: string)
    ensures |t| <= |s|
    ensures Contains(s, t)
    ensures t == [] <==> AllWhitespace(s)
    ensures t != [] ==> !IsJsWhitespace(t[0]) && !IsJsWhitespace(t[|t| - 1])
  {
    var a := LeadingSpace(s);
    var rest := s[a..];
    var b := TrailingSpace(rest);
    assert AllWhitespace(s) ==> a == |s|;
    assert a == |s| ==> AllWhitespace(s) by {
      if a == |s| { assert s[..a] == s; }
    }
    var t := rest[..|rest| - b];
    assert t == s[a..a + |t|];
    assert OccursAt(s, t, a);
    t
  }

  /** Trimming is idempotent. */
  lemma TrimIdempotent(s: string)
    ensures Trim(Trim(s)) == Trim(s)
  {
    var t := Trim(s);
    if t != [] {
      assert LeadingSpace(t) == 0;
      assert t[0..] == t;
      assert TrailingSpace(t) == 0;
    }
  }

  // ---------------------------------------------------------------------------
  // parseInt(string) without a radix

  predicate IsHexDigit(c: char) {
    IsDigit(c) || ('a' <= c <= 'f') || ('A' <= c <= 'F')
  }

  function HexValue(c: char): (d: nat)
    requires IsHexDigit(c)
    ensures d < 16
  {
    if IsDigit(c) then DigitValue(c)
    else if 'a' <= c <= 'f' then (c as int) - ('a' as int) + 10
    else (c as int) - ('A' as int) + 10
  }

  /** A digit of radix 16 when `hex` holds, of radix 10 otherwise. */
  predicate IsRadixDigit(c: char, hex: bool) {
    if hex then IsHexDigit(c) else IsDigit(c)
  }

  /** Length of the longest prefix of `s` made of digits of the given radix. */
  function DigitRun(s: string, hex: bool): (n: nat)
    ensures n <= |s|
    ensures forall k :: 0 <= k < n ==> IsRadixDigit(s[k], hex)
    ensures n < |s| ==> !IsRadixDigit(s[n], hex)
  {
    if |s| == 0 || !IsRadixDigit(s[0], hex) then 0
    else 1 + DigitRun(s[1..], hex)
  }

  /** The value of a run of digits in radix 10 or 16. */
  function RadixValue(s: string, hex: bool): nat
    requires forall k :: 0 <= k < |s| ==> IsRadixDigit(s[k], hex)
  {
    if |s| == 0 then 0
    else
      var last := s[|s| - 1];
      assert IsRadixDigit(last, hex);
      (if hex then 16 else 10) * RadixValue(s[..|s| - 1], hex) +
      (if hex then HexValue(last) else DigitValue(last))
  }

  /** Reads digits after the sign: radix 16 after a `0x`/`0X` prefix, radix 10
      otherwise; `None` when no digit follows. */
  predicate HexPrefix(u: string) {
    |u| >= 2 && u[0] == '0' && (u[1] == 'x' || u[1] == 'X')
  }

  function ParseUnsigned(u: string): (r: Option<nat>)
    ensures u == [] ==> r.None?
  {
    var hex := HexPrefix(u);
    var digits := if hex then u[2..] else u;
    var n := DigitRun(digits, hex);
    if n == 0 then None else Some(RadixValue(digits[..n], hex))
  }

  /**
   `parseInt(s)`: skips leading whitespace, reads an optional sign, then the
   longest run of digits that follows. `None` is `NaN`, the result when that
   run is empty. (A parsed `-0` is the integer 0 here.)
   */
  function ParseInt(s: string): (r: Option<int>)
    ensures s == [] ==> r.None?
    ensures AllWhitespace(s) ==> r.None?
  {
    var t := s[LeadingSpace(s)..];
    if |t| > 0 && t[0] == '-' then
      match ParseUnsigned(t[1..])
      case Some(v) => Some(-(v as int))
      case None => None
    else if |t| > 0 && t[0] == '+' then ParseUnsigned(t[1..])
    else ParseUnsigned(t)
  }

  lemma {:induction false} RadixValueIsParseDecimal(s: string)
    requires forall k :: 0 <= k < |s| ==> IsDigit(s[k])
    ensures RadixValue(s, false) == ParseDecimal(s)
  {
    if |s| > 0 {
      RadixValueIsParseDecimal(s[..|s| - 1]);
    }
  }

  lemma {:induction false} DigitRunOfConcat(digits: string, tail: string)
    requires forall k :: 0 <= k < |digits| ==> IsDigit(digits[k])
    requires |tail| == 0 || !IsDigit(tail[0])
    ensures DigitRun(digits + tail, false) == |digits|
    decreases |digits|
  {
    var s := digits + tail;
    if |digits| > 0 {
      assert IsRadixDigit(s[0], false);
      assert s[1..] == digits[1..] + tail;
      DigitRunOfConcat(digits[1..], tail);
    } else {
      assert s == tail;
    }
  }

  /** A run of decimal digits followed by a non-digit (or nothing) reads as
      the run's value. */
  lemma ParseUnsignedDecimal(digits: string, tail: string)
    requires |digits| >= 1 && forall k :: 0 <= k < |digits| ==> IsDigit(digits[k])
    requires |tail| == 0 || !IsDigit(tail[0])
    requires !(|digits| == 1 && digits[0] == '0' && |tail| > 0 && (tail[0] == 'x' || tail[0] == 'X'))
    ensures ParseUnsigned(digits + tail) == Some(ParseDecimal(digits))
  {
    var u := digits + tail;
    NoHexPrefix(digits, tail);
    DigitRunOfConcat(digits, tail);
    assert u[..|digits|] == digits;
    RadixValueIsParseDecimal(digits);
  }

  /** Only a lone `0` followed by `x` or `X` starts a hexadecimal numeral. */
  lemma NoHexPrefix(digits: string, tail: string)
    requires |digits| >= 1 && forall k :: 0 <= k < |digits| ==> IsDigit(digits[k])
    requires !(|digits| == 1 && digits[0] == '0' && |tail| > 0 && (tail[0] == 'x' || tail[0] == 'X'))
    ensures !HexPrefix(digits + tail)
  {
    var u := digits + tail;
    if |u| >= 2 && |digits| >= 2 {
      assert u[1] == digits[1];
    } else if |u| >= 2 {
      assert u[1] == tail[0];
    }
  }

  /** A string that starts with a digit has no whitespace or sign to skip. */
  lemma ParseIntOfDigitStart(s: string)
    requires |s| >= 1 && IsDigit(s[0])
    ensures ParseInt(s) == ParseUnsigned(s)
  {
    assert !IsJsWhitespace(s[0]);
    assert LeadingSpace(s) == 0;
    assert s[0..] == s;
  }

  /** A plain numeral parses to its value, with or without leading zeros. */
  lemma ParseIntOfNumeral(s: string)
    requires |s| >= 1 && forall k :: 0 <= k < |s| ==> IsDigit(s[k])
    ensures ParseInt(s) == Some(ParseDecimal(s))
  {
    ParseIntOfDigitStart(s);
    var none: string := [];
    assert s + none == s;
    ParseUnsignedDecimal(s, none);
  }

  /** Parsing stops at the first non-digit. */
  lemma ParseIntStopsAtNonDigit(digits: string, tail: string)
    requires |digits| >= 1 && forall k :: 0 <= k < |digits| ==> IsDigit(digits[k])
    requires |tail| >= 1 && !IsDigit(tail[0])
    requires !(|digits| == 1 && digits[0] == '0' && (tail[0] == 'x' || tail[0] == 'X'))
    ensures ParseInt(digits + tail) == Some(ParseDecimal(digits))
  {
    var s := digits + tail;
    assert s[0] == digits[0];
    ParseIntOfDigitStart(s);
    ParseUnsignedDecimal(digits, tail);
  }

  lemma ParseIntNumeralExample()
    ensures ParseInt("400") == Some(400)
  {
    assert Decimal(400) == "400";
    ParseIntOfNumeral(Decimal(400));
    DecimalRoundTrip(400);
  }

  lemma ParseIntTrailingTextExample(s: string)
    requires s == "12abc"
    ensures ParseInt(s) == Some(12)
  {
    var digits, tail := "12", "abc";
    assert s == digits + tail;
    ParseIntStopsAtNonDigit(digits, tail);
    assert ParseDecimal(digits) == 12 by {
      assert digits[..1] == "1";
    }
  }

  lemma ParseIntSignExample()
    ensures ParseInt(" -7") == Some(-7)
  {
    var s := " -7";
    assert LeadingSpace(s) == 1 by {
      assert LeadingSpace(s[1..]) == 0;
    }
    assert s[1..] == "-7";
    assert "-7"[1..] == "7";
    ParseUnsignedDecimal("7", []);
    assert "7" + [] == "7";
  }

  lemma ParseIntNaNExample()
    ensures ParseInt("abc") == None
  {
    assert LeadingSpace("abc") == 0;
    assert "abc"[0..] == "abc";
    assert DigitRun("abc", false) == 0;
  }
}

=== FILE: like_button.dfy ===
/**
 The heart button (`LikeButton.tsx`): an optimistic like toggle that updates
 the count at once, flips the browser's record of liked photos, then takes
 the server's count when it gets one. A press is ignored while the previous
 press's animation runs; the 500 ms timer that ends it is an explicit event.
 */
module LikeButton {
  import opened Common
  import LikeManager

  datatype Button = Button(isLiked: bool, likeCount: int, isAnimating: bool)

  /** The button after mounting: the count it was given and the liked state
      read from local storage. */
  function Mount(env: LikeManager.Env, photoId: string, initialLikeCount: int): (b: Button)
    ensures b.isLiked == LikeManager.IsPhotoLiked(env, photoId)
    ensures b.likeCount == initialLikeCount && !b.isAnimating
  {
    Button(LikeManager.IsPhotoLiked(env, photoId), initialLikeCount, false)
  }

  /** A press in progress: the optimistic state and the like/unlike request. */
  datatype Pressed = Pressed(b: Button, env: LikeManager.Env, newIsLiked: bool, newCount: int)

  /** `handleLike` up to the server call; `None` when a press is still
      animating. */
  function Press(b: Button, env: LikeManager.Env, photoId: string): (r: Option<Pressed>)
    ensures r.None? <==> b.isAnimating
    ensures r.Some? ==> r.value.newIsLiked == !b.isLiked
    ensures r.Some? ==> r.value.newCount == if b.isLiked then b.likeCount - 1 else b.likeCount + 1
    ensures r.Some? ==> r.value.b == Button(r.value.newIsLiked, r.value.newCount, true)
    ensures r.Some? ==> r.value.env == LikeManager.ToggleLike(env, photoId).0
  {
    if b.isAnimating then None
    else
      var newIsLiked := !b.isLiked;
      var newCount := if newIsLiked then b.likeCount + 1 else b.likeCount - 1;
      Some(Pressed(Button(newIsLiked, newCount, true), LikeManager.ToggleLike(env, photoId).0, newIsLiked, newCount))
  }

  /** The rest of `handleLike`: the server's count replaces the optimistic one
      when `syncLikeToServer` returns one, and the parent is told the count and
      the new state. */
  function Settle(p: Pressed, reply: LikeManager.ServerReply): (r: (Button, (int, bool)))
    ensures r.0.isLiked == p.b.isLiked && r.0.isAnimating == p.b.isAnimating
    ensures LikeManager.SyncResult(reply).Some? ==> r.0.likeCount == LikeManager.SyncResult(reply).value
    ensures LikeManager.SyncResult(reply).None? ==> r.0.likeCount == p.b.likeCount
  {
    var serverCount := LikeManager.SyncResult(reply);
    var b := if serverCount.Some? then p.b.(likeCount := serverCount.value) else p.b;
    (b, (if serverCount.Some? then serverCount.value else p.newCount, p.newIsLiked))
  }

  /** The timer fires and the button takes presses again. */
  function AnimationEnded(b: Button): (r: Button)
    ensures !r.isAnimating && r.isLiked == b.isLiked && r.likeCount == b.likeCount
  {
    b.(isAnimating := false)
  }

  /** The button and the browser agree on whether the photo is liked. */
  predicate InSync(b: Button, env: LikeManager.Env, photoId: string) {
    b.isLiked == LikeManager.IsPhotoLiked(env, photoId)
  }

  /** In a browser, a press keeps the heart and the stored list in agreement,
      and the settled state keeps it too. */
  lemma PressKeepsInSync(b: Button, env: LikeManager.Env, photoId: string, reply: LikeManager.ServerReply)
    requires env.Browser? && InSync(b, env, photoId) && !b.isAnimating
    ensures var p := Press(b, env, photoId).value;
      InSync(p.b, p.env, photoId) && InSync(Settle(p, reply).0, p.env, photoId)
  {
  }

  /** The parent is told exactly what the button ends up showing. */
  lemma ParentSeesShownState(p: Pressed, reply: LikeManager.ServerReply)
    requires p.b.likeCount == p.newCount && p.b.isLiked == p.newIsLiked
    ensures Settle(p, reply).1 == (Settle(p, reply).0.likeCount, Settle(p, reply).0.isLiked)
  {
  }

  /** Like then unlike with no count from the server restores the heart, the
      count and (in a browser) the stored membership. */
  lemma PressTwiceRestores(b: Button, env: LikeManager.Env, photoId: string)
    requires env.Browser? && InSync(b, env, photoId) && !b.isAnimating
    ensures var p1 := Press(b, env, photoId).value;
      var b1 := AnimationEnded(Settle(p1, LikeManager.HttpFailure).0);
      var p2 := Press(b1, p1.env, photoId).value;
      var b2 := AnimationEnded(Settle(p2, LikeManager.HttpFailure).0);
      b2 == b && LikeManager.IsPhotoLiked(p2.env, photoId) == LikeManager.IsPhotoLiked(env, photoId)
  {
    LikeManager.ToggleTwiceRestoresMembership(env, photoId);
  }

  /** A count of zero from the server is dropped, so the optimistic count stays
      on screen. */
  lemma ZeroServerCountKeepsOptimistic(p: Pressed)
    ensures Settle(p, LikeManager.Success(Some(0))).0.likeCount == p.b.likeCount
    ensures Settle(p, LikeManager.Success(Some(0))).1.0 == p.newCount
  {
  }

  /** A press during the animation changes nothing. */
  lemma PressWhileAnimatingIgnored(b: Button, env: LikeManager.Env, photoId: string)
    requires b.isAnimating
    ensures Press(b, env, photoId).None?
  {
  }
}

=== FILE: like_manager.dfy ===
/**
 The browser-side record of liked photos (`like-manager.ts`): a list of photo
 ids kept in local storage under one key, plus the mapping of the server's
 reply to a like request.

 Outside a browser (no `window`) reads see nothing and writes do nothing.
 */
module LikeManager {
  import opened Common

  /** The stored item as `getItem` + `JSON.parse` see it. */
  datatype Item = Missing | Unparseable | Ids(ids: seq<string>)

  /** Where the code runs: on the server, or in a browser with local storage. */
  datatype Env = NoWindow | Browser(item: Item)

  /** `getLikedPhotos()`: the stored list, or the empty list when there is no
      browser, no item, or an item that does not parse. */
  function GetLikedPhotos(env: Env): (r: seq<string>)
    ensures env.NoWindow? || !env.item.Ids? ==> r == []
    ensures env.Browser? && env.item.Ids? ==> r == env.item.ids
  {
    match env
    case NoWindow => []
    case Browser(Ids(ids)) => ids
    case Browser(_) => []
  }

  /** `saveLikedPhotos(ids)`. */
  function Save(env: Env, ids: seq<string>): Env {
    if env.NoWindow? then env else Browser(Ids(ids))
  }

  /** `isPhotoLiked(id)`. */
  predicate IsPhotoLiked(env: Env, id: string) {
    env.Browser? && id in GetLikedPhotos(env)
  }

  /** `addLike(id)`: appends the id unless it is already there. */
  function AddLike(env: Env, id: string): (r: Env)
    ensures env.NoWindow? ==> r == env
    ensures env.Browser? && id in GetLikedPhotos(env) ==> r == env
    ensures env.Browser? && id !in GetLikedPhotos(env) ==> r == Browser(Ids(GetLikedPhotos(env) + [id]))
  {
    if env.NoWindow? then env
    else
      var liked := GetLikedPhotos(env);
      if id !in liked then Save(env, liked + [id]) else env
  }

  /** The ids of `ids` other than `id`, in order (`filter(x => x !== id)`). */
  function Without(ids: seq<string>, id: string): (r: seq<string>)
    ensures id !in r
    ensures forall x :: x in r <==> x in ids && x != id
    ensures |r| <= |ids|
  {
    if |ids| == 0 then []
    else (if ids[0] == id then [] else [ids[0]]) + Without(ids[1..], id)
  }

  /** `removeLike(id)`: drops every occurrence of the id. The list is written
      back even when nothing was removed, so an unreadable item becomes the
      empty list. */
  function RemoveLike(env: Env, id: string): (r: Env)
    ensures env.NoWindow? ==> r == env
    ensures env.Browser? ==> r == Browser(Ids(Without(GetLikedPhotos(env), id)))
  {
    if env.NoWindow? then env else Save(env, Without(GetLikedPhotos(env), id))
  }

  /** `toggleLike(id)`: removes a liked id, adds an unliked one, and returns
      the new state. Outside a browser the id never reads as liked, so the call
      claims `true` and changes nothing. */
  function ToggleLike(env: Env, id: string): (r: (Env, bool))
    ensures r.1 == !IsPhotoLiked(env, id)
    ensures env.Browser? ==> IsPhotoLiked(r.0, id) == r.1
    ensures env.NoWindow? ==> r == (env, true)
  {
    if IsPhotoLiked(env, id) then (RemoveLike(env, id), false) else (AddLike(env, id), true)
  }

  // ---------------------------------------------------------------------------
  // Properties

  /** A list with no repeated id. */
  predicate Distinct(ids: seq<string>) {
    forall i, j :: 0 <= i < j < |ids| ==> ids[i] != ids[j]
  }

  /** Adding never creates a duplicate. */
  lemma AddLikeKeepsDistinct(env: Env, id: string)
    requires Distinct(GetLikedPhotos(env))
    ensures Distinct(GetLikedPhotos(AddLike(env, id)))
  {
  }

  /** Removing keeps every other id as often as it occurred. */
  lemma {:induction false} WithoutKeepsOthers(ids: seq<string>, id: string, x: string)
    requires x != id
    ensures Count(Without(ids, id), x) == Count(ids, x)
  {
    if |ids| > 0 {
      WithoutKeepsOthers(ids[1..], id, x);
      var head := if ids[0] == id then [] else [ids[0]];
      CountAppend(head, Without(ids[1..], id), x);
      CountAppend([ids[0]], ids[1..], x);
      assert [ids[0]] + ids[1..] == ids;
    }
  }

  /** Removing keeps the order of what remains: it works piece by piece, so
      the survivors of a prefix come before those of the rest. */
  lemma {:induction false} WithoutAppend(a: seq<string>, b: seq<string>, id: string)
    ensures Without(a + b, id) == Without(a, id) + Without(b, id)
  {
    if |a| > 0 {
      assert (a + b)[1..] == a[1..] + b;
      WithoutAppend(a[1..], b, id);
    } else {
      assert a + b == b;
    }
  }

  /** Number of occurrences of `x` in `ids`. */
  function Count(ids: seq<string>, x: string): nat {
    if |ids| == 0 then 0 else (if ids[0] == x then 1 else 0) + Count(ids[1..], x)
  }

  lemma {:induction false} CountAppend(a: seq<string>, b: seq<string>, x: string)
    ensures Count(a + b, x) == Count(a, x) + Count(b, x)
  {
    if |a| > 0 {
      assert (a + b)[1..] == a[1..] + b;
      CountAppend(a[1..], b, x);
    } else {
      assert a + b == b;
    }
  }

  /** In a browser, toggling twice restores the id's membership. */
  lemma ToggleTwiceRestoresMembership(env: Env, id: string)
    requires env.Browser?
    ensures IsPhotoLiked(ToggleLike(ToggleLike(env, id).0, id).0, id) == IsPhotoLiked(env, id)
  {
  }

  /** Toggling one id leaves every other id's membership alone. */
  lemma ToggleLeavesOthers(env: Env, id: string, other: string)
    requires other != id
    ensures IsPhotoLiked(ToggleLike(env, id).0, other) == IsPhotoLiked(env, other)
  {
  }

  // ---------------------------------------------------------------------------
  // syncLikeToServer

  /** How the like request ended: a thrown error, a non-2xx status, or a 2xx
      reply whose body carried `data.likeCount` (or did not). */
  datatype ServerReply = Thrown | HttpFailure | Success(likeCount: Option<int>)

  /** `data.data?.likeCount || null`: a missing count and a count of 0 both
      become `null`, just like a failure. */
  function SyncResult(reply: ServerReply): (r: Option<int>)
    ensures r.Some? <==> reply.Success? && reply.likeCount.Some? && reply.likeCount.value != 0
    ensures r.Some? ==> r.value == reply.likeCount.value
  {
    match reply
    case Success(Some(n)) => if n != 0 then Some(n) else None
    case _ => None
  }

  /** Every non-zero count the server sends comes back unchanged, and no
      reply ever yields a count of zero. */
  lemma NonZeroCountRoundTrip(n: int, reply: ServerReply)
    ensures n != 0 ==> SyncResult(Success(Some(n))) == Some(n)
    ensures SyncResult(reply) != Some(0)
  {
  }

  /** A server count of zero is indistinguishable from a failed request. */
  lemma ZeroCountLooksLikeFailure()
    ensures SyncResult(Success(Some(0))) == SyncResult(HttpFailure) == SyncResult(Thrown) == None
  {
  }
}

=== FILE: nickname.dfy ===
/**
 Nicknames and avatars of commenters (`nickname-generator.ts`): a random
 "adjective animal" nickname, and a 32-bit string hash of the nickname,
 rendered in base 36, that seeds the avatar URL.

 ECMAScript's `<<` and `&` convert their operands with ToInt32 (section 7.1.6
 of ECMA-262), so the hash wraps around at 32 bits after every step; that
 wrap is written out here on unbounded integers.
 */
module Nickname {
  import opened Common
  import JsText

  // ---------------------------------------------------------------------------
  // 32-bit signed integers

  const TwoTo32: int := 0x1_0000_0000
  const TwoTo31: int := 0x8000_0000

  /** `x` and `y` agree modulo 2³². */
  predicate Cong(x: int, y: int) {
    (x - y) % TwoTo32 == 0
  }

  /** ToInt32: the integer in [−2³¹, 2³¹) congruent to `x` modulo 2³². */
  function ToInt32(x: int): (r: int)
    ensures -TwoTo31 <= r < TwoTo31
    ensures Cong(x, r)
  {
    var m := x % TwoTo32;
    if m >= TwoTo31 then m - TwoTo32 else m
  }

  lemma CongMultiple(d: int)
    requires d % TwoTo32 == 0
    ensures d == TwoTo32 * (d / TwoTo32)
  {
  }

  lemma MultipleCong(k: int)
    ensures (TwoTo32 * k) % TwoTo32 == 0
  {
  }

  lemma CongTrans(x: int, y: int, z: int)
    requires Cong(x, y) && Cong(y, z)
    ensures Cong(x, z)
  {
    CongMultiple(x - y);
    CongMultiple(y - z);
    assert x - z == TwoTo32 * ((x - y) / TwoTo32 + (y - z) / TwoTo32);
    MultipleCong((x - y) / TwoTo32 + (y - z) / TwoTo32);
  }

  lemma CongSym(x: int, y: int)
    requires Cong(x, y)
    ensures Cong(y, x)
  {
    CongMultiple(x - y);
    assert y - x == TwoTo32 * -((x - y) / TwoTo32);
    MultipleCong(-((x - y) / TwoTo32));
  }

  /** Congruence survives `31·x + c` on both sides. */
  lemma CongAffine(x: int, y: int, c: int)
    requires Cong(x, y)
    ensures Cong(31 * x + c, 31 * y + c)
  {
    CongMultiple(x - y);
    var k := (x - y) / TwoTo32;
    assert (31 * x + c) - (31 * y + c) == TwoTo32 * (31 * k);
    MultipleCong(31 * k);
  }

  /** Congruence survives adding the same amount to one side. */
  lemma CongShift(x: int, y: int, d: int)
    requires Cong(x, y)
    ensures Cong(x + d, y + d)
  {
  }

  /** ToInt32 only depends on the value modulo 2³². */
  lemma ToInt32Congruent(x: int, y: int)
    requires Cong(x, y)
    ensures ToInt32(x) == ToInt32(y)
  {
    CongMultiple(x - y);
    ModShift(y, (x - y) / TwoTo32);
  }

  lemma ModShift(y: int, k: int)
    ensures (y + TwoTo32 * k) % TwoTo32 == y % TwoTo32
  {
    var q, r := y / TwoTo32, y % TwoTo32;
    assert y + TwoTo32 * k == TwoTo32 * (q + k) + r;
  }

  /** Two values less than 2³² apart with the same ToInt32 are equal. */
  lemma ToInt32InjectiveNear(x: int, y: int)
    requires -TwoTo32 < x - y < TwoTo32
    requires ToInt32(x) == ToInt32(y)
    ensures x == y
  {
    var r := ToInt32(x);
    CongSym(y, r);
    CongTrans(x, r, y);
    CongMultiple(x - y);
  }

  /** One step of the loop: `hash = (hash << 5) - hash + char; hash = hash & hash`.
      The shift wraps, the subtraction and addition are exact, and the `&`
      wraps the sum. */
  function Step(h: int, unit: int): int {
    var shifted := ToInt32(h * 32);
    ToInt32(shifted - h + unit)
  }

  /** The hash of a sequence of code units, step by step from 0. */
  function HashOf(units: seq<int>): (h: int)
    ensures -TwoTo31 <= h < TwoTo31
  {
    if |units| == 0 then 0 else Step(HashOf(units[..|units| - 1]), units[|units| - 1])
  }

  /** The same polynomial without any wrap-around: Σ uᵢ·31^(n−1−i). */
  function Poly(units: seq<int>): int {
    if |units| == 0 then 0 else 31 * Poly(units[..|units| - 1]) + units[|units| - 1]
  }

  /** Wrapping after every step gives the same result as wrapping once at the
      end: the hash is the 31-polynomial of the code units, read as an int32. */
  lemma {:induction false} HashIsWrappedPoly(units: seq<int>)
    ensures HashOf(units) == ToInt32(Poly(units))
  {
    if |units| > 0 {
      var init, u := units[..|units| - 1], units[|units| - 1];
      var h, p := HashOf(init), Poly(init);
      HashIsWrappedPoly(init);
      assert Cong(p, h);
      // the step's argument ToInt32(32h) − h + u is congruent to 31h + u
      var a := ToInt32(h * 32) - h + u;
      CongSym(h * 32, ToInt32(h * 32));
      CongShift(ToInt32(h * 32), h * 32, u - h);
      assert Cong(a, 31 * h + u);
      CongAffine(p, h, u);
      CongSym(31 * p + u, 31 * h + u);
      CongTrans(a, 31 * h + u, 31 * p + u);
      ToInt32Congruent(a, 31 * p + u);
    }
  }

  // ---------------------------------------------------------------------------
  // Base 36 (`Number.prototype.toString(36)` on a non-negative integer)

  predicate IsBase36Digit(c: char) {
    ('0' <= c <= '9') || ('a' <= c <= 'z')
  }

  /** The digit for a value below 36: `0`–`9`, then `a`–`z`. */
  function Base36Digit(d: nat): (c: char)
    requires d < 36
    ensures IsBase36Digit(c)
  {
    if d < 10 then (('0' as int) + d) as char else (('a' as int) + d - 10) as char
  }

  function Base36Value(c: char): (d: nat)
    requires IsBase36Digit(c)
    ensures d < 36 && Base36Digit(d) == c
  {
    if '0' <= c <= '9' then (c as int) - ('0' as int) else (c as int) - ('a' as int) + 10
  }

  /** The shortest base-36 numeral of `n`, lower-case. */
  function Base36(n: nat): (s: string)
    ensures |s| >= 1
    ensures forall k :: 0 <= k < |s| ==> IsBase36Digit(s[k])
    ensures |s| > 1 ==> s[0] != '0'
  {
    if n < 36 then [Base36Digit(n)] else Base36(n / 36) + [Base36Digit(n % 36)]
  }

  function ParseBase36(s: string): nat
    requires forall k :: 0 <= k < |s| ==> IsBase36Digit(s[k])
  {
    if |s| == 0 then 0 else 36 * ParseBase36(s[..|s| - 1]) + Base36Value(s[|s| - 1])
  }

  lemma {:induction false} Base36RoundTrip(n: nat)
    ensures ParseBase36(Base36(n)) == n
  {
    if n >= 36 {
      var s := Base36(n);
      assert s[..|s| - 1] == Base36(n / 36);
      Base36RoundTrip(n / 36);
    }
  }

  /** A numeral with no leading zero is the one `Base36` produces for its value. */
  lemma {:induction false} ParseBase36RoundTrip(s: string)
    requires |s| >= 1 && forall k :: 0 <= k < |s| ==> IsBase36Digit(s[k])
    requires |s| > 1 ==> s[0] != '0'
    ensures Base36(ParseBase36(s)) == s
  {
    var init := s[..|s| - 1];
    var d := Base36Value(s[|s| - 1]);
    if |s| > 1 {
      ParseBase36RoundTrip(init);
      assert init[0] == s[0];
      LeadingDigitPositive(init);
      var n := ParseBase36(s);
      assert n / 36 == ParseBase36(init) && n % 36 == d;
      assert s == init + [s[|s| - 1]];
    }
  }

  lemma LeadingDigitPositive(s: string)
    requires |s| >= 1 && forall k :: 0 <= k < |s| ==> IsBase36Digit(s[k])
    requires s[0] != '0'
    ensures ParseBase36(s) >= 1
  {
    if |s| > 1 {
      LeadingDigitPositive(s[..|s| - 1]);
    }
  }

  function Pow36(k: nat): (p: nat)
    ensures p >= 1
  {
    if k == 0 then 1 else 36 * Pow36(k - 1)
  }

  /** A value below 36ᵏ takes at most `k` digits. */
  lemma {:induction false} Base36LengthBound(n: nat, k: nat)
    requires k >= 1 && n < Pow36(k)
    ensures |Base36(n)| <= k
  {
    if n >= 36 {
      assert Pow36(1) == 36;
      assert k >= 2;
      QuotientBelow(n, Pow36(k - 1));
      Base36LengthBound(n / 36, k - 1);
    }
  }

  lemma QuotientBelow(n: nat, p: nat)
    requires n < 36 * p
    ensures n / 36 < p
  {
  }

  /** Every value up to 2³¹ fits in six base-36 digits: 36⁶ = 2 176 782 336. */
  lemma Base36AtMostSix(n: nat)
    requires n <= TwoTo31
    ensures |Base36(n)| <= 6
  {
    assert Pow36(6) == 2176782336 by {
      assert Pow36(2) == 1296;
      assert Pow36(4) == 1296 * 1296;
    }
    Base36LengthBound(n, 6);
  }

  // ---------------------------------------------------------------------------
  // Nickname hash and avatar

  function Abs(x: int): nat {
    if x < 0 then -x else x
  }

  /** `getNicknameHash(nickname)`: the base-36 numeral of |hash|. */
  method GetNicknameHash(nickname: string) returns (seed: string)
    ensures seed == Base36(Abs(ToInt32(Poly(JsText.CodeUnits(nickname)))))
    ensures 1 <= |seed| <= 6
    ensures forall k :: 0 <= k < |seed| ==> IsBase36Digit(seed[k])
  {
    var units := JsText.CodeUnits(nickname);
    var hash := 0;
    var i := 0;
    while i < |units|
      invariant 0 <= i <= |units|
      invariant hash == HashOf(units[..i])
    {
      assert units[..i + 1][..i] == units[..i];
      hash := Step(hash, units[i]);
      i := i + 1;
    }
    assert units[..|units|] == units;
    HashIsWrappedPoly(units);
    Base36AtMostSix(Abs(hash));
    seed := Base36(Abs(hash));
  }

  const AvatarPrefix: string := "https://api.dicebear.com/7.x/adventurer/svg?seed="

  /** `getAvatarUrl(nickname)`. */
  method GetAvatarUrl(nickname: string) returns (url: string)
    ensures url == AvatarPrefix + Base36(Abs(ToInt32(Poly(JsText.CodeUnits(nickname)))))
    ensures |AvatarPrefix| + 1 <= |url| <= |AvatarPrefix| + 6
  {
    var seed := GetNicknameHash(nickname);
    url := AvatarPrefix + seed;
  }

  /** The empty nickname hashes to 0 and gets the seed "0". */
  lemma EmptyNicknameSeed(nickname: string)
    requires nickname == []
    ensures Base36(Abs(ToInt32(Poly(JsText.CodeUnits(nickname))))) == ['0']
  {
    assert JsText.CodeUnits(nickname) == [];
    assert ToInt32(0) == 0;
  }

  /** Two texts that differ only in their last code unit hash differently:
      the last step cannot wrap two units below 2¹⁶ onto each other. */
  lemma LastUnitMatters(units: seq<int>, a: int, b: int)
    requires 0 <= a < 0x10000 && 0 <= b < 0x10000
    ensures HashOf(units + [a]) == HashOf(units + [b]) ==> a == b
  {
    var h := HashOf(units);
    assert (units + [a])[..|units|] == units;
    assert (units + [b])[..|units|] == units;
    var s := ToInt32(h * 32) - h;
    if HashOf(units + [a]) == HashOf(units + [b]) {
      assert ToInt32(s + a) == ToInt32(s + b);
      ToInt32InjectiveNear(s + a, s + b);
    }
  }

  // ---------------------------------------------------------------------------
  // Random nicknames

  const Adjectives: seq<string> := [
    "반짝이는", "쾌활한", "사랑스러운", "용감한", "똑똑한",
    "귀여운", "재미있는", "활발한", "다정한", "친절한",
    "명랑한", "즐거운", "상냥한", "씩씩한", "발랄한",
    "포근한", "따뜻한", "부드러운", "상쾌한", "깜찍한",
    "멋진", "화려한", "우아한", "단아한", "고운",
    "청순한", "순수한", "천진난만한", "정겨운", "다정다감한",
    "행복한", "신나는", "기쁜", "환한", "밝은",
    "영리한", "총명한", "재치있는", "슬기로운", "현명한"]

  const Animals: seq<string> := [
    "호랑이", "펭귄", "토끼", "여우", "사슴",
    "고양이", "강아지", "햄스터", "다람쥐", "판다",
    "코알라", "수달", "미어캣", "알파카", "라마",
    "돌고래", "물개", "펭수", "병아리", "오리",
    "거북이", "앵무새", "카나리아", "독수리", "부엉이",
    "코끼리", "기린", "얼룩말", "캥거루", "쿼카",
    "고슴도치", "비버", "친칠라", "페럿", "레서판다",
    "사자", "치타", "표범", "늑대", "곰"]

  /** `generateRandomNickname()` with the two random draws
      `Math.floor(Math.random() * 40)` passed in as `i` and `j`. */
  function GenerateRandomNickname(i: int, j: int): (r: string)
    requires 0 <= i < |Adjectives| && 0 <= j < |Animals|
    ensures Split(r, ' ') == [Adjectives[i], Animals[j]]
  {
    NoSpaces(i, j);
    SplitFirst(Adjectives[i], Animals[j], ' ');
    SplitWithoutSeparator(Animals[j], ' ');
    Adjectives[i] + " " + Animals[j]
  }

  lemma NoSpaces(i: int, j: int)
    requires 0 <= i < |Adjectives| && 0 <= j < |Animals|
    ensures ' ' !in Adjectives[i] && ' ' !in Animals[j]
  {
    AdjectivesHaveNoSpace(i);
    AnimalsHaveNoSpace(j);
  }

  lemma AdjectivesHaveNoSpace(i: int)
    requires 0 <= i < |Adjectives|
    ensures ' ' !in Adjectives[i]
  {
  }

  lemma AnimalsHaveNoSpace(j: int)
    requires 0 <= j < |Animals|
    ensures ' ' !in Animals[j]
  {
  }

  /** The nickname determines the adjective and the animal that were drawn. */
  lemma NicknameInjective(i: int, j: int, i': int, j': int)
    requires 0 <= i < |Adjectives| && 0 <= j < |Animals|
    requires 0 <= i' < |Adjectives| && 0 <= j' < |Animals|
    requires GenerateRandomNickname(i, j) == GenerateRandomNickname(i', j')
    ensures Adjectives[i] == Adjectives[i'] && Animals[j] == Animals[j']
  {
  }
}

=== FILE: ordering.dfy ===
/**
 Orderings the gallery relies on: the stable descending sort by an integer key
 (`Array.prototype.sort` with a `b.key - a.key` comparator, and the database's
 `orderBy: … 'desc'`), and the ascending code-point (character) order on strings with
 de-duplication (`distinct` + `orderBy: … 'asc'`).
 */
module Ordering {

  // ---------------------------------------------------------------------------
  // Stable descending sort by an integer key

  predicate SortedDesc<T>(xs: seq<T>, key: T -> int) {
    forall i, j :: 0 <= i < j < |xs| ==> key(xs[i]) >= key(xs[j])
  }

  /** Inserts `x` before the first element whose key is not larger than its own. */
  function Insert<T>(x: T, ys: seq<T>, key: T -> int): (r: seq<T>)
    requires SortedDesc(ys, key)
    ensures |r| == |ys| + 1
    ensures multiset(r) == multiset(ys) + multiset{x}
    ensures r[0] == x || (|ys| > 0 && r[0] == ys[0])
    ensures SortedDesc(r, key)
  {
    if |ys| == 0 || key(x) >= key(ys[0]) then [x] + ys
    else
      var rest := Insert(x, ys[1..], key);
      assert ys == [ys[0]] + ys[1..];
      // rest is sorted and starts with x or ys[1], both no larger than ys[0]
      assert key(rest[0]) <= key(ys[0]);
      [ys[0]] + rest
  }

  /** Insertion sort, descending by `key`; elements with equal keys keep their
      input order. */
  function SortDesc<T>(xs: seq<T>, key: T -> int): (r: seq<T>)
    ensures |r| == |xs|
    ensures multiset(r) == multiset(xs)
    ensures SortedDesc(r, key)
  {
    if |xs| == 0 then []
    else
      assert xs == [xs[0]] + xs[1..];
      Insert(xs[0], SortDesc(xs[1..], key), key)
  }

  /** The elements of `xs` whose key equals `v`, in order. */
  function WithKey<T>(xs: seq<T>, key: T -> int, v: int): seq<T> {
    if |xs| == 0 then []
    else (if key(xs[0]) == v then [xs[0]] else []) + WithKey(xs[1..], key, v)
  }

  lemma WithKeyCons<T>(a: T, s: seq<T>, key: T -> int, v: int)
    ensures WithKey([a] + s, key, v) == (if key(a) == v then [a] else []) + WithKey(s, key, v)
  {
    assert ([a] + s)[1..] == s;
  }

  lemma {:induction false} WithKeyOfSorted<T>(x: T, ys: seq<T>, key: T -> int, v: int)
    requires SortedDesc(ys, key)
    ensures WithKey(Insert(x, ys, key), key, v) ==
      (if key(x) == v then [x] else []) + WithKey(ys, key, v)
    decreases |ys|
  {
    if |ys| == 0 || key(x) >= key(ys[0]) {
      WithKeyCons(x, ys, key, v);
    } else {
      WithKeyOfSorted(x, ys[1..], key, v);
      assert Insert(x, ys, key) == [ys[0]] + Insert(x, ys[1..], key);
      assert ys == [ys[0]] + ys[1..];
      WithKeyBehindHead(ys[0], x, Insert(x, ys[1..], key), ys[1..], key, v);
    }
  }

  /** Putting `y` in front of two lists that agree on `v` up to `x` keeps them
      agreeing, when `y`'s key is larger than `x`'s. */
  lemma WithKeyBehindHead<T>(y: T, x: T, rest: seq<T>, tail: seq<T>, key: T -> int, v: int)
    requires key(x) < key(y)
    requires WithKey(rest, key, v) == (if key(x) == v then [x] else []) + WithKey(tail, key, v)
    ensures WithKey([y] + rest, key, v) == (if key(x) == v then [x] else []) + WithKey([y] + tail, key, v)
  {
    var head := if key(y) == v then [y] else [];
    var mine := if key(x) == v then [x] else [];
    var below := WithKey(tail, key, v);
    WithKeyCons(y, rest, key, v);
    WithKeyCons(y, tail, key, v);
    // y's key is larger than x's, so at most one of them carries v
    if key(x) == v {
      assert head == [];
      assert head + (mine + below) == mine + below;
    } else {
      assert mine == [];
      assert mine + (head + below) == head + below;
    }
  }

  /** Stability: for every key value, the elements carrying it appear in the
      sorted output in the same order as in the input. */
  lemma {:induction false} SortDescStable<T>(xs: seq<T>, key: T -> int, v: int)
    ensures WithKey(SortDesc(xs, key), key, v) == WithKey(xs, key, v)
  {
    if |xs| > 0 {
      SortDescStable(xs[1..], key, v);
      WithKeyOfSorted(xs[0], SortDesc(xs[1..], key), key, v);
    }
  }

  // ---------------------------------------------------------------------------
  // Strings in ascending code-point (character) order

  /** Lexicographic strict order on strings, comparing characters by code. */
  predicate StrLess(a: string, b: string) {
    if |a| == 0 then |b| > 0
    else if |b| == 0 then false
    else if a[0] != b[0] then a[0] < b[0]
    else StrLess(a[1..], b[1..])
  }

  lemma {:induction false} StrLessIrreflexive(a: string)
    ensures !StrLess(a, a)
  {
    if |a| > 0 {
      StrLessIrreflexive(a[1..]);
    }
  }

  lemma {:induction false} StrLessTrichotomy(a: string, b: string)
    ensures StrLess(a, b) || a == b || StrLess(b, a)
  {
    if |a| > 0 && |b| > 0 && a[0] == b[0] {
      StrLessTrichotomy(a[1..], b[1..]);
      if a[1..] == b[1..] {
        assert a == [a[0]] + a[1..] && b == [b[0]] + b[1..];
      }
    }
  }

  lemma {:induction false} StrLessTransitive(a: string, b: string, c: string)
    requires StrLess(a, b) && StrLess(b, c)
    ensures StrLess(a, c)
  {
    if |a| > 0 && |b| > 0 && |c| > 0 && a[0] == b[0] && b[0] == c[0] {
      StrLessTransitive(a[1..], b[1..], c[1..]);
    }
  }

  lemma StrLessAsymmetric(a: string, b: string)
    requires StrLess(a, b)
    ensures !StrLess(b, a)
  {
    if StrLess(b, a) {
      StrLessTransitive(a, b, a);
      StrLessIrreflexive(a);
    }
  }

  predicate StrictlyAscending(xs: seq<string>) {
    forall i, j :: 0 <= i < j < |xs| ==> StrLess(xs[i], xs[j])
  }

  /** Adds `x` to an ascending list of distinct strings, keeping it ascending
      and distinct. */
  function InsertDistinct(x: string, ys: seq<string>): (r: seq<string>)
    requires StrictlyAscending(ys)
    ensures StrictlyAscending(r)
    ensures forall s :: s in r <==> s == x || s in ys
  {
    if |ys| == 0 then [x]
    else if x == ys[0] then ys
    else if StrLess(x, ys[0]) then
      assert forall k :: 0 <= k < |ys| ==> StrLess(x, ys[k]) by {
        forall k | 0 <= k < |ys| ensures StrLess(x, ys[k]) {
          if k > 0 { StrLessTransitive(x, ys[0], ys[k]); }
        }
      }
      [x] + ys
    else
      StrLessTrichotomy(x, ys[0]);
      var rest := InsertDistinct(x, ys[1..]);
      assert forall s :: s in ys[1..] ==> StrLess(ys[0], s);
      assert forall k :: 0 <= k < |rest| ==> StrLess(ys[0], rest[k]) by {
        forall k | 0 <= k < |rest| ensures StrLess(ys[0], rest[k]) {
          assert rest[k] in rest;
        }
      }
      [ys[0]] + rest
  }

  /** The distinct strings of `xs` in ascending order. */
  function DistinctAscending(xs: seq<string>): (r: seq<string>)
    ensures StrictlyAscending(r)
    ensures forall s :: s in r <==> s in xs
  {
    if |xs| == 0 then [] else InsertDistinct(xs[0], DistinctAscending(xs[1..]))
  }
}

=== FILE: photos_service.dfy ===
/**
 The photo service (`PhotosService`) as state transitions over an abstract
 photo table, a map from id to record. Every operation that names an id first
 reads the record and raises not-found when it is missing, changing nothing;
 otherwise it performs one atomic update.
 */
module PhotosService {
  import opened Common
  import opened JsText
  import opened Ordering
  import Exif

  const PhotoNotFound: string := "사진을 찾을 수 없습니다."

  datatype Photo = Photo(
    id: string,
    departmentName: string,
    title: string,
    description: string,
    imageUrl: string,
    likeCount: int,
    viewCount: int,
    isTopPick: bool,
    uploadDate: int)   // milliseconds since the epoch

  type Store = map<string, Photo>

  /** Each record is stored under its own id. */
  predicate WellFormed(store: Store) {
    forall id :: id in store ==> store[id].id == id
  }

  /** The new table and the reply of a successful call. */
  datatype Outcome<T> = Outcome(store: Store, reply: T)

  /** Every id other than `id` keeps its record. */
  predicate OthersUnchanged(before: Store, after: Store, id: string) {
    after.Keys == before.Keys &&
    forall other :: other in before && other != id ==> after[other] == before[other]
  }

  // ---------------------------------------------------------------------------
  // toggleLike

  datatype LikeReply = LikeReply(likeCount: int, isLiked: bool)

  /**
   `toggleLike(id, isLiked)`: increments or decrements the like counter by one.
   There is no per-client record and no floor at zero: the counter moves on
   every call.
   */
  function ToggleLike(store: Store, id: string, isLiked: bool): (r: Result<Outcome<LikeReply>, HttpError>)
    ensures r.Err? <==> id !in store
    ensures r.Err? ==> r.error == NotFound(PhotoNotFound)
    ensures r.Ok? ==> OthersUnchanged(store, r.value.store, id)
    ensures r.Ok? ==> r.value.store[id].likeCount == store[id].likeCount + (if isLiked then 1 else -1)
    ensures r.Ok? ==> r.value.store[id].(likeCount := store[id].likeCount) == store[id]
    ensures r.Ok? ==> r.value.reply == LikeReply(r.value.store[id].likeCount, isLiked)
  {
    if id !in store then Err(NotFound(PhotoNotFound))
    else
      var photo := store[id];
      var updated := photo.(likeCount := photo.likeCount + (if isLiked then 1 else -1));
      Ok(Outcome(store[id := updated], LikeReply(updated.likeCount, isLiked)))
  }

  /** A like followed by an unlike restores the table. */
  lemma LikeThenUnlikeRestores(store: Store, id: string)
    requires id in store
    ensures var first := ToggleLike(store, id, true).value.store;
      ToggleLike(first, id, false).value.store == store
  {
    var first := ToggleLike(store, id, true).value.store;
    var second := ToggleLike(first, id, false).value.store;
    assert second[id] == store[id];
  }

  /** Unliking a photo with no likes drives its counter negative. */
  lemma UnlikeHasNoFloor(store: Store, id: string)
    requires id in store && store[id].likeCount == 0
    ensures ToggleLike(store, id, false).value.reply.likeCount == -1
  {
  }

  /** `k` likes from the same client all count: nothing deduplicates them. */
  function LikeRepeatedly(store: Store, id: string, k: nat): (s: Store)
    requires id in store
    ensures id in s && s.Keys == store.Keys
  {
    if k == 0 then store else LikeRepeatedly(ToggleLike(store, id, true).value.store, id, k - 1)
  }

  lemma {:induction false} RepeatedLikesAccumulate(store: Store, id: string, k: nat)
    requires id in store
    ensures LikeRepeatedly(store, id, k)[id].likeCount == store[id].likeCount + k
  {
    if k > 0 {
      RepeatedLikesAccumulate(ToggleLike(store, id, true).value.store, id, k - 1);
    }
  }

  // ---------------------------------------------------------------------------
  // toggleTopPick

  datatype TopPickReply = TopPickReply(message: string, isTopPick: bool)

  function TopPickMessage(on: bool): string {
    "관리자 추천이 " + (if on then "활성화" else "비활성화") + "되었습니다."
  }

  /** `toggleTopPick(id)`: negates the editor's-pick flag. */
  function ToggleTopPick(store: Store, id: string): (r: Result<Outcome<TopPickReply>, HttpError>)
    ensures r.Err? <==> id !in store
    ensures r.Err? ==> r.error == NotFound(PhotoNotFound)
    ensures r.Ok? ==> OthersUnchanged(store, r.value.store, id)
    ensures r.Ok? ==> r.value.store[id].isTopPick != store[id].isTopPick
    ensures r.Ok? ==> r.value.store[id].(isTopPick := store[id].isTopPick) == store[id]
    ensures r.Ok? ==> r.value.reply.isTopPick == r.value.store[id].isTopPick
  {
    if id !in store then Err(NotFound(PhotoNotFound))
    else
      var photo := store[id];
      var updated := photo.(isTopPick := !photo.isTopPick);
      Ok(Outcome(store[id := updated], TopPickReply(TopPickMessage(updated.isTopPick), updated.isTopPick)))
  }

  /** Toggling twice restores the table. */
  lemma ToggleTopPickTwice(store: Store, id: string)
    requires id in store
    ensures ToggleTopPick(ToggleTopPick(store, id).value.store, id).value.store == store
  {
    var once := ToggleTopPick(store, id).value.store;
    assert ToggleTopPick(once, id).value.store[id] == store[id];
  }

  // ---------------------------------------------------------------------------
  // findOne, update, remove

  /**
   `findOne(id)`: reads the record, then increments its view counter. The
   reply is the record as read, so it shows the count before this view.
   */
  function FindOne(store: Store, id: string): (r: Result<Outcome<Photo>, HttpError>)
    ensures r.Err? <==> id !in store
    ensures r.Err? ==> r.error == NotFound(PhotoNotFound)
    ensures r.Ok? ==> OthersUnchanged(store, r.value.store, id)
    ensures r.Ok? ==> r.value.reply == store[id]
    ensures r.Ok? ==> r.value.store[id] == store[id].(viewCount := store[id].viewCount + 1)
  {
    if id !in store then Err(NotFound(PhotoNotFound))
    else
      var photo := store[id];
      Ok(Outcome(store[id := photo.(viewCount := photo.viewCount + 1)], photo))
  }

  /** Each view is counted, and the reply always lags the stored count by one. */
  lemma ViewReplyLags(store: Store, id: string)
    requires id in store
    ensures var first := FindOne(store, id).value;
      var second := FindOne(first.store, id).value;
      second.reply.viewCount == first.reply.viewCount + 1 &&
      second.store[id].viewCount == second.reply.viewCount + 1
  {
  }

  /** The fields `update` accepts, each optional. */
  datatype PhotoPatch = PhotoPatch(
    departmentName: Option<string>,
    title: Option<string>,
    description: Option<string>,
    uploadDate: Option<int>)

  /** The record after a patch: every supplied field is written, every other
      field keeps its value. */
  function Apply(photo: Photo, patch: PhotoPatch): (p: Photo)
    ensures p.departmentName == if patch.departmentName.Some? then patch.departmentName.value else photo.departmentName
    ensures p.title == if patch.title.Some? then patch.title.value else photo.title
    ensures p.description == if patch.description.Some? then patch.description.value else photo.description
    ensures p.uploadDate == if patch.uploadDate.Some? then patch.uploadDate.value else photo.uploadDate
    ensures p.id == photo.id && p.imageUrl == photo.imageUrl
    ensures p.likeCount == photo.likeCount && p.viewCount == photo.viewCount
    ensures p.isTopPick == photo.isTopPick
  {
    photo.(
      departmentName := patch.departmentName.GetOr(photo.departmentName),
      title := patch.title.GetOr(photo.title),
      description := patch.description.GetOr(photo.description),
      uploadDate := patch.uploadDate.GetOr(photo.uploadDate))
  }

  /** `update(id, dto)`: writes the supplied fields and returns the new record. */
  function Update(store: Store, id: string, patch: PhotoPatch): (r: Result<Outcome<Photo>, HttpError>)
    ensures r.Err? <==> id !in store
    ensures r.Err? ==> r.error == NotFound(PhotoNotFound)
    ensures r.Ok? ==> OthersUnchanged(store, r.value.store, id)
    ensures r.Ok? ==> r.value.reply == r.value.store[id]
    ensures r.Ok? ==> r.value.store[id] == Apply(store[id], patch)
  {
    if id !in store then Err(NotFound(PhotoNotFound))
    else
      var updated := Apply(store[id], patch);
      Ok(Outcome(store[id := updated], updated))
  }

  /** Counters and the flag survive any update, and a repeated update changes
      nothing further. */
  lemma UpdateIdempotent(store: Store, id: string, patch: PhotoPatch)
    requires id in store
    ensures var once := Update(store, id, patch).value.store;
      Update(once, id, patch).value.store == once
  {
    var once := Update(store, id, patch).value.store;
    assert Apply(once[id], patch) == once[id];
  }

  /** An empty patch leaves the record as it was. */
  lemma EmptyPatchNoChange(store: Store, id: string)
    requires id in store
    ensures Update(store, id, PhotoPatch(None, None, None, None)).value.store == store
  {
    assert Apply(store[id], PhotoPatch(None, None, None, None)) == store[id];
  }

  datatype Deleted = Deleted(message: string)

  /** `remove(id)`: deletes the record. */
  function Remove(store: Store, id: string): (r: Result<Outcome<Deleted>, HttpError>)
    ensures r.Err? <==> id !in store
    ensures r.Err? ==> r.error == NotFound(PhotoNotFound)
    ensures r.Ok? ==> r.value.store.Keys == store.Keys - {id}
    ensures r.Ok? ==> forall other :: other in r.value.store ==> r.value.store[other] == store[other]
  {
    if id !in store then Err(NotFound(PhotoNotFound))
    else Ok(Outcome(map other | other in store && other != id :: store[other], Deleted("사진이 삭제되었습니다.")))
  }

  /** After a removal, every id-based operation on the removed id is not-found. */
  lemma RemovedIsGone(store: Store, id: string, patch: PhotoPatch, isLiked: bool)
    requires id in store
    ensures var after := Remove(store, id).value.store;
      FindOne(after, id).Err? && Update(after, id, patch).Err? && Remove(after, id).Err? &&
      ToggleLike(after, id, isLiked).Err? && ToggleTopPick(after, id).Err?
  {
  }

  /** Every id-based operation preserves well-formedness. */
  lemma OperationsPreserveWellFormed(store: Store, id: string, patch: PhotoPatch, isLiked: bool)
    requires WellFormed(store) && id in store
    ensures WellFormed(ToggleLike(store, id, isLiked).value.store)
    ensures WellFormed(ToggleTopPick(store, id).value.store)
    ensures WellFormed(FindOne(store, id).value.store)
    ensures WellFormed(Update(store, id, patch).value.store)
    ensures WellFormed(Remove(store, id).value.store)
  {
  }

  // ---------------------------------------------------------------------------
  // findAll and getDepartments

  /** `Math.ceil(total / limit)` for a positive limit. */
  function CeilDiv(total: nat, limit: nat): (q: nat)
    requires limit >= 1
    ensures q * limit >= total
    ensures q == 0 || (q - 1) * limit < total
  {
    (total + limit - 1) / limit
  }

  /** `where: departmentName ? { departmentName } : {}`: an empty name filters nothing. */
  predicate InDepartment(departmentName: Option<string>, p: Photo) {
    departmentName.None? || departmentName.value == [] || p.departmentName == departmentName.value
  }

  function Matching(rows: seq<Photo>, departmentName: Option<string>): (m: seq<Photo>)
    ensures |m| <= |rows|
    ensures forall k :: 0 <= k < |m| ==> InDepartment(departmentName, m[k])
    ensures forall p :: p in m <==> p in rows && InDepartment(departmentName, p)
  {
    if |rows| == 0 then []
    else (if InDepartment(departmentName, rows[0]) then [rows[0]] else []) + Matching(rows[1..], departmentName)
  }

  function UploadDateKey(p: Photo): int {
    p.uploadDate
  }

  /** The matching rows, newest upload first. Rows with equal dates keep the
      table's order (the database leaves their order unspecified). */
  function Newest(rows: seq<Photo>, departmentName: Option<string>): seq<Photo> {
    SortDesc(Matching(rows, departmentName), UploadDateKey)
  }

  datatype PageMeta = PageMeta(total: nat, page: int, limit: int, totalPages: nat)

  datatype PhotoPage = PhotoPage(data: seq<Photo>, meta: PageMeta)

  /** `skip` then `take`: the elements of `xs` from position `skip` on, at
      most `limit` of them. */
  function Window<T>(xs: seq<T>, skip: nat, limit: nat): (w: seq<T>)
    ensures |w| == (if skip >= |xs| then 0 else if limit < |xs| - skip then limit else |xs| - skip)
    ensures forall k :: 0 <= k < |w| ==> w[k] == xs[skip + k]
  {
    if skip >= |xs| then []
    else if limit < |xs| - skip then xs[skip..skip + limit]
    else xs[skip..]
  }

  /** `(page - 1) * limit`, the number of rows a page skips. */
  function Offset(page: int, limit: int): nat
    requires page >= 1 && limit >= 1
  {
    (page - 1) * limit
  }

  /**
   `findAll(page, limit, departmentName)`: skips `(page - 1) * limit` matching
   rows in upload-date order and takes the next `limit`.
   */
  function FindAll(rows: seq<Photo>, page: int, limit: int, departmentName: Option<string>): (r: PhotoPage)
    requires page >= 1 && limit >= 1
    ensures |r.data| <= limit
    ensures |r.data| == (if Offset(page, limit) >= r.meta.total then 0
                         else if limit < r.meta.total - Offset(page, limit) then limit
                         else r.meta.total - Offset(page, limit))
    ensures r.meta.total == |Matching(rows, departmentName)|
    ensures r.meta.page == page && r.meta.limit == limit
    ensures r.meta.totalPages == CeilDiv(r.meta.total, limit)
    ensures forall k :: 0 <= k < |r.data| ==> r.data[k] in rows && InDepartment(departmentName, r.data[k])
    ensures SortedDesc(r.data, UploadDateKey)
  {
    var all := Newest(rows, departmentName);
    NewestMembers(rows, departmentName);
    var data := Window(all, Offset(page, limit), limit);
    PhotoPage(data, PageMeta(|all|, page, limit, CeilDiv(|all|, limit)))
  }

  /** The defaults `page = 1` and `limit = 20` that `findAll` applies when the
      route passes no value for a missing query parameter. */
  const DefaultPage: int := 1
  const DefaultLimit: int := 20

  /** `findAll` called with possibly absent arguments: an absent page or
      limit takes its default, and the rest is `FindAll`. */
  function FindAllWithDefaults(rows: seq<Photo>, page: Option<int>, limit: Option<int>, departmentName: Option<string>): (r: PhotoPage)
    requires page.None? || page.value >= 1
    requires limit.None? || limit.value >= 1
    ensures r.meta.page == (if page.Some? then page.value else 1)
    ensures r.meta.limit == (if limit.Some? then limit.value else 20)
    ensures limit.None? ==> |r.data| <= 20
    ensures r.meta.total == |Matching(rows, departmentName)|
  {
    FindAll(rows, if page.Some? then page.value else DefaultPage,
      if limit.Some? then limit.value else DefaultLimit, departmentName)
  }

  /** A bare request is the first page of twenty, and a supplied value is
      used as given. */
  lemma BareRequestIsFirstPageOfTwenty(rows: seq<Photo>, departmentName: Option<string>)
    ensures FindAllWithDefaults(rows, None, None, departmentName) == FindAll(rows, 1, 20, departmentName)
    ensures FindAllWithDefaults(rows, Some(1), Some(20), departmentName) == FindAllWithDefaults(rows, None, None, departmentName)
    ensures |FindAllWithDefaults(rows, None, None, departmentName).data| == if |Matching(rows, departmentName)| < 20 then |Matching(rows, departmentName)| else 20
  {
  }

  /** The ordered matches are exactly the matching rows. */
  lemma NewestMembers(rows: seq<Photo>, departmentName: Option<string>)
    ensures |Newest(rows, departmentName)| == |Matching(rows, departmentName)|
    ensures forall k :: 0 <= k < |Newest(rows, departmentName)| ==>
      Newest(rows, departmentName)[k] in rows && InDepartment(departmentName, Newest(rows, departmentName)[k])
  {
    var m := Matching(rows, departmentName);
    var all := Newest(rows, departmentName);
    forall k | 0 <= k < |all| ensures all[k] in rows && InDepartment(departmentName, all[k]) {
      assert all[k] in multiset(all);
      assert all[k] in m;
    }
  }

  /** Pagination covers the ordered matches exactly once: the match at
      position `i` is item `i % limit` of page `i / limit + 1`. */
  lemma PageCoversPosition(rows: seq<Photo>, limit: int, departmentName: Option<string>, i: nat)
    requires limit >= 1 && i < |Newest(rows, departmentName)|
    ensures var r := FindAll(rows, i / limit + 1, limit, departmentName);
      i % limit < |r.data| && r.data[i % limit] == Newest(rows, departmentName)[i]
  {
    PagePosition(i, limit);
  }

  /** Position `i` is `i % limit` rows into page `i / limit + 1`. */
  lemma PagePosition(i: nat, limit: int)
    requires limit >= 1
    ensures Offset(i / limit + 1, limit) + i % limit == i
    ensures i % limit < limit
  {
    var q, rem := i / limit, i % limit;
    assert i == q * limit + rem;
    assert Offset(q + 1, limit) == q * limit;
  }

  lemma MulMonotone(a: nat, b: nat, c: nat)
    requires a <= b
    ensures a * c <= b * c
  {
    assert b * c == a * c + (b - a) * c;
  }

  /** A page starts inside the matches exactly when its number is at most
      the page count. */
  lemma OffsetWithinTotal(page: int, limit: int, total: nat)
    requires page >= 1 && limit >= 1
    ensures Offset(page, limit) < total <==> page <= CeilDiv(total, limit)
  {
    var q := CeilDiv(total, limit);
    if page <= q {
      MulMonotone(page - 1, q - 1, limit);
    } else {
      MulMonotone(q, page - 1, limit);
    }
  }

  /** A page is non-empty exactly when its number is at most `totalPages`. */
  lemma PageNonEmptyIff(rows: seq<Photo>, page: int, limit: int, departmentName: Option<string>)
    requires page >= 1 && limit >= 1
    ensures var r := FindAll(rows, page, limit, departmentName);
      |r.data| > 0 <==> page <= r.meta.totalPages
  {
    OffsetWithinTotal(page, limit, |Newest(rows, departmentName)|);
  }

  /** `getDepartments`: the distinct department names in ascending order. */
  function GetDepartments(rows: seq<Photo>): (names: seq<string>)
    ensures StrictlyAscending(names)
    ensures forall d :: d in names <==> exists k :: 0 <= k < |rows| && rows[k].departmentName == d
  {
    var all := seq(|rows|, k requires 0 <= k < |rows| => rows[k].departmentName);
    assert forall d :: d in all <==> exists k :: 0 <= k < |rows| && rows[k].departmentName == d by {
      forall d ensures d in all <==> exists k :: 0 <= k < |rows| && rows[k].departmentName == d {
        if d in all {
          var k :| 0 <= k < |all| && all[k] == d;
          assert rows[k].departmentName == d;
        }
        if exists k :: 0 <= k < |rows| && rows[k].departmentName == d {
          var k :| 0 <= k < |rows| && rows[k].departmentName == d;
          assert all[k] == d;
        }
      }
    }
    DistinctAscending(all)
  }

  // ---------------------------------------------------------------------------
  // create: the upload date

  /** The extractor produced a record whose `dateTaken` holds a `Date`. */
  predicate HasExifDate(exif: Option<Exif.ExifData>) {
    exif.Some? && exif.value.dateTaken.Some? && exif.value.dateTaken.value.Some?
  }

  /** Where the stored upload date comes from. Constructing the `Date` values
      is left to the caller. */
  datatype DateSource = FromExif(parts: Exif.DateParts) | FromDto(text: string) | Now

  /**
   `exifData?.dateTaken || (dto.uploadDate ? new Date(dto.uploadDate) : new Date())`.
   An EXIF date counts when `parseExifDate` returned a `Date` (even one built
   from `NaN` fields, which is still an object and hence truthy); otherwise a
   non-empty supplied string is used; otherwise the current time.
   */
  function ChooseUploadDate(exif: Option<Exif.ExifData>, uploadDate: Option<string>): (d: DateSource)
    ensures d.FromExif? <==> HasExifDate(exif)
    ensures d.FromExif? ==> d.parts == exif.value.dateTaken.value.value
    ensures d.FromDto? <==> !HasExifDate(exif) && uploadDate.Some? && uploadDate.value != []
    ensures d.FromDto? ==> d.text == uploadDate.value
  {
    if HasExifDate(exif) then
      FromExif(exif.value.dateTaken.value.value)
    else if uploadDate.Some? && uploadDate.value != [] then FromDto(uploadDate.value)
    else Now
  }

  /** With neither an EXIF date nor a supplied date, the upload time is now. */
  lemma NoDateMeansNow(exif: Option<Exif.ExifData>)
    requires !HasExifDate(exif)
    ensures ChooseUploadDate(exif, None) == Now && ChooseUploadDate(exif, Some("")) == Now
  {
  }

  /** A camera timestamp overrides whatever date the client supplied. */
  lemma ExifDateWins(year: nat, month: nat, day: nat, hour: nat, minute: nat, second: nat, uploadDate: Option<string>)
    requires Exif.ValidStamp(year, month, day, hour, minute, second)
    ensures var stamp := Exif.FormatExifDate(year, month, day, hour, minute, second);
      var exif := Exif.ExtractExifData(Some(map["DateTimeOriginal" := Exif.Tag(Some(stamp), None)]));
      ChooseUploadDate(exif, uploadDate) ==
        FromExif(Exif.DateParts(Some(year), Some(month - 1), Some(day), Some(hour), Some(minute), Some(second)))
  {
    Exif.TakenAtExample(year, month, day, hour, minute, second);
  }

  // ---------------------------------------------------------------------------
  // extractPublicId: url.match(/\/v\d+\/(.+)\./)

  /** The characters the regular expression `.` does not match. */
  predicate IsLineTerminator(c: char) {
    c == '\n' || c == '\r' || c == '\U{2028}' || c == '\U{2029}'
  }

  /**
   The pattern matches `url` starting at `i`, with the version digits ending
   at `j` (where the second slash is) and the final `.` at `k`; the captured
   group is `url[j + 1..k]`.
   */
  predicate IsMatch(url: string, i: int, j: int, k: int) {
    0 <= i && i + 2 < j && j + 1 < k < |url| &&
    url[i] == '/' && url[i + 1] == 'v' &&
    (forall m :: i + 2 <= m < j ==> IsDigit(url[m])) &&
    url[j] == '/' &&
    (forall m :: j + 1 <= m < k ==> !IsLineTerminator(url[m])) &&
    url[k] == '.'
  }

  /** Index of the first line terminator in `s`, or `|s|`. */
  function LineEnd(s: string): (e: nat)
    ensures e <= |s|
    ensures forall m :: 0 <= m < e ==> !IsLineTerminator(s[m])
    ensures e < |s| ==> IsLineTerminator(s[e])
  {
    if |s| == 0 || IsLineTerminator(s[0]) then 0 else 1 + LineEnd(s[1..])
  }

  /** Index of the last `c` in `s`, or -1. */
  function LastIndex(s: string, c: char): (k: int)
    ensures -1 <= k < |s|
    ensures k >= 0 ==> s[k] == c
    ensures forall m :: k < m < |s| ==> s[m] != c
  {
    if |s| == 0 then -1
    else if s[|s| - 1] == c then |s| - 1
    else LastIndex(s[..|s| - 1], c)
  }

  datatype Span = Span(i: nat, j: nat, k: nat)

  /** A run of exactly `p` digits followed by a non-digit has length `p`. */
  lemma {:induction false} DigitRunExact(s: string, p: nat)
    requires p < |s| && !IsDigit(s[p])
    requires forall m :: 0 <= m < p ==> IsDigit(s[m])
    ensures DigitRun(s, false) == p
  {
    if p > 0 {
      assert IsRadixDigit(s[0], false);
      assert forall m :: 0 <= m < p - 1 ==> s[1..][m] == s[m + 1];
      DigitRunExact(s[1..], p - 1);
    } else {
      assert !IsRadixDigit(s[0], false);
    }
  }

  /** No line terminator among the first `p + 1` characters puts the line end
      beyond `p`. */
  lemma {:induction false} LineEndBeyond(s: string, p: nat)
    requires p < |s|
    requires forall m :: 0 <= m <= p ==> !IsLineTerminator(s[m])
    ensures LineEnd(s) > p
  {
    if p > 0 {
      assert forall m :: 0 <= m <= p - 1 ==> s[1..][m] == s[m + 1];
      LineEndBeyond(s[1..], p - 1);
    }
  }

  /** The last occurrence of `c` is at or after any occurrence. */
  lemma {:induction false} LastIndexAtLeast(s: string, p: nat, c: char)
    requires p < |s| && s[p] == c
    ensures LastIndex(s, c) >= p
  {
    if s[|s| - 1] != c {
      assert p < |s| - 1;
      LastIndexAtLeast(s[..|s| - 1], p, c);
    }
  }

  /** In every match starting at `i` the version digits end where the digit
      run after `/v` ends. */
  lemma VersionEnd(url: string, i: int, j: int, k: int)
    requires IsMatch(url, i, j, k)
    ensures j == i + 2 + DigitRun(url[i + 2..], false)
  {
    var s := url[i + 2..];
    assert forall m :: 0 <= m < j - (i + 2) ==> IsDigit(s[m]) by {
      forall m | 0 <= m < j - (i + 2) ensures IsDigit(s[m]) {
        assert s[m] == url[i + 2 + m];
      }
    }
    assert s[j - (i + 2)] == '/';
    DigitRunExact(s, j - (i + 2));
  }

  /** Any final `.` of a match lies on the first line after the version
      slash, so it is at or before that line's last `.`. */
  lemma DotWithinLine(url: string, j: nat, k: int)
    requires j < |url| && j + 1 < k < |url| && url[k] == '.'
    requires forall m :: j + 1 <= m < k ==> !IsLineTerminator(url[m])
    ensures var rest := url[j + 1..];
      k <= j + 1 + LastIndex(rest[..LineEnd(rest)], '.')
  {
    var rest := url[j + 1..];
    var p := k - (j + 1);
    assert forall m :: 0 <= m <= p ==> !IsLineTerminator(rest[m]) by {
      forall m | 0 <= m <= p ensures !IsLineTerminator(rest[m]) {
        assert rest[m] == url[j + 1 + m];
      }
    }
    LineEndBeyond(rest, p);
    var e := LineEnd(rest);
    assert rest[..e][p] == '.';
    LastIndexAtLeast(rest[..e], p, '.');
  }

  /** The match starting at `i`, greedy: the group runs to the last `.` on the
      line after the version. */
  function MatchAt(url: string, i: nat): (r: Option<Span>)
    ensures r.Some? ==> r.value.i == i && IsMatch(url, i, r.value.j, r.value.k)
    ensures r.Some? ==> forall j, k :: IsMatch(url, i, j, k) ==> k <= r.value.k
    ensures r.None? ==> forall j, k :: !IsMatch(url, i, j, k)
  {
    if i + 2 < |url| && url[i] == '/' && url[i + 1] == 'v' then
      var n := DigitRun(url[i + 2..], false);
      var j := i + 2 + n;
      if n >= 1 && j < |url| && url[j] == '/' then
        var rest := url[j + 1..];
        var e := LineEnd(rest);
        var d := LastIndex(rest[..e], '.');
        MatchAtBound(url, i, j);
        if d >= 1 then
          var k := j + 1 + d;
          assert forall m :: i + 2 <= m < j ==> IsDigit(url[m]) by {
            forall m | i + 2 <= m < j ensures IsDigit(url[m]) {
              assert IsRadixDigit(url[i + 2..][m - (i + 2)], false);
            }
          }
          assert forall m :: j + 1 <= m < k ==> !IsLineTerminator(url[m]) by {
            forall m | j + 1 <= m < k ensures !IsLineTerminator(url[m]) {
              assert url[m] == rest[m - (j + 1)];
            }
          }
          assert url[k] == rest[..e][d];
          Some(Span(i, j, k))
        else
          None
      else
        MatchAtNoVersion(url, i, n, j);
        None
    else
      None
  }

  /** Every match at `i` uses the version end `j` and a dot no later than the
      last one on its line. */
  lemma MatchAtBound(url: string, i: nat, j: nat)
    requires i + 2 < |url| && j == i + 2 + DigitRun(url[i + 2..], false) && j < |url|
    ensures forall j', k' :: IsMatch(url, i, j', k') ==>
      j' == j && k' <= j + 1 + LastIndex(url[j + 1..][..LineEnd(url[j + 1..])], '.')
  {
    forall j', k' | IsMatch(url, i, j', k')
      ensures j' == j && k' <= j + 1 + LastIndex(url[j + 1..][..LineEnd(url[j + 1..])], '.')
    {
      VersionEnd(url, i, j', k');
      DotWithinLine(url, j, k');
    }
  }

  lemma MatchAtNoVersion(url: string, i: nat, n: nat, j: nat)
    requires i + 2 < |url| && n == DigitRun(url[i + 2..], false) && j == i + 2 + n
    requires !(n >= 1 && j < |url| && url[j] == '/')
    ensures forall j', k' :: !IsMatch(url, i, j', k')
  {
    forall j', k' ensures !IsMatch(url, i, j', k') {
      if IsMatch(url, i, j', k') {
        VersionEnd(url, i, j', k');
      }
    }
  }

  /** The leftmost match at or after position `from`. */
  function FirstMatch(url: string, from: nat): (r: Option<Span>)
    ensures r.Some? ==> from <= r.value.i && IsMatch(url, r.value.i, r.value.j, r.value.k)
    ensures r.Some? ==> forall i, j, k :: from <= i < r.value.i ==> !IsMatch(url, i, j, k)
    ensures r.Some? ==> forall j, k :: IsMatch(url, r.value.i, j, k) ==> k <= r.value.k
    ensures r.None? ==> forall i, j, k :: from <= i ==> !IsMatch(url, i, j, k)
    decreases |url| - from
  {
    if from + 2 >= |url| then
      None
    else
      match MatchAt(url, from)
      case Some(span) => Some(span)
      case None => FirstMatch(url, from + 1)
  }

  /**
   `extractPublicId(url)`: the capture group of the first match: the
   non-empty text between the leftmost `/v<digits>/` and the last `.` after
   it on the same line; `null` (`None`) when nothing matches.
   */
  function ExtractPublicId(url: string): (r: Option<string>)
    ensures r.None? <==> forall i, j, k :: !IsMatch(url, i, j, k)
    ensures r.Some? ==> r.value != []
    ensures r.Some? ==> forall m :: 0 <= m < |r.value| ==> !IsLineTerminator(r.value[m])
  {
    match FirstMatch(url, 0)
    case None => None
    case Some(span) =>
      var id := url[span.j + 1..span.k];
      assert forall m :: 0 <= m < |id| ==> id[m] == url[span.j + 1 + m];
      Some(id)
  }

  /** The leftmost start wins and the greedy group reaches the last dot. */
  lemma ExtractPublicIdLeftmostGreedy(url: string, i: nat, j: nat, k: nat)
    requires IsMatch(url, i, j, k)
    requires forall i', j', k' :: 0 <= i' < i ==> !IsMatch(url, i', j', k')
    requires forall k' :: IsMatch(url, i, j, k') ==> k' <= k
    ensures ExtractPublicId(url) == Some(url[j + 1..k])
  {
    FirstMatchIs(url, i, j, k);
    ExtractFromFirstMatch(url, Span(i, j, k));
  }

  /** The first match is the leftmost one, with the greedy group. */
  lemma FirstMatchIs(url: string, i: nat, j: nat, k: nat)
    requires IsMatch(url, i, j, k)
    requires forall i', j', k' :: 0 <= i' < i ==> !IsMatch(url, i', j', k')
    requires forall k' :: IsMatch(url, i, j, k') ==> k' <= k
    ensures FirstMatch(url, 0) == Some(Span(i, j, k))
  {
    var r := FirstMatch(url, 0);
    assert r.Some?;
    var span := r.value;
    assert span.i == i;
    VersionEnd(url, i, j, k);
    VersionEnd(url, i, span.j, span.k);
    assert span.j == j;
    assert span.k <= k && k <= span.k;
    assert span == Span(i, j, k);
  }

  /** The identifier is the group of the first match. */
  lemma ExtractFromFirstMatch(url: string, span: Span)
    requires FirstMatch(url, 0) == Some(span)
    ensures ExtractPublicId(url) == Some(url[span.j + 1..span.k])
  {
  }

  /**
   A versioned delivery path `/v<version>/<path>.<ext>` yields `<path>`: the
   greedy group keeps any dots inside the path and drops only the extension.
   */
  lemma PublicIdOfVersionedPath(version: nat, path: string, ext: string)
    requires path != []
    requires forall m :: 0 <= m < |path| ==> !IsLineTerminator(path[m])
    requires '.' !in ext
    ensures ExtractPublicId(("/v" + Decimal(version) + "/") + path + ("." + ext)) == Some(path)
  {
    var v := Decimal(version);
    var url := ("/v" + v + "/") + path + ("." + ext);
    var j := 2 + |v|;
    var k := j + 1 + |path|;
    assert forall m :: 2 <= m < j ==> IsDigit(url[m]) by {
      forall m | 2 <= m < j ensures IsDigit(url[m]) {
        assert url[m] == v[m - 2];
      }
    }
    assert forall m :: j + 1 <= m < k ==> !IsLineTerminator(url[m]) by {
      forall m | j + 1 <= m < k ensures !IsLineTerminator(url[m]) {
        assert url[m] == path[m - (j + 1)];
      }
    }
    assert url[j] == '/' && url[k] == '.';
    assert IsMatch(url, 0, j, k);
    assert forall k' :: k < k' < |url| ==> url[k'] != '.' by {
      forall k' | k < k' < |url| ensures url[k'] != '.' {
        assert url[k'] == ext[k' - k - 1];
      }
    }
    NoLaterDot(url, 0, j, k);
    ExtractPublicIdLeftmostGreedy(url, 0, j, k);
    MiddleSlice(url, "/v" + v + "/", path, "." + ext);
  }

  lemma MiddleSlice(s: string, pre: string, mid: string, post: string)
    requires s == pre + mid + post
    ensures s[|pre|..|pre| + |mid|] == mid
  {
  }

  /** Without a `.` after position `k`, no match extends beyond `k`. */
  lemma NoLaterDot(url: string, i: nat, j: nat, k: nat)
    requires forall k' :: k < k' < |url| ==> url[k'] != '.'
    ensures forall k' :: IsMatch(url, i, j, k') ==> k' <= k
  {
  }

  /** A typical delivery URL yields the folder path and name without extension. */
  lemma ExtractPublicIdExample(url: string)
    requires url == "/v12/gallery/cat.jpg"
    ensures ExtractPublicId(url) == Some("gallery/cat")
  {
    var path, ext := "gallery/cat", "jpg";
    assert Decimal(12) == "12";
    assert url == ("/v" + Decimal(12) + "/") + path + ("." + ext);
    PublicIdOfVersionedPath(12, path, ext);
  }

}

=== FILE: spam_guard.dfy ===
/**
 The per-IP fixed-window comment limiter of the comments service
 (`checkSpam` and the hourly sweep in `comments.service.ts`).

 The limiter state is a map from client IP to a tracker holding the number of
 comments seen in the current window and the window's start time. Time is an
 explicit integer number of milliseconds; the hourly timer becomes an explicit
 `Sweep` operation.
 */
module SpamGuard {
  import opened Common

  /** Length of one rate-limit window: one minute. */
  const WindowMs: int := 60 * 1000
  /** Entries whose window started longer ago than this are dropped by the sweep. */
  const SweepAgeMs: int := 60 * 60 * 1000
  /** Comments allowed per IP inside one window. */
  const MaxPerWindow: int := 3

  const TooManyComments: string := "너무 많은 댓글을 작성하셨습니다. 1분 후에 다시 시도해주세요."

  datatype Tracker = Tracker(count: int, firstRequest: int)

  type Trackers = map<string, Tracker>

  /** Every stored count lies in 1..MaxPerWindow. */
  predicate WellFormed(m: Trackers) {
    forall ip :: ip in m ==> 1 <= m[ip].count <= MaxPerWindow
  }

  /** The window of `t` has expired at `now`: it started strictly more than a
      minute before `now`. Exactly one minute later is still inside. */
  predicate Expired(t: Tracker, now: int) {
    t.firstRequest < now - WindowMs
  }

  /**
   Decides one comment attempt from `ip` at time `now`. `Ok(m')` allows it and
   gives the new limiter state; `Err` rejects it, and the caller keeps the state
   it had, which is exactly what throwing before any mutation does.
   */
  function CheckSpam(m: Trackers, ip: string, now: int): (r: Result<Trackers, HttpError>)
    // a first comment from an unseen IP opens a window at `now`
    ensures ip !in m ==> r == Ok(m[ip := Tracker(1, now)])
    // an expired window is replaced by a fresh one
    ensures ip in m && Expired(m[ip], now) ==> r == Ok(m[ip := Tracker(1, now)])
    // inside the window: rejected exactly when the quota is used up
    ensures ip in m && !Expired(m[ip], now) ==>
      (r.Err? <==> m[ip].count >= MaxPerWindow)
    ensures ip in m && !Expired(m[ip], now) && r.Ok? ==>
      r.value == m[ip := Tracker(m[ip].count + 1, m[ip].firstRequest)]
    ensures r.Err? ==> r.error == BadRequest(TooManyComments)
    // no other IP's entry is touched
    ensures r.Ok? ==> r.value.Keys == m.Keys + {ip}
    ensures r.Ok? ==> forall other :: other in m && other != ip ==> r.value[other] == m[other]
  {
    if ip !in m then Ok(m[ip := Tracker(1, now)])
    else
      var tracker := m[ip];
      if tracker.firstRequest < now - WindowMs then Ok(m[ip := Tracker(1, now)])
      else if tracker.count >= MaxPerWindow then Err(BadRequest(TooManyComments))
      else Ok(m[ip := tracker.(count := tracker.count + 1)])
  }

  /** The limiter never lets a count leave 1..MaxPerWindow. */
  lemma CheckSpamPreservesWellFormed(m: Trackers, ip: string, now: int)
    requires WellFormed(m)
    ensures CheckSpam(m, ip, now).Ok? ==> WellFormed(CheckSpam(m, ip, now).value)
  {
  }

  /** The hourly sweep run at `sweepTime`: drops every entry whose window
      started strictly more than an hour earlier. */
  function Sweep(m: Trackers, sweepTime: int): (r: Trackers)
    ensures r.Keys <= m.Keys
    ensures forall ip :: ip in r ==> r[ip] == m[ip]
    ensures forall ip :: ip in m ==> (ip in r <==> m[ip].firstRequest >= sweepTime - SweepAgeMs)
  {
    map ip | ip in m && !(m[ip].firstRequest < sweepTime - SweepAgeMs) :: m[ip]
  }

  lemma SweepPreservesWellFormed(m: Trackers, sweepTime: int)
    requires WellFormed(m)
    ensures WellFormed(Sweep(m, sweepTime))
  {
  }

  /** Sweeping twice at the same time is the same as sweeping once. */
  lemma SweepIdempotent(m: Trackers, sweepTime: int)
    ensures Sweep(Sweep(m, sweepTime), sweepTime) == Sweep(m, sweepTime)
  {
  }

  /**
   The sweep is invisible to the limiter: any later attempt gets the same
   verdict and leaves the attempting IP with the same tracker as it would have
   without the sweep, because a swept entry's window had long expired.
   */
  lemma {:induction false} SweepNeverChangesVerdict(m: Trackers, sweepTime: int, ip: string, now: int)
    requires sweepTime <= now
    ensures CheckSpam(Sweep(m, sweepTime), ip, now).Ok? == CheckSpam(m, ip, now).Ok?
    ensures CheckSpam(m, ip, now).Ok? ==>
      CheckSpam(Sweep(m, sweepTime), ip, now).value[ip] == CheckSpam(m, ip, now).value[ip]
  {
    var s := Sweep(m, sweepTime);
    if ip in m && ip !in s {
      assert m[ip].firstRequest < sweepTime - SweepAgeMs;
      assert Expired(m[ip], now);
    }
  }

  // ---------------------------------------------------------------------------
  // Bursts from one IP

  /** Feeds the attempts of one IP at the given times through the limiter and
      counts how many were allowed. */
  function Replay(m: Trackers, ip: string, times: seq<int>): (allowed: nat)
    ensures allowed <= |times|
    decreases |times|
  {
    if |times| == 0 then 0
    else
      match CheckSpam(m, ip, times[0])
      case Ok(m') => 1 + Replay(m', ip, times[1..])
      case Err(_) => Replay(m, ip, times[1..])
  }

  /** While the current window of `ip` has not expired, at most the remaining
      quota of attempts is allowed, however many are made. */
  lemma {:induction false} AtMostQuotaInWindow(m: Trackers, ip: string, times: seq<int>)
    requires ip in m && 1 <= m[ip].count <= MaxPerWindow
    requires forall k :: 0 <= k < |times| ==> !Expired(m[ip], times[k])
    ensures Replay(m, ip, times) <= MaxPerWindow - m[ip].count
  {
    if |times| > 0 {
      var r := CheckSpam(m, ip, times[0]);
      if r.Ok? {
        assert r.value[ip] == Tracker(m[ip].count + 1, m[ip].firstRequest);
        AtMostQuotaInWindow(r.value, ip, times[1..]);
      } else {
        AtMostQuotaInWindow(m, ip, times[1..]);
      }
    }
  }

  /** Starting from no record, at most three of any burst of attempts that all
      fall within one minute of the first are allowed. */
  lemma AtMostThreePerWindow(m: Trackers, ip: string, times: seq<int>)
    requires ip !in m && |times| >= 1
    requires forall k :: 0 <= k < |times| ==> times[k] - times[0] <= WindowMs
    ensures Replay(m, ip, times) <= MaxPerWindow
  {
    var m' := m[ip := Tracker(1, times[0])];
    assert forall k :: 0 <= k < |times[1..]| ==> !Expired(m'[ip], times[1..][k]) by {
      forall k | 0 <= k < |times[1..]| ensures !Expired(m'[ip], times[1..][k]) {
        assert times[1..][k] == times[k + 1];
      }
    }
    AtMostQuotaInWindow(m', ip, times[1..]);
  }

  /** Three attempts within a minute of the first are all allowed and a fourth in
      the same minute is rejected; once the minute has passed the next attempt is
      allowed again and opens a new window. */
  lemma ThreeAllowedThenRejected(m: Trackers, ip: string, t0: int, t1: int, t2: int, t3: int, t4: int)
    requires ip !in m
    requires t1 - t0 <= WindowMs && t2 - t0 <= WindowMs && t3 - t0 <= WindowMs
    requires t4 - t0 > WindowMs
    ensures CheckSpam(m, ip, t0).Ok?
    ensures CheckSpam(CheckSpam(m, ip, t0).value, ip, t1).Ok?
    ensures CheckSpam(CheckSpam(CheckSpam(m, ip, t0).value, ip, t1).value, ip, t2).Ok?
    ensures var m3 := CheckSpam(CheckSpam(CheckSpam(m, ip, t0).value, ip, t1).value, ip, t2).value;
      CheckSpam(m3, ip, t3).Err? &&
      CheckSpam(m3, ip, t4) == Ok(m3[ip := Tracker(1, t4)])
  {
  }

  /** A tracker created at t = 0 and full is removed by a sweep at 3601 s, and a
      comment at 3602 s is treated as the first of a fresh window. */
  lemma SweepThenFreshWindow(m: Trackers)
    requires m == map["1.2.3.4" := Tracker(3, 0)]
    ensures "1.2.3.4" !in Sweep(m, 3601000)
    ensures CheckSpam(Sweep(m, 3601000), "1.2.3.4", 3602000) == Ok(map["1.2.3.4" := Tracker(1, 3602000)])
  {
    assert Sweep(m, 3601000) == map[];
  }
}

=== FILE: time_formatter.dfy ===
/**
 The relative-time label of a comment (`getRelativeTime` in
 `time-formatter.ts`). The input is the elapsed time `now − date` in
 milliseconds; reading the clock and parsing the date are left to the caller.
 */
module TimeFormatter {
  import opened Common
  import JsText

  /** Which label the elapsed time falls under, with its count. */
  datatype Bucket = JustNow | Minutes(n: int) | Hours(n: int) | Days(n: int) | Weeks(n: int) | Months(n: int) | Years(n: int)

  /** Whole seconds elapsed, rounded down (`Math.floor(ms / 1000)`); with a
      positive divisor Dafny's division already rounds down, negatives included. */
  function Seconds(elapsedMs: int): int {
    elapsedMs / 1000
  }

  /** The bucketing of `getRelativeTime`. */
  function BucketOf(elapsedMs: int): (b: Bucket)
    // under a minute, future times included
    ensures b.JustNow? <==> Seconds(elapsedMs) < 60
    // which range selects which unit
    ensures b.Minutes? <==> 60 <= Seconds(elapsedMs) < 3600
    ensures b.Hours? <==> 3600 <= Seconds(elapsedMs) < 86400
    ensures b.Days? <==> 86400 <= Seconds(elapsedMs) && Seconds(elapsedMs) / 86400 < 7
    ensures b.Weeks? <==> 7 <= Seconds(elapsedMs) / 86400 < 30
    ensures b.Months? <==> 30 <= Seconds(elapsedMs) / 86400 < 365
    ensures b.Years? <==> 365 <= Seconds(elapsedMs) / 86400
    // and the count within the unit
    ensures b.Minutes? ==> 1 <= b.n <= 59 && b.n == Seconds(elapsedMs) / 60
    ensures b.Hours? ==> 1 <= b.n <= 23 && b.n == Seconds(elapsedMs) / 3600
    ensures b.Days? ==> 1 <= b.n <= 6 && b.n == Seconds(elapsedMs) / 86400
    ensures b.Weeks? ==> 1 <= b.n <= 4 && b.n == Seconds(elapsedMs) / 86400 / 7
    ensures b.Months? ==> 1 <= b.n <= 12 && b.n == Seconds(elapsedMs) / 86400 / 30
    ensures b.Years? ==> 1 <= b.n && b.n == Seconds(elapsedMs) / 86400 / 365
  {
    var seconds := Seconds(elapsedMs);
    if seconds < 0 then JustNow
    else if seconds < 60 then JustNow
    else
      var minutes := seconds / 60;
      if minutes < 60 then Minutes(minutes)
      else
        var hours := minutes / 60;
        if hours < 24 then Hours(hours)
        else
          var days := hours / 24;
          if days < 7 then Days(days)
          else if days < 30 then Weeks(days / 7)
          else if days < 365 then Months(days / 30)
          else Years(days / 365)
  }

  /** Which unit a bucket uses, from the finest to the coarsest. */
  function Rank(b: Bucket): nat {
    match b
    case JustNow => 0
    case Minutes(_) => 1
    case Hours(_) => 2
    case Days(_) => 3
    case Weeks(_) => 4
    case Months(_) => 5
    case Years(_) => 6
  }

  /** `b` is no later than `c`: a finer unit, or the same unit with a count no larger. */
  predicate NotLater(b: Bucket, c: Bucket) {
    Rank(b) < Rank(c) || (Rank(b) == Rank(c) && (b.JustNow? || b.n <= c.n))
  }

  /** Longer elapsed times never get an earlier-sounding label. */
  lemma BucketMonotone(a: int, b: int)
    requires a <= b
    ensures NotLater(BucketOf(a), BucketOf(b))
  {
    var sa, sb := Seconds(a), Seconds(b);
    assert sa <= sb;
    DivMonotone(sa, sb, 60);
    DivMonotone(sa / 60, sb / 60, 60);
    DivMonotone(sa / 60 / 60, sb / 60 / 60, 24);
    var da, db := sa / 60 / 60 / 24, sb / 60 / 60 / 24;
    DivMonotone(da, db, 7);
    DivMonotone(da, db, 30);
    DivMonotone(da, db, 365);
  }

  lemma DivMonotone(x: int, y: int, d: int)
    requires x <= y && d > 0
    ensures x / d <= y / d
  {
    var qx, qy := x / d, y / d;
    assert x == d * qx + x % d && 0 <= x % d;
    assert y == d * qy + y % d && y % d < d;
    if qx > qy {
      MulStep(d, qx, qy);
    }
  }

  lemma MulStep(d: int, p: int, q: int)
    requires d > 0 && p > q
    ensures d * p >= d * q + d
  {
    assert d * p - d * q - d == d * (p - q - 1);
  }

  // ---------------------------------------------------------------------------
  // Rendering

  const JustNowText: string := "방금 전"

  function Suffix(b: Bucket): string
    requires !b.JustNow?
  {
    match b
    case Minutes(_) => "분 전"
    case Hours(_) => "시간 전"
    case Days(_) => "일 전"
    case Weeks(_) => "주 전"
    case Months(_) => "개월 전"
    case Years(_) => "년 전"
  }

  /** The label text: the count in decimal followed by the unit. */
  function Render(b: Bucket): (s: string)
    requires b.JustNow? || b.n >= 0
    ensures b.JustNow? ==> s == JustNowText
    ensures !b.JustNow? ==> s == Decimal(b.n) + Suffix(b)
  {
    if b.JustNow? then JustNowText else Decimal(b.n) + Suffix(b)
  }

  /** `getRelativeTime`. */
  function GetRelativeTime(elapsedMs: int): (s: string)
    ensures Seconds(elapsedMs) < 60 ==> s == JustNowText
    ensures 60 <= Seconds(elapsedMs) < 3600 ==> s == Decimal(Seconds(elapsedMs) / 60) + "분 전"
    ensures 3600 <= Seconds(elapsedMs) < 86400 ==> s == Decimal(Seconds(elapsedMs) / 3600) + "시간 전"
    ensures 86400 <= Seconds(elapsedMs) && Seconds(elapsedMs) / 86400 < 7 ==>
      s == Decimal(Seconds(elapsedMs) / 86400) + "일 전"
    ensures 7 <= Seconds(elapsedMs) / 86400 < 30 ==> s == Decimal(Seconds(elapsedMs) / 86400 / 7) + "주 전"
    ensures 30 <= Seconds(elapsedMs) / 86400 < 365 ==> s == Decimal(Seconds(elapsedMs) / 86400 / 30) + "개월 전"
    ensures 365 <= Seconds(elapsedMs) / 86400 ==> s == Decimal(Seconds(elapsedMs) / 86400 / 365) + "년 전"
  {
    Render(BucketOf(elapsedMs))
  }

  /** Different buckets are labelled differently, so the label determines the
      bucket. */
  lemma RenderInjective(b: Bucket, c: Bucket)
    requires b.JustNow? || b.n >= 0
    requires c.JustNow? || c.n >= 0
    requires Render(b) == Render(c)
    ensures b == c
  {
    StartsWithDigit(b);
    StartsWithDigit(c);
    if !b.JustNow? {
      NumeralPrefixUnique(b.n, Suffix(b), c.n, Suffix(c));
      SuffixInjective(b, c);
    }
  }

  /** Only the labels with a count start with a digit. */
  lemma StartsWithDigit(b: Bucket)
    requires b.JustNow? || b.n >= 0
    ensures |Render(b)| > 0 && (IsDigit(Render(b)[0]) <==> !b.JustNow?)
  {
    if !b.JustNow? {
      assert Render(b)[0] == Decimal(b.n)[0];
    }
  }

  /** A numeral followed by text that does not start with a digit can be split
      back into the two in only one way. */
  lemma NumeralPrefixUnique(m: nat, s: string, n: nat, t: string)
    requires |s| > 0 && !IsDigit(s[0]) && |t| > 0 && !IsDigit(t[0])
    requires Decimal(m) + s == Decimal(n) + t
    ensures m == n && s == t
  {
    var a, b := Decimal(m), Decimal(n);
    JsText.DigitRunOfConcat(a, s);
    JsText.DigitRunOfConcat(b, t);
    assert |a| == |b|;
    assert a == (a + s)[..|a|] == (b + t)[..|b|] == b;
    DecimalInjective(m, n);
    assert s == (a + s)[|a|..] == (b + t)[|b|..] == t;
  }

  lemma SuffixInjective(b: Bucket, c: Bucket)
    requires !b.JustNow? && !c.JustNow? && b.n == c.n
    requires Suffix(b) == Suffix(c)
    ensures b == c
  {
  }

  lemma Examples()
    ensures GetRelativeTime(-5000) == JustNowText
    ensures GetRelativeTime(59999) == JustNowText
    ensures BucketOf(60000) == Minutes(1)
    ensures BucketOf(3600000) == Hours(1)
    ensures BucketOf(29 * 86400000) == Weeks(4)
    ensures BucketOf(364 * 86400000) == Months(12)
    ensures BucketOf(730 * 86400000) == Years(2)
  {
  }
}

=== FILE: top_three.dfy ===
/**
 The "photos of the month" slider (`TopThreeBanner.tsx`): the first three
 photos of the list, one shown at a time, with previous/next arrows and one
 indicator dot per photo.
 */
module TopThree {

  const MaxShown: nat := 3

  /** `photos.slice(0, 3)`. */
  function TopThree<T>(photos: seq<T>): (r: seq<T>)
    ensures |r| == if |photos| < MaxShown then |photos| else MaxShown
    ensures forall k :: 0 <= k < |r| ==> r[k] == photos[k]
  {
    if |photos| < MaxShown then photos else photos[..MaxShown]
  }

  /** The banner renders nothing for an empty list. */
  predicate Rendered(n: nat) {
    n != 0
  }

  /** The arrows and the indicator dots appear only with more than one photo. */
  predicate ShowsControls(n: nat) {
    n > 1
  }

  /** The banner appears exactly for a non-empty list, and its arrows and dots
      exactly when the list has at least two photos, however long it is. The
      slice never outgrows the medal list, so every shown photo has a medal. */
  lemma BannerVisibility<T>(photos: seq<T>)
    ensures Rendered(|TopThree(photos)|) <==> |photos| >= 1
    ensures ShowsControls(|TopThree(photos)|) <==> |photos| >= 2
    ensures |TopThree(photos)| <= MaxShown
    ensures forall k :: 0 <= k < |TopThree(photos)| ==> MedalRank(k) == k + 1
  {
  }

  /** `handleNext`: one slide forward, from the last back to the first. */
  function Next(index: nat, n: nat): (r: nat)
    requires n >= 1
    ensures r < n
    ensures index + 1 < n ==> r == index + 1
    ensures index == n - 1 ==> r == 0
  {
    assert index + 1 < n ==> (index + 1) % n == index + 1 by {
      if index + 1 < n { ModUnique(index + 1, n, 0, index + 1); }
    }
    assert index == n - 1 ==> (index + 1) % n == 0 by {
      if index == n - 1 { ModUnique(index + 1, n, 1, 0); }
    }
    (index + 1) % n
  }

  /** `handlePrev`: one slide back, from the first round to the last. */
  function Prev(index: nat, n: nat): (r: nat)
    requires n >= 1
    ensures r < n
    ensures 0 < index < n ==> r == index - 1
    ensures index == 0 ==> r == n - 1
  {
    assert 0 < index < n ==> (index - 1 + n) % n == index - 1 by {
      if 0 < index < n { ModUnique(index - 1 + n, n, 1, index - 1); }
    }
    assert index == 0 ==> (index - 1 + n) % n == n - 1 by {
      if index == 0 { ModUnique(n - 1, n, 0, n - 1); }
    }
    (index - 1 + n) % n
  }

  /** Prev undoes Next and Next undoes Prev. */
  lemma NextPrevInverse(index: nat, n: nat)
    requires index < n
    ensures Prev(Next(index, n), n) == index
    ensures Next(Prev(index, n), n) == index
  {
  }

  /** `k` steps forward from `index`. */
  function Advance(index: nat, n: nat, k: nat): (r: nat)
    requires n >= 1
    ensures r < n
  {
    if k == 0 then index % n else Next(Advance(index, n, k - 1), n)
  }

  /** `k` presses of the forward arrow move `k` places round the ring. */
  lemma {:induction false} AdvanceIsAddition(index: nat, n: nat, k: nat)
    requires n >= 1
    ensures Advance(index, n, k) == (index + k) % n
  {
    if k > 0 {
      AdvanceIsAddition(index, n, k - 1);
      ModSucc(index + k - 1, n);
    }
  }

  lemma ModSucc(x: nat, n: nat)
    requires n >= 1
    ensures (x % n + 1) % n == (x + 1) % n
  {
    var q, r := x / n, x % n;
    if r + 1 < n {
      ModUnique(x + 1, n, q, r + 1);
      ModUnique(r + 1, n, 0, r + 1);
    } else {
      ModUnique(x + 1, n, q + 1, 0);
      ModUnique(r + 1, n, 1, 0);
    }
  }

  /** Division with remainder has only one answer. */
  lemma ModUnique(x: int, n: int, q: int, r: int)
    requires n >= 1 && 0 <= r < n && x == q * n + r
    ensures x % n == r && x / n == q
  {
    var d := q - x / n;
    assert d * n == x % n - r by {
      assert x == (x / n) * n + x % n;
      assert q * n - (x / n) * n == d * n;
    }
    MulSign(d, n);
  }

  lemma MulSign(d: int, n: int)
    requires n >= 1
    ensures d >= 1 ==> d * n >= n
    ensures d <= -1 ==> d * n <= -n
  {
    if d >= 1 {
      assert d * n - n == (d - 1) * n;
    } else if d <= -1 {
      assert -(d * n) - n == (-d - 1) * n;
    }
  }

  /** Going round the whole ring comes back to the same photo. */
  lemma FullCircle(index: nat, n: nat)
    requires index < n
    ensures Advance(index, n, n) == index
  {
    AdvanceIsAddition(index, n, n);
    ModUnique(index + n, n, 1, index);
  }

  /** The medal rank of the photo at `index` (`MEDALS[index].rank`). */
  function MedalRank(index: nat): (rank: nat)
    requires index < MaxShown
    ensures 1 <= rank <= MaxShown
    ensures rank - 1 == index
  {
    [1, 2, 3][index]
  }

  /** When the list shrinks under a stale index, one arrow press brings the
      index back in range. */
  lemma ArrowRecoversStaleIndex(index: nat, n: nat)
    requires 1 <= n <= index
    ensures Next(index, n) < n && Prev(index, n) < n
  {
  }
}

=== FILE: upload_form.dfy ===
/**
 The upload page's form (`upload/page.tsx`): when it may be submitted, what
 it sends, and the simulated progress bar. The progress ticks every 200 ms
 until the server answers; the ticks are explicit events here.
 */
module UploadForm {
  import opened Common
  import JsText
  import Dto

  const DefaultFileName: string := "image.jpg"
  const DescriptionMax: int := 100
  const ProgressCap: int := 90
  const ProgressStep: int := 10

  datatype Form = Form(
    croppedBlob: Option<seq<bv8>>,
    originalName: Option<string>,
    previewUrl: string,
    departmentName: string,
    title: string,
    description: string,
    isUploading: bool,
    uploadProgress: int,
    isComplete: bool)

  /** `isFormValid`: a cropped image and all three text fields filled. */
  predicate IsFormValid(f: Form) {
    f.croppedBlob.Some? && f.departmentName != "" && f.title != "" && f.description != ""
  }

  /** The submit button's `disabled`. */
  predicate SubmitDisabled(f: Form) {
    !IsFormValid(f) || f.isUploading
  }

  /** The multipart body. */
  datatype Upload = Upload(file: seq<bv8>, fileName: string, departmentName: string, title: string, description: string)

  /** `handleSubmit` up to the request: an incomplete form sends nothing;
      otherwise uploading starts at 0 % and the form fields are sent, the file
      under its original name or `image.jpg`. */
  function Submit(f: Form): (r: (Form, Option<Upload>))
    ensures r.1.Some? <==> IsFormValid(f)
    ensures r.1.None? ==> r.0 == f
    ensures r.1.Some? ==> r.0.isUploading && r.0.uploadProgress == 0
    ensures r.1.Some? ==> r.1.value.file == f.croppedBlob.value
    ensures r.1.Some? ==>
      (r.1.value.departmentName, r.1.value.title, r.1.value.description) == (f.departmentName, f.title, f.description)
    ensures r.1.Some? && f.originalName.Some? && f.originalName.value != "" ==> r.1.value.fileName == f.originalName.value
    ensures r.1.Some? && (f.originalName.None? || f.originalName.value == "") ==> r.1.value.fileName == DefaultFileName
  {
    if !IsFormValid(f) then (f, None)
    else
      var name := if f.originalName.Some? && f.originalName.value != "" then f.originalName.value else DefaultFileName;
      (f.(isUploading := true, uploadProgress := 0),
       Some(Upload(f.croppedBlob.value, name, f.departmentName, f.title, f.description)))
  }

  /** What the form sends passes the backend's photo validation once the
      description respects the input's 100-character limit. */
  lemma SubmittedBodyIsValid(f: Form)
    requires IsFormValid(f) && JsText.Length(f.description) <= DescriptionMax
    ensures var u := Submit(f).1.value;
      Dto.PhotoBodyValid(Dto.PhotoBody(Dto.Str(u.departmentName), Dto.Str(u.title), Dto.Str(u.description), Dto.Absent))
  {
    Dto.PhotoBodyValidIff(Dto.PhotoBody(Dto.Str(f.departmentName), Dto.Str(f.title), Dto.Str(f.description), Dto.Absent));
  }

  /** One interval tick: +10 % until 90 %, then no change. */
  function Tick(progress: int): (r: int)
    ensures progress < ProgressCap ==> r == progress + ProgressStep
    ensures progress >= ProgressCap ==> r == progress
  {
    if progress >= ProgressCap then progress else progress + ProgressStep
  }

  /** Progress after `k` ticks. */
  function Ticks(progress: int, k: nat): int {
    if k == 0 then progress else Tick(Ticks(progress, k - 1))
  }

  /** From 0 %, the bar shows 10 % per tick and stops at 90 %. */
  lemma {:induction false} TicksFromZero(k: nat)
    ensures Ticks(0, k) == if 10 * k < ProgressCap then 10 * k else ProgressCap
  {
    if k > 0 {
      TicksFromZero(k - 1);
    }
  }

  /** Ticking never moves the bar back and never reaches 100 %: only the
      server's answer shows a full bar. */
  lemma {:induction false} TicksBounded(progress: int, k: nat)
    requires progress < 100
    ensures progress <= Ticks(progress, k) < 100
  {
    if k > 0 {
      TicksBounded(progress, k - 1);
    }
  }

  /** The server's answer: 100 %, then either completion or, on a failed or
      thrown request, back to an idle form at 0 % with the fields kept. */
  function Answered(f: Form, ok: bool): (r: Form)
    requires f.isUploading
    ensures ok ==> r == f.(uploadProgress := 100, isComplete := true)
    ensures !ok ==> r == f.(isUploading := false, uploadProgress := 0)
  {
    var done := f.(uploadProgress := 100);
    if ok then done.(isComplete := true) else done.(isUploading := false, uploadProgress := 0)
  }

  /** A failed upload leaves a form that can be submitted again unchanged. */
  lemma FailureAllowsRetry(f: Form)
    requires IsFormValid(f)
    ensures var started := Submit(f).0;
      !SubmitDisabled(Answered(started, false)) &&
      Submit(Answered(started, false)).1 == Submit(f).1
  {
  }

  /** While uploading the button is disabled, so a second upload cannot start
      from it. */
  lemma UploadingDisablesSubmit(f: Form)
    requires IsFormValid(f)
    ensures SubmitDisabled(Submit(f).0)
    ensures SubmitDisabled(Answered(Submit(f).0, true))
  {
  }

  /** `handleRemoveImage`: the image, its name and the preview are dropped. */
  function RemoveImage(f: Form): (r: Form)
    ensures !IsFormValid(r)
    ensures r.departmentName == f.departmentName && r.title == f.title && r.description == f.description
  {
    f.(originalName := None, previewUrl := "", croppedBlob := None)
  }

  /** Without an image nothing is uploaded, however complete the text fields. */
  lemma RemovedImageBlocksSubmit(f: Form)
    ensures Submit(RemoveImage(f)).1.None?
    ensures SubmitDisabled(RemoveImage(f))
  {
  }
}
